=== FILE: README.md ===
# OpenSim currency: money server, store, region modules and script-event admission

A Dafny model of the core of the OpenSim currency system. The model covers four parts:

- **The money server.** `MoneyXmlRpcModule` handles login, logout and balance queries. It also handles transfers, forced transfers, charges, banker and script credits, cancel and lookup, plus the settlement step `NotifyTransfer` with its rollback. Every handler is a pure function from the server state and a request to the new state and the response table. The state is the database plus the session dictionaries.
- **The MySQL store.** `MySQLMoneyManager` keeps three tables: balances, transactions and userinfo. Each SQL statement is a map update that returns its "rows affected" verdict. The model also covers:
  - the paged history query and its count;
  - the `Rev.N` table-comment parser and the migration switch;
  - the balance-table merge that strips the `@host` suffix.
- **The region money modules.** The model covers the 0.7 branch, with its in-memory fallback ledger of 2000 per avatar, and trunk, which has no fallback. For both it models the checks a region makes before it asks the money server to move money:
  - the self-transfer no-op;
  - the object-payment payee redirection;
  - the funds check;
  - validate-then-pay-once for land purchases;
  - the object-buy price checks.
- **Script-event admission in the Aurora script engine.** The model covers:
  - the per-script flags with which `CheckIfEventShouldFire` and `EventComplete` keep at most one event of each kind queued;
  - the `money` event path, whose result the money server's delivery confirmation depends on;
  - the `//Engine:` header that `rez_script` reads.

Modules:

- `Base`: Option, ASCII lower-casing, and the sum of a map's values.
- `Store`: the store statements.
- `TxQuery`: the history query.
- `Schema`: the version parser and migrations.
- `BalanceMerge`: `UpdateBalanceTable1`.
- `MoneyServer`: the handlers.
- `ServerProps`: properties that span several handlers.
- `Region`: what both region modules share.
- `Region07`: the 0.7 branch.
- `RegionTrunk`: trunk.
- `ScriptEvents`: the Aurora event manager.

**Assumptions and parameters.**

- `DoTransfer` and `DoAddMoney` run in a database service whose code is not part of this model. They are modelled under a stated assumption:
  - when `DoTransfer` succeeds, it runs `withdrawMoney(sender)` and then `giveMoney(receiver)` for the recorded transaction;
  - `DoAddMoney` runs `giveMoney(receiver)`;
  - when either fails, it changes nothing;
  - whether each call succeeds is a parameter.
- Every other call the handlers make through the database service (`getBalance`, `addUser`, `withdrawMoney`, `giveMoney`, `FetchUserInfo`, `addUserInfo`, `updateUserInfo`, `updateTransactionStatus`, `FetchTransaction`, `ValidateTransfer`, `addTransaction`, `SetTransExpired`) is assumed to pass straight through to the MySQL store, exceptions included. `MoneyServer.LoginBalance`'s duplicate-key path depends on this.
- Several other values are parameters of the model:
  - the outbound XML-RPC answers (a region's delivery confirmation, and the money server's answers to a region);
  - the clock;
  - the random transaction id and secure code;
  - the MD5 digest;
  - the set of agents present in a region's scenes;
  - the prims found in a scene.

**Behaviour worth knowing:**

- The server does no balance check before a transfer (`ServerProps.NoBalanceCheck`).
- A zero-amount transfer answers success but stays Pending; it is not settled (`ServerProps.ZeroTransferStaysPending`).
- Status writes are unconditional. Cancel turns even a settled transaction into Failed and moves no money back (`Store.StatusWriteIsUnconditional`, `ServerProps.CancelOverridesSuccess`).
- `withdrawMoney` has no floor at zero (`Store.WithdrawMoney`).

## Model

| member | source | states |
|---|---|---|
| Store.GetBalance | simple_ident/OpenSim.Data.MySQL.MySQLMoneyDataWrapper/MySQLMoneyManager.cs:603-630 | the stored balance when the row exists, -1 when there is none, -2 when the query fails |
| Store.StoredSentinelLooksMissing | simple_ident/OpenSim.Data.MySQL.MySQLMoneyDataWrapper/MySQLMoneyManager.cs:603-630 | a stored balance of -1 reads exactly like a missing row |
| Store.UpdateBalance | simple_ident/OpenSim.Data.MySQL.MySQLMoneyDataWrapper/MySQLMoneyManager.cs:633-655 | succeeds iff the account row exists; sets that row to the absolute amount and changes no other row or table |
| Store.UpdateBalanceReadsBack | simple_ident/OpenSim.Data.MySQL.MySQLMoneyDataWrapper/MySQLMoneyManager.cs:603-655 | after the write, getBalance reports the new amount for the written account and the old answer for every other one (and for a missing row) |
| Store.AddUser | simple_ident/OpenSim.Data.MySQL.MySQLMoneyDataWrapper/MySQLMoneyManager.cs:658-673 | inserts the row iff the key is new; an existing key is a primary-key violation that reaches the caller |
| Store.WithdrawMoney | simple_ident/OpenSim.Data.MySQL.MySQLMoneyDataWrapper/MySQLMoneyManager.cs:702-730 | debits exactly one account, with no floor at zero, and sets the transaction back to Pending; every other row is unchanged; success iff either statement matched a row |
| Store.GiveMoney | simple_ident/OpenSim.Data.MySQL.MySQLMoneyDataWrapper/MySQLMoneyManager.cs:740-768 | credits exactly one account and marks the transaction Success; every other row is unchanged; success iff either statement matched a row |
| Store.WithdrawThenGiveRestores | simple_ident/OpenSim.Data.MySQL.MySQLMoneyDataWrapper/MySQLMoneyManager.cs:702-768 | a credit undoes a debit of the same amount to the same account |
| Store.AddTransaction | simple_ident/OpenSim.Data.MySQL.MySQLMoneyDataWrapper/MySQLMoneyManager.cs:776-810 | an insert on an existing id fails and leaves the stored record as it was; on a new id it adds exactly that record |
| Store.UpdateTransactionStatus | simple_ident/OpenSim.Data.MySQL.MySQLMoneyDataWrapper/MySQLMoneyManager.cs:813-835 | true iff the row exists; overwrites status and description and touches no other row |
| Store.StatusWriteIsUnconditional | simple_ident/OpenSim.Data.MySQL.MySQLMoneyDataWrapper/MySQLMoneyManager.cs:813-835 | a Success transaction can be rewritten to Failed: nothing guards a terminal status |
| Store.SetTransExpired | simple_ident/OpenSim.Data.MySQL.MySQLMoneyDataWrapper/MySQLMoneyManager.cs:838-862 | every Pending record at or before the deadline becomes Failed with "expired"; every other record is unchanged; true iff some record qualified |
| Store.SetTransExpiredIdempotent | simple_ident/OpenSim.Data.MySQL.MySQLMoneyDataWrapper/MySQLMoneyManager.cs:838-862 | after one sweep no stale record is left, so a second sweep changes nothing and reports false |
| Store.ValidateTransfer | simple_ident/OpenSim.Data.MySQL.MySQLMoneyDataWrapper/MySQLMoneyManager.cs:871-899 | true iff the transaction exists and its stored secure code is exactly the presented one |
| Store.ValidateAfterAdd | simple_ident/OpenSim.Data.MySQL.MySQLMoneyDataWrapper/MySQLMoneyManager.cs:776-899 | no code validates an id with no row, and once a record is inserted exactly its own secure code validates it |
| Store.FetchTransaction | simple_ident/OpenSim.Data.MySQL.MySQLMoneyDataWrapper/MySQLMoneyManager.cs:902-940 | a row exists iff the fetch finds one, and then the fetch holds that row's sender, receiver, amount, object, region handle, type, time, status and description, but not its secure code |
| Store.FetchAfterAdd | simple_ident/OpenSim.Data.MySQL.MySQLMoneyDataWrapper/MySQLMoneyManager.cs:776-940 | a fetch returns every column an accepted insert stored except the secure code (round trip) |
| Store.FetchHidesSecureCode | simple_ident/OpenSim.Data.MySQL.MySQLMoneyDataWrapper/MySQLMoneyManager.cs:918-927 | two records that differ only in their secure code fetch alike, so the fetch never reveals the code |
| Store.FetchUserInfo | simple_ident/OpenSim.Data.MySQL.MySQLMoneyDataWrapper/MySQLMoneyManager.cs:1075-1109 | the userinfo row iff it exists; the handlers' userinfo checks go through it, and the ReadsBack lemmas below relate it to the two writes |
| Store.AddUserInfo | simple_ident/OpenSim.Data.MySQL.MySQLMoneyDataWrapper/MySQLMoneyManager.cs:1044-1072 | inserts iff the key is new; a duplicate key is reported as false and changes nothing |
| Store.AddUserInfoReadsBack | simple_ident/OpenSim.Data.MySQL.MySQLMoneyDataWrapper/MySQLMoneyManager.cs:1044-1109 | after addUserInfo a fetch of a new user returns the inserted row; an existing row and every other user read as before |
| Store.UpdateUserInfo | simple_ident/OpenSim.Data.MySQL.MySQLMoneyDataWrapper/MySQLMoneyManager.cs:1112-1129 | rewrites the row iff it exists; otherwise false and nothing changes |
| Store.UpdateUserInfoReadsBack | simple_ident/OpenSim.Data.MySQL.MySQLMoneyDataWrapper/MySQLMoneyManager.cs:1075-1129 | after updateUserInfo a fetch of an existing user returns the new row; a missing user and every other user read as before |
| Store.AddOrUpdateStoresInfo | simple_ident/OpenSim.Data.MySQL.MySQLMoneyDataWrapper/MySQLMoneyManager.cs:1044-1129 | for any user exactly one of the insert and the update matches, and whichever does leaves the row readable |
| TxQuery.CountAfterAdd | simple_ident/OpenSim.Data.MySQL.MySQLMoneyDataWrapper/MySQLMoneyManager.cs:1007-1036 | recording a transaction raises the count by one exactly when the new record matches the user and the time window; the count is `TxQuery.GetTransactionNum` (getTransactionNum) |
| TxQuery.InsertByTime | simple_ident/OpenSim.Data.MySQL.MySQLMoneyDataWrapper/MySQLMoneyManager.cs:944-1004 | placing a row in a time-ordered listing keeps it ordered and adds exactly that row |
| TxQuery.InsertByTimePermutes | simple_ident/OpenSim.Data.MySQL.MySQLMoneyDataWrapper/MySQLMoneyManager.cs:944-1004 | the listing after the insertion is a permutation of the old rows plus the new one |
| TxQuery.Window | simple_ident/OpenSim.Data.MySQL.MySQLMoneyDataWrapper/MySQLMoneyManager.cs:944-1004 | the page holds at most the requested number of rows, taken in order from the given offset, and is empty past the end |
| TxQuery.FetchTransactions | simple_ident/OpenSim.Data.MySQL.MySQLMoneyDataWrapper/MySQLMoneyManager.cs:944-1036 | the full listing holds exactly the stored records that involve the user within [start, end], one per id, in ascending time, so its length is the count; each row carries the columns the range query reads (no secure code, no region handle); the page is that listing's window |
| Schema.ShowNat | simple_ident/OpenSim.Data.MySQL.MySQLMoneyDataWrapper/MySQLMoneyManager.cs:208-220 | the decimal spelling of a revision number is a non-empty digit string |
| Schema.DigitsRoundTrip | simple_ident/OpenSim.Data.MySQL.MySQLMoneyDataWrapper/MySQLMoneyManager.cs:208-220 | reading back a spelled number gives the number |
| Schema.VersionOfRevision | simple_ident/OpenSim.Data.MySQL.MySQLMoneyDataWrapper/MySQLMoneyManager.cs:208-220 | the comment `Name.N`, with a word-character name, parses to N (so "Rev.7" gives 7); the parse is `Schema.TableVersionNum` (getTableVersionNum) |
| Schema.NoDotNoVersion | simple_ident/OpenSim.Data.MySQL.MySQLMoneyDataWrapper/MySQLMoneyManager.cs:165-197 | a comment without a dot parses to 0, and then no transactions-table update runs |
| Schema.TransactionUpdates | simple_ident/OpenSim.Data.MySQL.MySQLMoneyDataWrapper/MySQLMoneyManager.cs:165-197 | a transactions table at revision v in 2..6 runs updates v, v+1, …, 6 in that order; any other revision runs none |
| Schema.SingleTableUpdates | simple_ident/OpenSim.Data.MySQL.MySQLMoneyDataWrapper/MySQLMoneyManager.cs:115-164 | the balance and userinfo tables run their one update iff they are at revision 1; BalanceMerge.BalanceMigrationConverges follows the balance table through it |
| Schema.StripHostCuts | simple_ident/OpenSim.Data.MySQL.MySQLMoneyDataWrapper/MySQLMoneyManager.cs:515-517 | the `@.+$` replacement cuts a key just before its first '@' when that '@' is not the last character; any other key is kept; the replacement is `Schema.StripHost` |
| Schema.StripHostIdempotent | simple_ident/OpenSim.Data.MySQL.MySQLMoneyDataWrapper/MySQLMoneyManager.cs:515-517 | stripping the host twice is the same as stripping it once |
| Schema.MigrationConverges | simple_ident/OpenSim.Data.MySQL.MySQLMoneyDataWrapper/MySQLMoneyManager.cs:165-197 | a table found at revision 2..6 ends at Rev.7 with exactly the missing columns added and every account key stripped of its host; a second start-up changes nothing; the start-up switch is `Schema.MigrateTransactions` |
| BalanceMerge.FoldRowsTotal | simple_ident/OpenSim.Data.MySQL.MySQLMoneyDataWrapper/MySQLMoneyManager.cs:286-349 | folding the listed suffixed rows onto their bare keys adds exactly their balances to the total |
| BalanceMerge.FoldRowsNoCollision | simple_ident/OpenSim.Data.MySQL.MySQLMoneyDataWrapper/MySQLMoneyManager.cs:286-349 | with no negative balance in the table, no insert collides and no negative balance appears |
| BalanceMerge.DeleteRowsTotal | simple_ident/OpenSim.Data.MySQL.MySQLMoneyDataWrapper/MySQLMoneyManager.cs:286-349 | deleting the listed rows takes exactly their balances out of the total |
| BalanceMerge.MergeHostBalancesSound | simple_ident/OpenSim.Data.MySQL.MySQLMoneyDataWrapper/MySQLMoneyManager.cs:286-349 | in whatever order the rows are listed, a completed merge keeps the table total, leaves exactly the bare keys and no suffixed key, and keeps the rows nothing folds onto; with no negative balance it always completes; the merge is `BalanceMerge.MergeHostBalances` (UpdateBalanceTable1) |
| BalanceMerge.BalanceMigrationConverges | simple_ident/OpenSim.Data.MySQL.MySQLMoneyDataWrapper/MySQLMoneyManager.cs:286-349 | a balance table at revision 1 with no negative balance ends at Rev.2 with the same total and no suffixed key, and the next start-up leaves it alone; a table at any other revision is not touched; the start-up step is `BalanceMerge.MigrateBalances` |
| MoneyServer.UserKey | secure/OpenSim.Grid.MoneyServer/MoneyXmlRpcModule.cs:401-402 | the account key splits back into the UUID and the user-server address around the '@' |
| MoneyServer.LoginBalance | secure/OpenSim.Grid.MoneyServer/MoneyXmlRpcModule.cs:279-322 | login's balance lookup: a missing account is created at the default balance; a non-negative balance is returned unchanged; -2 sets no success key; a stored -1 makes the insert collide (failure, balance 0) |
| MoneyServer.TryAddUserInfo | secure/OpenSim.Grid.MoneyServer/MoneyXmlRpcModule.cs:322-336 | under the stated assumption (insert, else update): when it succeeds the row holds the new information and a fetch returns it; when it fails nothing changes |
| MoneyServer.Login | secure/OpenSim.Grid.MoneyServer/MoneyXmlRpcModule.cs:241-349 | an empty avatar name is refused with balance 0 and nothing changes; otherwise the session pair is overwritten so that the gate admits it, the balance follows the lookup, and the userinfo row is refreshed unless that call fails |
| MoneyServer.Logout | secure/OpenSim.Grid.MoneyServer/MoneyXmlRpcModule.cs:1184-1232 | removes the key from both session dictionaries, after which no pair of ids passes the gate |
| MoneyServer.GetBalanceHandler | secure/OpenSim.Grid.MoneyServer/MoneyXmlRpcModule.cs:1111-1180 | outside the session gate: failure and nothing changes; inside it: success iff the account is missing (it is then created) or its balance is non-negative, and the reported balance is the stored one |
| MoneyServer.DoTransfer | secure/OpenSim.Grid.MoneyServer/MoneyXmlRpcModule.cs:1001-1012 | under the stated assumption: the recorded amount leaves the sender's row and reaches the receiver's, the record ends Success, and a failure changes nothing |
| MoneyServer.DoAddMoney | secure/OpenSim.Grid.MoneyServer/MoneyXmlRpcModule.cs:711-723 | under the stated assumption: only the receiver's row is credited and the record ends Success |
| MoneyServer.RollBack | secure/OpenSim.Grid.MoneyServer/MoneyXmlRpcModule.cs:1343-1371 | debits the receiver, then credits the sender only if the debit matched, and marks Failed only if both did; on success every balance moves back by the amount |
| MoneyServer.Parties | secure/OpenSim.Grid.MoneyServer/MoneyXmlRpcModule.cs:1013-1019 | UpdateBalance is called for the sender unless they are also the receiver, and for the receiver unless skipped; for nobody else |
| MoneyServer.Delivered | secure/OpenSim.Grid.MoneyServer/MoneyXmlRpcModule.cs:1307-1334 | of the accounts UpdateBalance is called for, a push reaches exactly those holding both session ids and a userinfo row |
| MoneyServer.NotifyTransfer | secure/OpenSim.Grid.MoneyServer/MoneyXmlRpcModule.cs:1001-1102 | a non-object payment succeeds iff settlement did; an object payment succeeds only on a `success=true` confirmation; `success=false`, which is also what an unreachable or faulting region yields, rolls back and fails; a refused address (no table), a table without `success` or no sender userinfo fail with the money left moved |
| MoneyServer.CurrencyRequest | secure/OpenSim.Grid.MoneyServer/MoneyXmlRpcModule.cs:1242-1298 | no table exactly when certificate checking is off and the address is neither http:// nor https://; a failed connection or a fault gives `success=false`; otherwise the region's own `success` key |
| MoneyServer.NewRecord | secure/OpenSim.Grid.MoneyServer/MoneyXmlRpcModule.cs:411-423 | the recorded transaction is Pending, between the requested parties for the requested amount, with the drawn secure code and time |
| MoneyServer.Pay | secure/OpenSim.Grid.MoneyServer/MoneyXmlRpcModule.cs:425-491 | nothing is recorded without receiver userinfo or on a duplicate id; otherwise a Pending record is added, and a zero amount answers success without settling |
| MoneyServer.Transfer | secure/OpenSim.Grid.MoneyServer/MoneyXmlRpcModule.cs:361-491 | a caller outside the session gate gets "Session check failure" and the state is untouched; an admitted one goes through the shared payment path |
| MoneyServer.ForceTransfer | secure/OpenSim.Grid.MoneyServer/MoneyXmlRpcModule.cs:503-625 | refused with no state change unless force transfer is enabled; otherwise the shared payment path with no session check |
| MoneyServer.PayCharge | secure/OpenSim.Grid.MoneyServer/MoneyXmlRpcModule.cs:887-989 | behind the session gate, a payment to the zero UUID at 0.0.0.0 whose userinfo is not checked |
| MoneyServer.Credit | secure/OpenSim.Grid.MoneyServer/MoneyXmlRpcModule.cs:686-744 | succeeds iff the receiver has userinfo, the id is new, and the amount is zero or the credit went through; a non-zero success credits only the receiver and pushes to them; a failure moves no money (total: ServerProps.CreditTotal) |
| MoneyServer.AddBankerMoney | secure/OpenSim.Grid.MoneyServer/MoneyXmlRpcModule.cs:637-744 | allowed iff the configured banker, lower-cased, is the zero UUID or the presented id; a refusal changes nothing (total: ServerProps.BankerMoneyRaisesTotal) |
| MoneyServer.SendMoneyBalance | secure/OpenSim.Grid.MoneyServer/MoneyXmlRpcModule.cs:756-875 | refused with no change unless script sending is enabled, a key is configured and the lower-cased code equals the expected digest (gate: ServerProps.ScriptGateRefusesWrongCode) |
| MoneyServer.Cancel | secure/OpenSim.Grid.MoneyServer/MoneyXmlRpcModule.cs:1376-1426 | empty arguments are refused; success iff the record exists, its sender has userinfo and the secure code matches; it then becomes Failed whatever its status, and no balance ever moves |
| MoneyServer.GetTransaction | secure/OpenSim.Grid.MoneyServer/MoneyXmlRpcModule.cs:1431-1509 | succeeds iff the session gate passes and the id is non-empty; for a stored record it replies its amount, time, type, sender, receiver and description, and nothing else |
| MoneyServer.WebLogin | secure/OpenSim.Grid.MoneyServer/MoneyXmlRpcModule.cs:1514-1552 | records the web session iff both ids are non-empty; otherwise nothing changes (gate: ServerProps.WebLoginOpensGate) |
| MoneyServer.WebLogout | secure/OpenSim.Grid.MoneyServer/MoneyXmlRpcModule.cs:1557-1594 | drops the user's web session iff both ids are non-empty, whatever session id it held (gate: ServerProps.WebLogoutClosesGate) |
| ServerProps.TransferTotal | secure/OpenSim.Grid.MoneyServer/MoneyXmlRpcModule.cs:1001-1012 | settlement changes the balance-table total only by the amount debited from an existing sender row and credited to an existing receiver row |
| ServerProps.TransferConserves | secure/OpenSim.Grid.MoneyServer/MoneyXmlRpcModule.cs:1001-1012 | between two accounts that both have rows, settlement keeps the table total |
| ServerProps.RollBackUndoesTransfer | secure/OpenSim.Grid.MoneyServer/MoneyXmlRpcModule.cs:1343-1371 | a rollback right after settlement succeeds, restores every balance, and leaves the record Failed (inverse) |
| ServerProps.RefusedDeliveryRestoresBalances | secure/OpenSim.Grid.MoneyServer/MoneyXmlRpcModule.cs:1037-1089 | an object payment whose buyer's region answers `success=false` fails, leaves every balance as before the call, and ends Failed |
| ServerProps.UnconfirmedPaymentStaysSettled | secure/OpenSim.Grid.MoneyServer/MoneyXmlRpcModule.cs:1037-1089 | an object payment with no usable confirmation (no table because the address was refused, or a table without `success`) fails but is not rolled back: the money stays moved and the record stays Success |
| ServerProps.NoBalanceCheck | secure/OpenSim.Grid.MoneyServer/MoneyXmlRpcModule.cs:425-491 | an admitted transfer of more than the sender holds succeeds and leaves the sender negative |
| ServerProps.ZeroTransferStaysPending | secure/OpenSim.Grid.MoneyServer/MoneyXmlRpcModule.cs:461-464 | a zero transfer answers success, moves nothing and stays Pending until an expiry sweep marks it Failed |
| ServerProps.CancelOverridesSuccess | secure/OpenSim.Grid.MoneyServer/MoneyXmlRpcModule.cs:1399-1417 | cancelling a settled transaction marks it Failed and leaves the moved money where it is |
| ServerProps.SentinelBalanceLocksAccount | secure/OpenSim.Grid.MoneyServer/MoneyXmlRpcModule.cs:279-322 | an account storing -1 cannot log in (failure, balance 0, no change) and its balance query is refused |
| ServerProps.LoginThenGetBalance | secure/OpenSim.Grid.MoneyServer/MoneyXmlRpcModule.cs:241-349 | after a successful login a balance query in the new session succeeds and reports the balance login reported |
| ServerProps.LogoutClosesSession | secure/OpenSim.Grid.MoneyServer/MoneyXmlRpcModule.cs:1184-1232 | after logout every transfer from that key is refused, whatever ids are presented, and changes nothing |
| ServerProps.LoggedOutReceiverGetsNoPush | secure/OpenSim.Grid.MoneyServer/MoneyXmlRpcModule.cs:1307-1334 | a transfer to an account that is not logged in sends it no balance push, whatever the transfer did |
| ServerProps.SettledTransferPushesParties | secure/OpenSim.Grid.MoneyServer/MoneyXmlRpcModule.cs:1013-1036 | a settled transfer that is neither an object payment nor an upload charge answers success and pushes to both parties when both are logged in with userinfo |
| ServerProps.UnreachableRegionRollsBack | secure/OpenSim.Grid.MoneyServer/MoneyXmlRpcModule.cs:1277-1297 | an object payment whose region cannot be reached or answers with a fault is rolled back: failure, every balance as before, record Failed |
| ServerProps.NotifyKeepsFacts | secure/OpenSim.Grid.MoneyServer/MoneyXmlRpcModule.cs:1001-1102 | settlement, confirmation and rollback keep the record and rewrite only its status and description |
| ServerProps.TransferRecordReadsBack | secure/OpenSim.Grid.MoneyServer/MoneyXmlRpcModule.cs:1431-1509 | after a transfer, a lookup in a valid session returns the requested amount and parties, the drawn time and the type, whatever settlement did; the drawn secure code, and no other, validates the record |
| ServerProps.CreditTotal | secure/OpenSim.Grid.MoneyServer/MoneyXmlRpcModule.cs:686-744 | a credit that went through raises the table total by exactly its amount; one that did not leaves it |
| ServerProps.BankerMoneyRaisesTotal | secure/OpenSim.Grid.MoneyServer/MoneyXmlRpcModule.cs:637-744 | a successful banker credit raises the total by the amount and changes only the banker's row; a refused one changes nothing |
| ServerProps.ScriptMoneyRaisesTotal | secure/OpenSim.Grid.MoneyServer/MoneyXmlRpcModule.cs:756-875 | a successful script credit raises the total by the amount and changes only the avatar's row |
| ServerProps.ScriptGateRefusesWrongCode | secure/OpenSim.Grid.MoneyServer/MoneyXmlRpcModule.cs:782-806 | a code whose lower-case form is not the expected digest is refused with no change, and a code is treated exactly like its lower-case form |
| ServerProps.WebLoginOpensGate | secure/OpenSim.Grid.MoneyServer/MoneyXmlRpcModule.cs:1514-1630 | after a web login the web gate admits that user with that id and no other, and every other user's gate is unchanged |
| ServerProps.WebLogoutClosesGate | secure/OpenSim.Grid.MoneyServer/MoneyXmlRpcModule.cs:1557-1630 | after a web login and a web logout the gate admits the user with no id, and the state is as if neither had happened but for the dropped session |
| Region.QueryBalance | branches/0.7/OpenSim.Forge.Currency/MoneyModule.cs:1053-1099 | -1 without a client; with a server, the reported balance or -1 unless it reports success; without one, the ledger entry or -1 for an unknown agent |
| Region.Locate | branches/0.7/OpenSim.Forge.Currency/MoneyModule.cs:983-1007 | an agent's client is found iff the agent is present in a scene |
| Region.Payee | branches/0.7/OpenSim.Forge.Currency/MoneyModule.cs:367-385 | a self-transfer pays nobody; an object payment pays the prim's owner, or nobody when no scene has the prim; any other event pays its receiver |
| Region.ValidateLandBuy | branches/0.7/OpenSim.Forge.Currency/MoneyModule.cs:430-444 | the purchase becomes validated iff it already was, or the buyer is present and the balance covers the price; no other field changes |
| Region.LandBuyDone | branches/0.7/OpenSim.Forge.Currency/MoneyModule.cs:452-462 | the purchase is stamped with the time, and amountDebited becomes the price only when the transfer went through |
| Region.LandBuyLatches | branches/0.7/OpenSim.Forge.Currency/MoneyModule.cs:452-462 | once stamped with a non-zero time a purchase is never ready again |
| Region.ValidationSticks | branches/0.7/OpenSim.Forge.Currency/MoneyModule.cs:430-444 | validation only adds the mark: an already validated purchase is unchanged, and validating a validated one again changes nothing |
| Region.PayeeIsNotSender | branches/0.7/OpenSim.Forge.Currency/MoneyModule.cs:364-385 | a non-object payment pays the receiver, never the sender; an object payment pays the prim's owner, who is the sender only if the sender owns the prim |
| Region07.LocalTransfer | branches/0.7/OpenSim.Forge.Currency/MoneyModule.cs:773-793 | with an unknown sender nothing changes and the answer is false; otherwise an absent receiver enters at 2000, then the amount moves from sender to receiver and no other entry changes |
| Region07.TransferMoney | branches/0.7/OpenSim.Forge.Currency/MoneyModule.cs:716-798 | refused, with nothing changed, when the sender is absent or the queried balance is below the amount; otherwise the server's answer decides, or, without a server, the local ledger |
| Region07.Login | branches/0.7/OpenSim.Forge.Currency/MoneyModule.cs:811-885 | with a server, its answer; without one, an absent agent enters at 2000, every other entry is kept, and the agent's balance is returned |
| Region07.LoginThenQuery | branches/0.7/OpenSim.Forge.Currency/MoneyModule.cs:871-879 | after a local login the balance query reports what login returned |
| Region07.MoneyTransferAction | branches/0.7/OpenSim.Forge.Currency/MoneyModule.cs:364-403 | no transfer without a payee (self-transfer, unknown prim); otherwise a transfer from the sender to the payee |
| Region07.ValidateLand | branches/0.7/OpenSim.Forge.Currency/MoneyModule.cs:430-444 | validated iff it already was, or the buyer is present and the queried balance covers the price |
| Region07.ProcessLandBuy | branches/0.7/OpenSim.Forge.Currency/MoneyModule.cs:448-466 | transfers only when validated and not yet stamped; amountDebited changes only to the price, after a transfer that went through |
| Region07.LandBuyPaysOnce | branches/0.7/OpenSim.Forge.Currency/MoneyModule.cs:448-466 | a second processLandBuy on the same event changes nothing: a purchase is paid at most once |
| Region07.OnObjectBuy | branches/0.7/OpenSim.Forge.Currency/MoneyModule.cs:1163-1196 | ignored without a client or with a negative price; refused when the balance is below the price; only a bought object is paid, and only then can the ledger change |
| Region07.LocalTransferTotal | branches/0.7/OpenSim.Forge.Currency/MoneyModule.cs:773-793 | a local transfer keeps the ledger total, except for the 2000 an entering receiver is granted |
| Region07.MoveTotal | branches/0.7/OpenSim.Forge.Currency/MoneyModule.cs:781-782 | debiting one entry and crediting another by the same amount keeps the total |
| Region07.LocalTransferConservesPair | branches/0.7/OpenSim.Forge.Currency/MoneyModule.cs:775-787 | between two distinct existing accounts, the sum of their balances and the ledger total are unchanged |
| Region07.TransferKeepsLedgerNonNegative | branches/0.7/OpenSim.Forge.Currency/MoneyModule.cs:725-793 | the funds check keeps every local balance non-negative for non-negative amounts |
| Region07.NegativeAmountDrainsReceiver | branches/0.7/OpenSim.Forge.Currency/MoneyModule.cs:725-793 | a negative amount passes the funds check and can drive the receiver's balance below zero |
| Region07.LandPurchaseChargedOnce | branches/0.7/OpenSim.Forge.Currency/MoneyModule.cs:430-466 | for a fresh purchase, validate-then-process records the price as debited exactly when the buyer was validated and the transfer went through; after that, validating and processing again change nothing |
| Region07.ObjectBuyKeepsLedgerNonNegative | branches/0.7/OpenSim.Forge.Currency/MoneyModule.cs:1163-1196 | without a money server, a sale keeps every local balance non-negative |
| RegionTrunk.Query | trunk/OpenSim.Forge.Currency/MoneyModule.cs:1364-1409 | the balance query over a ledger nothing writes: without a server it is always -1 |
| RegionTrunk.TransferMoney | trunk/OpenSim.Forge.Currency/MoneyModule.cs:925-1004 | succeeds iff the sender is present, the queried balance covers the amount, a server is configured and it reports success |
| RegionTrunk.ForceTransferMoney | trunk/OpenSim.Forge.Currency/MoneyModule.cs:1019-1064 | succeeds iff a server is configured and it reports success; no presence or funds check |
| RegionTrunk.RemoteTransferAgrees | trunk/OpenSim.Forge.Currency/MoneyModule.cs:925-1004 | with a server configured, trunk's transfer answers exactly as the 0.7 branch's does, and neither changes local state |
| RegionTrunk.ObjectGiveMoney | trunk/OpenSim.Forge.Currency/MoneyModule.cs:216-271 | fails unless the prim's owner is the payer; then a checked transfer if the owner is present, a forced one if not; a missing prim is the null-dereference case |
| RegionTrunk.MoneyTransferAction | trunk/OpenSim.Forge.Currency/MoneyModule.cs:415-456 | no transfer iff there is no payee (self-transfer, unknown prim); otherwise a transfer from the sender to the payee |
| RegionTrunk.ValidateLand | trunk/OpenSim.Forge.Currency/MoneyModule.cs:486-502 | validated iff it already was, or the buyer is present and the queried balance covers the price |
| RegionTrunk.ProcessLandBuy | trunk/OpenSim.Forge.Currency/MoneyModule.cs:507-530 | transfers only when validated and not yet stamped, then stamps the event and records the debit only when the transfer went through |
| RegionTrunk.LandBuyPaysOnce | trunk/OpenSim.Forge.Currency/MoneyModule.cs:507-530 | a second processLandBuy on the same event changes nothing |
| RegionTrunk.OnObjectBuy | trunk/OpenSim.Forge.Currency/MoneyModule.cs:535-573 | ignored without a client or with a negative price; refused for funds; paid iff the scene's buy module sold the object |
| RegionTrunk.NoServerNoPayment | trunk/OpenSim.Forge.Currency/MoneyModule.cs:925-1064 | without a money server no transfer path succeeds and no land purchase is debited |
| RegionTrunk.LandPurchaseChargedOnce | trunk/OpenSim.Forge.Currency/MoneyModule.cs:486-530 | for a fresh purchase, validate-then-process records the price as debited exactly when the buyer was validated and the money server accepted the transfer; after that, validating and processing again change nothing |
| RegionTrunk.MoneyTransferActionAgrees | trunk/OpenSim.Forge.Currency/MoneyModule.cs:415-456 | with a money server configured, the 0.7 branch's payment action is trunk's (same payee, same result) and changes no local state |
| RegionTrunk.RequestedBalance | trunk/OpenSim.Forge.Currency/MoneyModule.cs:868-890 | a balance other than -1 comes only from a request naming a present, non-zero client with its own session pair |
| RegionTrunk.GetBalanceAsWritten | trunk/OpenSim.Forge.Currency/MoneyModule.cs:866-907 | never reports success, whatever balance it carries |
| RegionTrunk.GetBalance | trunk/OpenSim.Forge.Currency/MoneyModule.cs:866-907 | reports success exactly when a balance was obtained |
| RegionTrunk.GetBalanceNeverSucceeds | trunk/OpenSim.Forge.Currency/MoneyModule.cs:866-907 | a present client whose server reports 1000 is answered (false, 1000) as written and (true, 1000) as intended |
| RegionTrunk.GetBalanceSucceedsWhenQueried | trunk/OpenSim.Forge.Currency/MoneyModule.cs:866-907 | the intended handler succeeds iff the client is authenticated and the server query succeeded with a non-negative balance |
| ScriptEvents.WithFamily | branches/aurora/make_patch/aurora/Aurora/AuroraDotNetEngine/EventManager.cs:992-1050 | replaces one family's flags and leaves every other flag unchanged |
| ScriptEvents.Admit | branches/aurora/make_patch/aurora/Aurora/AuroraDotNetEngine/EventManager.cs:954-1064 | refused, with nothing changed, for an uncompiled script or an event the state does not handle; otherwise a timer or moving_start is admitted iff its flag is clear, and sets it; a family's repeat iff neither flag is set; `_start` always, clearing remove; `_end` iff its remove flag is clear; `changed` iff that value is not queued; control iff it is not idle after idle and not a repeat of the level while one is queued; state_entry always, resetting the flags |
| ScriptEvents.AdmitAsWritten | branches/aurora/make_patch/aurora/Aurora/AuroraDotNetEngine/EventManager.cs:972-991 | agrees with Admit except for control events, where an idle event after an idle one is admitted |
| ScriptEvents.IdleControlAdmitted | branches/aurora/make_patch/aurora/Aurora/AuroraDotNetEngine/EventManager.cs:977-983 | with one control event queued, an idle event after an idle one is admitted as written and refused as intended |
| ScriptEvents.IdleControlDropped | branches/aurora/make_patch/aurora/Aurora/AuroraDotNetEngine/EventManager.cs:977-983 | under the intended rule, an idle control event after an idle one is never queued |
| ScriptEvents.EventComplete | branches/aurora/make_patch/aurora/Aurora/AuroraDotNetEngine/EventManager.cs:1070-1092 | completion clears exactly the flag its admission set (timer, moving, a family's queue flag, the changed value) and decrements the control count, never below 0 |
| ScriptEvents.CountConcat | branches/aurora/make_patch/aurora/Aurora/AuroraDotNetEngine/EventManager.cs:954-1092 | counting queued events of a kind distributes over concatenation |
| ScriptEvents.CountRemoveAt | branches/aurora/make_patch/aurora/Aurora/AuroraDotNetEngine/EventManager.cs:1070-1092 | removing one event lowers its kind's count by one and leaves the others |
| ScriptEvents.ClearedTracked | branches/aurora/make_patch/aurora/Aurora/AuroraDotNetEngine/EventManager.cs:1059-1062 | reset flags describe an empty queue |
| ScriptEvents.AdmitRaisesOwnFlag | branches/aurora/make_patch/aurora/Aurora/AuroraDotNetEngine/EventManager.cs:966-1057 | an admitted event raises only the flag that guards it, and only if the flag was clear |
| ScriptEvents.PostKeepsTracked | branches/aurora/make_patch/aurora/Aurora/AuroraDotNetEngine/EventManager.cs:954-1064 | queuing an admitted event other than state_entry keeps the invariant: each guarded kind has a flag that is set iff exactly one such event is queued, and never more than one is |
| ScriptEvents.CompleteKeepsTracked | branches/aurora/make_patch/aurora/Aurora/AuroraDotNetEngine/EventManager.cs:1070-1092 | completing any queued event keeps that invariant |
| ScriptEvents.SecondTimerRefused | branches/aurora/make_patch/aurora/Aurora/AuroraDotNetEngine/EventManager.cs:966-971 | while the flags track the queue and a timer is queued, a second one is refused |
| ScriptEvents.StateEntryForgetsQueue | branches/aurora/make_patch/aurora/Aurora/AuroraDotNetEngine/EventManager.cs:954-1064 | a state_entry between two timers lets the second in: the reset flags forget the waiting timer, two timers end up queued and the invariant no longer holds |
| ScriptEvents.FireAll | branches/aurora/make_patch/aurora/Aurora/AuroraDotNetEngine/EventManager.cs:322-349 | every script is offered the event; the ids returned are exactly those of scripts that admitted it, and there are some iff one did |
| ScriptEvents.Payees | branches/aurora/make_patch/aurora/Aurora/AuroraDotNetEngine/EventManager.cs:322-349 | the scripts offered `money` are the prim's own, or else its root part's, and none for an unknown prim |
| ScriptEvents.MoneyEvent | branches/aurora/make_patch/aurora/Aurora/AuroraDotNetEngine/EventManager.cs:322-349 | true iff at least one of the paid prim's scripts admitted the money event |
| ScriptEvents.MoneyLeavesScripts | branches/aurora/make_patch/aurora/Aurora/AuroraDotNetEngine/EventManager.cs:322-349 | offering `money` changes no script's flags |
| ScriptEvents.HandlePostObjectPaid | branches/aurora/make_patch/aurora/Aurora/AuroraDotNetEngine/EventManager.cs:160-174 | true when no scene has the region handle; otherwise true iff the money event was admitted |
| ScriptEvents.HandleObjectPaid | branches/aurora/make_patch/aurora/Aurora/AuroraDotNetEngine/EventManager.cs:131-157 | false for an unknown part; otherwise the money event's result for its local id |
| ScriptEvents.PaidHandlersAgree | branches/aurora/make_patch/aurora/Aurora/AuroraDotNetEngine/EventManager.cs:131-174 | in a known region, the two paid-event paths give the same answer for a part that is its group's root or carries no script of its own |
| ScriptEvents.IndexOf | branches/aurora/make_patch/aurora/Aurora/AuroraDotNetEngine/EventManager.cs:781-808 | -1 iff the character is absent; otherwise the position of its first occurrence |
| ScriptEvents.IndexOfIs | branches/aurora/make_patch/aurora/Aurora/AuroraDotNetEngine/EventManager.cs:781-808 | a position holding the character with none before it is the one IndexOf finds |
| ScriptEvents.TrimStart | branches/aurora/make_patch/aurora/Aurora/AuroraDotNetEngine/EventManager.cs:781-808 | the result is a suffix of the input; everything cut is white space, and the result does not start with white space |
| ScriptEvents.TrimEnd | branches/aurora/make_patch/aurora/Aurora/AuroraDotNetEngine/EventManager.cs:781-808 | the result is a prefix of the input; everything cut is white space, and the result does not end with white space |
| ScriptEvents.Trim | branches/aurora/make_patch/aurora/Aurora/AuroraDotNetEngine/EventManager.cs:781-808 | keeps only characters of the input; on a line that does not start with white space it cuts trailing white space only (TrimEnd) |
| ScriptEvents.ReadHeader | branches/aurora/make_patch/aurora/Aurora/AuroraDotNetEngine/EventManager.cs:781-808 | the engine chosen is the caller's or a known one; when a header chooses it, the script becomes "//" followed by the text after the first ':'; a script with no line break, or a first line of at most one character, keeps both |
| ScriptEvents.RezScript | branches/aurora/make_patch/aurora/Aurora/AuroraDotNetEngine/EventManager.cs:778-840 | a script starting `//MRM:` is skipped; a started script is one whose header chose this engine |
| ScriptEvents.HeaderSelectsEngine | branches/aurora/make_patch/aurora/Aurora/AuroraDotNetEngine/EventManager.cs:781-834 | a first line `//Name:rest` with Name a known engine starts `//rest` iff Name is this engine, and is skipped otherwise |
| ScriptEvents.NoHeaderKeepsEngine | branches/aurora/make_patch/aurora/Aurora/AuroraDotNetEngine/EventManager.cs:781-834 | a script without a usable header line starts unchanged iff the caller's engine is this one |

## Left out

- The XML-RPC transport, HTTP, TLS and the client-certificate check (`GetSSLCommonName`) are not modelled. How an outbound call went is a parameter; only the address check and the error table of `genericCurrencyXMLRPCRequest` are modelled (`MoneyServer.CurrencyRequest`).
- The texts of messages, instant messages and UpdateBalance pushes are not modelled. The model keeps only the keys the callers read and the accounts UpdateBalance is called for; `MoneyServer.Delivered` says which of them a push reaches.
- UUID parsing: ids are strings. An id that does not parse is the zero UUID.
- The web handlers `handleWebGetBalance`, `handleWebGetTransaction` and `handleWebGetTransactionNum` are not modelled. They call a store overload that is not part of this model, so only web login and logout are.
- `DoTransfer`, `DoAddMoney` and `TryAddUserInfo` run in a database service that is not part of this model. They appear under the assumption stated above.
- Integer width: amounts and balances are unbounded integers. The 32-bit wrap-around of the C# `int` columns is not modelled.
- Concurrency: the locks on the session dictionaries and interleaved requests are not modelled. Every handler runs alone.
- The `commonName` column of the transactions table is not modelled. It is created `default NULL` and no handler sets it.
- `Store.FetchTransaction`: when a column read throws (for example a NULL `commonName` cast to a string), the fetch logs the error and returns null. The model has no such path; every stored row reads back. A row from before Rev.3 holds a NULL `objectUUID`, since the Rev.3 update adds that column `DEFAULT NULL`, so the cast of that column throws too.
- `MoneyServer.GetTransaction`: for an unknown id the store returns a record filled with the defaults of `TransactionData`, a class that is not part of this model. The model answers success with no fields; the reply is a success only if those defaults are non-null, since the handler calls `ToString()` on the sender and receiver and a throw ends in the session-failure answer.
- `TxQuery.FetchTransactions`: the range query turns a NULL `objectUUID` into the text "null" and parses each row's UUID text back into a UUID. The model stores no NULL object ids and keeps ids as text.
- `TxQuery.FetchTransactions`: when a column read of any row throws (for example a NULL `commonName` cast to a string), the range query logs the error and returns null for the whole page. The model has no such path and always answers the full window.
- Server bootstrap, configuration loading and the commented-out expiry timer are not modelled. `SetTransExpired` is modelled as a store operation.
- `ScriptEvents.Admit`: `ResetEvents`, called on state_entry, is not part of this model. Its effect is assumed to clear every admission flag (`Cleared`) and to leave the queue alone.
- `ScriptEvents.PostKeepsTracked` and `ScriptEvents.SecondTimerRefused` hold only for events other than state_entry. Across a state_entry the queue can hold two timers (`ScriptEvents.StateEntryForgetsQueue`), so "at most one timer pending" is not promised in general.
- The parsing of event names with `Enum.Parse` is not modelled. Events arrive as a datatype.
- `ScriptEvents.Trim`: it removes ASCII white space only. .NET's Unicode white-space classes are not modelled.
- Starting the script and the compile alerts after `rez_script` chooses an engine are not modelled.
- `RegionTrunk.MoneyTransferAction`: when some scene has the paid prim but the event's own scene does not, `scene.GetSceneObjectPart(moneyEvent.receiver)` is null and reading its id (trunk line 450) throws before any transfer. The model does not tell scenes apart and reports a transfer in that case. When no scene has the prim, trunk returns, and so does the model.
- `Region07.MoneyTransferAction`: the same null part in the event's own scene throws at line 397 of the 0.7 module before any transfer; the model reports a transfer there too.
- `Region.Env`: the money server answers the same within one event. A balance query and a transfer in one handler see one answer each.
- Trunk's `LoginMoneyServer` and the region-side XML-RPC handlers other than `GetBalanceHandler` are not modelled. Trunk never writes its local ledger, so the model fixes it as empty.
- Scene, presence, prim and user-account lookups are parameters of the model: the set of present agents and the prim-to-owner map.
- The MD5 digest of the script gate is a parameter (`md5hex`).
- `Schema.TableVersionNum`: the version regex's `\w` and `\d` are read as ASCII letters, digits and underscore. .NET matches the Unicode classes, so a comment with non-ASCII letters or digits can parse differently.
- `Schema.TableVersionNum`: the parse reads any natural number. `Convert.ToInt32` throws on a number above the 32-bit range, and that aborts start-up (MySQLMoneyManager.cs lines 200-203); the model does not.
- `Base.Lower`: lower-casing changes only the ASCII letters A-Z. `ToLower` also folds non-ASCII letters, so a banker id or secret code with such letters can compare differently.

## Findings

| source | as written | input that shows it | evidently intended | confidence | as-written member | corrected member |
|---|---|---|---|---|---|---|
| branches/aurora/make_patch/aurora/Aurora/AuroraDotNetEngine/EventManager.cs:977-983 | when the last control level and the held level are both 0, the check returns `true`, so the event is queued | a script with one control event queued, last level 0, offered `control` with held = 0 | the comment says "drop it": return `false` | not executed | ScriptEvents.AdmitAsWritten (ScriptEvents.IdleControlAdmitted) | ScriptEvents.Admit (ScriptEvents.IdleControlDropped) |
| trunk/OpenSim.Forge.Currency/MoneyModule.cs:868-906 | `ret` starts `false`, and the only later assignment sets it to `false`, so `success` is always false | a present client with a valid session whose money server reports balance 1000: the answer is success=false, balance=1000 | `success` is true when a balance was obtained (balance >= 0) | not executed | RegionTrunk.GetBalanceAsWritten (RegionTrunk.GetBalanceNeverSucceeds) | RegionTrunk.GetBalance (RegionTrunk.GetBalanceSucceedsWhenQueried) |

=== FILE: balancemerge.dfy ===
/*
 * UpdateBalanceTable1: the one-time conversion of a revision-1 balance table,
 * whose keys were "uuid@host", to bare-UUID keys. Each suffixed row's balance
 * is added onto the row of its bare key (created if missing); when every row
 * went through, the suffixed rows are deleted. The rows are read with a plain
 * SELECT, whose order the database does not fix, so the method below takes
 * them in an arbitrary order.
 */
module BalanceMerge {
  import opened Base
  import opened Store
  import opened Schema

  /** A key the `@.+$` replacement changes. */
  predicate Suffixed(u: AccountId) {
    StripHost(u) != u
  }

  lemma BareKeyIsNotSuffixed(u: AccountId)
    ensures !Suffixed(StripHost(u))
  {
    StripHostIdempotent(u);
  }

  function SuffixedKeys(m: map<AccountId, int>): set<AccountId> {
    set u | u in m && Suffixed(u)
  }

  function BareKeys(keys: set<AccountId>): set<AccountId> {
    set u | u in keys :: StripHost(u)
  }

  predicate Distinct(order: seq<AccountId>) {
    forall i, j :: 0 <= i < j < |order| ==> order[i] != order[j]
  }

  /** The keys listed in `order`, as a set. */
  function Elems(order: seq<AccountId>): (r: set<AccountId>)
    ensures forall u :: u in r <==> u in order
  {
    if |order| == 0 then {} else Elems(order[..|order| - 1]) + {order[|order| - 1]}
  }

  /** The balances the rows listed in `order` hold in `m`. */
  function SumOf(m: map<AccountId, int>, order: seq<AccountId>): int
    requires forall u :: u in order ==> u in m
  {
    if |order| == 0 then 0 else SumOf(m, order[..|order| - 1]) + m[order[|order| - 1]]
  }

  /** Two tables that agree on the listed rows give the listed rows the same sum. */
  lemma {:induction false} SumOfAgree(m: map<AccountId, int>, n: map<AccountId, int>, order: seq<AccountId>)
    requires forall u :: u in order ==> u in m && u in n && m[u] == n[u]
    ensures SumOf(m, order) == SumOf(n, order)
  {
    if |order| > 0 {
      SumOfAgree(m, n, order[..|order| - 1]);
    }
  }

  /**
   * Aborted carries the table as left when an INSERT hit an existing key: a
   * bare key whose stored balance is negative is not seen by getBalance
   * (which reports such a value as "missing" or "error"), so the code tries
   * to insert it and the exception ends the conversion half-way.
   */
  datatype MergeOutcome = Merged(balances: map<AccountId, int>) | Aborted(balances: map<AccountId, int>)

  predicate NoNegative(m: map<AccountId, int>) {
    forall u :: u in m ==> m[u] >= 0
  }

  /**
   * One suffixed row of the first loop: getBalance on the bare key; a
   * non-negative balance is raised by the row's amount (updateBalance), a
   * missing row is inserted with it (addUser), and a stored negative balance
   * makes the insert collide.
   */
  function FoldRow(cur: map<AccountId, int>, bare: AccountId, amount: int): MergeOutcome {
    if bare in cur && cur[bare] >= 0 then Merged(cur[bare := cur[bare] + amount])
    else if bare in cur then Aborted(cur)
    else Merged(cur[bare := amount])
  }

  /** The first loop over the suffixed rows in the order listed. */
  function FoldRows(table: map<AccountId, int>, order: seq<AccountId>): MergeOutcome
    requires forall u :: u in order ==> u in table
  {
    if |order| == 0 then Merged(table)
    else
      var last := order[|order| - 1];
      match FoldRows(table, order[..|order| - 1])
      case Aborted(m) => Aborted(m)
      case Merged(m) => FoldRow(m, StripHost(last), table[last])
  }

  lemma ElemsSnoc(order: seq<AccountId>)
    requires |order| > 0
    ensures Elems(order) == Elems(order[..|order| - 1]) + {order[|order| - 1]}
    ensures BareKeys(Elems(order)) == BareKeys(Elems(order[..|order| - 1])) + {StripHost(order[|order| - 1])}
  {
    BareKeysAdd(Elems(order[..|order| - 1]), order[|order| - 1]);
  }

  lemma BareKeysAdd(keys: set<AccountId>, u: AccountId)
    ensures BareKeys(keys + {u}) == BareKeys(keys) + {StripHost(u)}
  {
    forall b | b in BareKeys(keys + {u})
      ensures b in BareKeys(keys) + {StripHost(u)}
    {
      var v :| v in keys + {u} && b == StripHost(v);
      if v != u {
        assert v in keys;
      }
    }
  }

  /** One row folded in adds its amount to the total. */
  lemma FoldRowTotal(cur: map<AccountId, int>, bare: AccountId, amount: int)
    ensures FoldRow(cur, bare, amount).Merged? ==> Total(FoldRow(cur, bare, amount).balances) == Total(cur) + amount
  {
    if bare in cur && cur[bare] >= 0 {
      TotalShift(cur, bare, amount);
    } else if bare !in cur {
      TotalUpdate(cur, bare, amount);
    }
  }

  /** Folding the listed rows adds exactly their balances to the table total. */
  lemma {:induction false} FoldRowsTotal(table: map<AccountId, int>, order: seq<AccountId>)
    requires forall u :: u in order ==> u in table
    ensures FoldRows(table, order).Merged? ==>
      Total(FoldRows(table, order).balances) == Total(table) + SumOf(table, order)
  {
    if |order| > 0 {
      var front := order[..|order| - 1];
      var last := order[|order| - 1];
      assert forall u :: u in front ==> u in order;
      FoldRowsTotal(table, front);
      match FoldRows(table, front)
      case Aborted(_) =>
      case Merged(m) =>
        FoldRowTotal(m, StripHost(last), table[last]);
    }
  }

  /** With no negative balance in the table no insert collides, and none appears. */
  lemma {:induction false} FoldRowsNoCollision(table: map<AccountId, int>, order: seq<AccountId>)
    requires forall u :: u in order ==> u in table
    ensures NoNegative(table) ==> FoldRows(table, order).Merged? && NoNegative(FoldRows(table, order).balances)
  {
    if |order| > 0 {
      var front := order[..|order| - 1];
      assert forall u :: u in front ==> u in order;
      FoldRowsNoCollision(table, front);
    }
  }

  /**
   * Folding only ever writes bare keys: the new keys are the bare forms of
   * the listed rows, and a row no listed row folds onto is untouched.
   */
  lemma {:induction false} FoldRowsShape(table: map<AccountId, int>, order: seq<AccountId>)
    requires forall u :: u in order ==> u in table
    ensures FoldRows(table, order).Merged? ==>
      var m := FoldRows(table, order).balances;
      m.Keys == table.Keys + BareKeys(Elems(order))
      && (forall u :: u in table && u !in BareKeys(Elems(order)) ==> m[u] == table[u])
  {
    if |order| > 0 {
      var front := order[..|order| - 1];
      assert forall u :: u in front ==> u in order;
      FoldRowsShape(table, front);
      ElemsSnoc(order);
    }
  }

  lemma {:induction false} FoldRowsKeepsSuffixed(table: map<AccountId, int>, order: seq<AccountId>, u: AccountId)
    requires forall v :: v in order ==> v in table
    requires u in table && Suffixed(u)
    requires FoldRows(table, order).Merged?
    ensures u in FoldRows(table, order).balances && FoldRows(table, order).balances[u] == table[u]
  {
    if |order| > 0 {
      var front := order[..|order| - 1];
      assert forall v :: v in front ==> v in order;
      FoldRowsKeepsSuffixed(table, front, u);
      BareKeyIsNotSuffixed(order[|order| - 1]);
    }
  }

  /** Bare keys are never suffixed, so deleting the suffixed rows keeps every bare key. */
  lemma BareKeysClean(all: set<AccountId>)
    ensures forall u :: u in BareKeys(all) ==> !Suffixed(u)
  {
    forall u | u in BareKeys(all) ensures !Suffixed(u) {
      var w :| w in all && StripHost(w) == u;
      BareKeyIsNotSuffixed(w);
    }
  }

  /** Deleting the listed rows one by one takes exactly their balances out of the total. */
  lemma {:induction false} DeleteRowsTotal(m: map<AccountId, int>, order: seq<AccountId>)
    requires forall u :: u in order ==> u in m
    requires Distinct(order)
    ensures Total(m - Elems(order)) == Total(m) - SumOf(m, order)
  {
    if |order| > 0 {
      var front := order[..|order| - 1];
      var last := order[|order| - 1];
      assert forall u :: u in front ==> u in order;
      DeleteRowsTotal(m, front);
      assert last !in Elems(front);
      assert m - Elems(order) == (m - Elems(front)) - {last};
      TotalRemove(m - Elems(front), last);
    } else {
      assert m - Elems(order) == m;
    }
  }

  /**
   * UpdateBalanceTable1 for the suffixed rows in the order the SELECT
   * returned them (the database fixes no order, so `order` is an input):
   * fold every row onto its bare key, and once all went through delete the
   * suffixed rows.
   */
  function MergeHostBalances(table: map<AccountId, int>, order: seq<AccountId>): MergeOutcome
    requires forall u :: u in order ==> u in table
  {
    match FoldRows(table, order)
    case Aborted(m) => Aborted(m)
    case Merged(m) => Merged(m - Elems(order))
  }

  /**
   * What a conversion promises: when it completes the table total is
   * unchanged, the keys are the bare keys already present plus the bare
   * form of every suffixed key, no suffixed key is left, and a row no
   * suffixed key folds onto keeps its balance; with no negative balance in
   * the table it always completes.
   */
  ghost predicate MergeSound(table: map<AccountId, int>, r: MergeOutcome) {
    (r.Merged? ==> Total(r.balances) == Total(table))
    && (r.Merged? ==> r.balances.Keys == (table.Keys - SuffixedKeys(table)) + BareKeys(SuffixedKeys(table)))
    && (r.Merged? ==> forall u :: u in r.balances ==> !Suffixed(u))
    && (r.Merged? ==> forall u :: u in table && !Suffixed(u) && u !in BareKeys(SuffixedKeys(table)) ==>
          r.balances[u] == table[u])
    && (NoNegative(table) ==> r.Merged? && NoNegative(r.balances))
  }

  /** Whatever order the SELECT lists the suffixed rows in (each once), the conversion is sound. */
  lemma MergeHostBalancesSound(table: map<AccountId, int>, order: seq<AccountId>)
    requires Elems(order) == SuffixedKeys(table) && Distinct(order)
    ensures forall u :: u in order ==> u in table
    ensures MergeSound(table, MergeHostBalances(table, order))
  {
    var all := SuffixedKeys(table);
    assert forall u :: u in order ==> u in all;
    FoldRowsTotal(table, order);
    FoldRowsNoCollision(table, order);
    FoldRowsShape(table, order);
    match FoldRows(table, order)
    case Aborted(m) =>
    case Merged(m) =>
      forall u | u in all ensures u in m && m[u] == table[u] {
        FoldRowsKeepsSuffixed(table, order, u);
      }
      DeleteRowsTotal(m, order);
      SumOfAgree(m, table, order);
      BareKeysClean(all);
  }

  /** The balance table as start-up finds it: its comment and its rows. */
  datatype BalanceTable = BalanceTable(comment: string, rows: map<AccountId, int>)

  /**
   * The balance-table part of Initialise on an existing table: the switch
   * on the parsed revision runs UpdateBalanceTable1 for revision 1 only, and
   * a conversion that completes rewrites the comment to 'Rev.2'. An aborted
   * conversion keeps the comment and the rows it had already rewritten.
   */
  function MigrateBalances(t: BalanceTable, order: seq<AccountId>): BalanceTable
    requires forall u :: u in order ==> u in t.rows
  {
    if SingleTableUpdates(TableVersionNum(t.comment)) == [1] then
      match MergeHostBalances(t.rows, order)
      case Merged(m) => BalanceTable(RevisionComment(BalancesRevision), m)
      case Aborted(m) => BalanceTable(t.comment, m)
    else t
  }

  /**
   * A revision-1 table with no negative balance ends at 'Rev.2' with the
   * same money in it and no suffixed key; the next start-up finds nothing
   * to do. A table at any other revision is left alone.
   */
  lemma BalanceMigrationConverges(t: BalanceTable, order: seq<AccountId>)
    requires Elems(order) == SuffixedKeys(t.rows) && Distinct(order)
    ensures forall u :: u in order ==> u in t.rows
    ensures TableVersionNum(t.comment) != 1 ==> MigrateBalances(t, order) == t
    ensures TableVersionNum(t.comment) == 1 && NoNegative(t.rows) ==>
      var r := MigrateBalances(t, order);
      r.comment == RevisionComment(BalancesRevision)
      && Total(r.rows) == Total(t.rows)
      && (forall u :: u in r.rows ==> !Suffixed(u))
      && MigrateBalances(r, []) == r
  {
    MergeHostBalancesSound(t.rows, order);
    VersionOfRevision("Rev", BalancesRevision);
    assert RevisionComment(BalancesRevision) == "Rev" + "." + ShowNat(BalancesRevision);
  }
}

=== FILE: base.dfy ===
/*
 * Shared vocabulary: an optional value, ASCII lower-casing (the C#
 * `ToLower` calls the money server makes on configured identifiers and on
 * secret codes) and the total of a map of balances.
 */
module Base {

  /** A value that may be missing: a null object, an absent hashtable key. */
  datatype Option<T> = None | Some(value: T)

  /** Lower-cases one character; only the ASCII letters change. */
  function LowerChar(c: char): (r: char)
    ensures 'A' <= c <= 'Z' ==> 'a' <= r <= 'z' && r as int - c as int == 32
    ensures !('A' <= c <= 'Z') ==> r == c
  {
    if 'A' <= c <= 'Z' then (c as int + 32) as char else c
  }

  /** `s.ToLower()` restricted to ASCII: same length, every letter folded. */
  function Lower(s: string): (r: string)
    ensures |r| == |s|
    ensures forall i :: 0 <= i < |s| ==> r[i] == LowerChar(s[i])
  {
    if |s| == 0 then "" else [LowerChar(s[0])] + Lower(s[1..])
  }

  /** A string is lower-case when lower-casing leaves it alone. */
  predicate IsLower(s: string) {
    forall i :: 0 <= i < |s| ==> !('A' <= s[i] <= 'Z')
  }

  /** Lower-casing is idempotent and yields a lower-case string. */
  lemma LowerIsLower(s: string)
    ensures IsLower(Lower(s))
    ensures Lower(Lower(s)) == Lower(s)
  {
  }

  /** The sum of all values of a map (the money held in a balance table). */
  ghost function Total<K>(m: map<K, int>): int
    decreases m.Keys
  {
    if m.Keys == {} then 0
    else
      var k :| k in m.Keys;
      m[k] + Total(m - {k})
  }

  /** Removing one key takes exactly its value out of the total, whichever key it is. */
  lemma {:induction false} TotalRemove<K>(m: map<K, int>, k: K)
    requires k in m
    ensures Total(m) == m[k] + Total(m - {k})
    decreases m.Keys
  {
    var j :| j in m.Keys && Total(m) == m[j] + Total(m - {j});
    if j != k {
      var mj := m - {j};
      var mk := m - {k};
      assert mj.Keys < m.Keys;
      assert mk.Keys < m.Keys;
      TotalRemove(mj, k);
      TotalRemove(mk, j);
      assert mj - {k} == mk - {j};
    }
  }

  /** Overwriting one entry changes the total by the difference of the two values. */
  lemma TotalUpdate<K>(m: map<K, int>, k: K, v: int)
    ensures k in m ==> Total(m[k := v]) == Total(m) - m[k] + v
    ensures k !in m ==> Total(m[k := v]) == Total(m) + v
  {
    TotalRemove(m[k := v], k);
    assert m[k := v] - {k} == m - {k};
    if k in m {
      TotalRemove(m, k);
    } else {
      assert m - {k} == m;
    }
  }

  /** Raising one entry by `delta` raises the total by `delta`. */
  lemma TotalShift<K>(m: map<K, int>, k: K, delta: int)
    requires k in m
    ensures Total(m[k := m[k] + delta]) == Total(m) + delta
  {
    TotalUpdate(m, k, m[k] + delta);
  }
}

=== FILE: region.dfy ===
/*
 * What the two region-side money modules (the 0.7 branch and trunk) share:
 * the answer table of a money-server call, the balance query, the
 * money-transfer event with its receiver redirection, and the land-buy
 * event record.
 */
module Region {
  import opened Base

  /** An avatar or object UUID. */
  type Agent = string

  /**
   * The table a money-server call answers with: None when the call produced
   * none, otherwise its `success` key (if present) and its `clientBalance`.
   */
  datatype RpcTable = RpcTable(success: Option<bool>, clientBalance: int)

  /** A call succeeded when an answer table came back and its `success` key holds true. */
  predicate Succeeded(reply: Option<RpcTable>) {
    reply.Some? && reply.value.success == Some(true)
  }

  /**
   * QueryBalanceFromMoneyServer: -1 without a client; with a money-server
   * URL, the balance the server reports, or -1 unless it reports success;
   * without one, the local ledger's entry, or -1 when there is none.
   */
  function QueryBalance(url: string, ledger: map<Agent, int>, client: Option<Agent>, reply: Option<RpcTable>): (b: int)
    ensures client.None? ==> b == -1
    ensures client.Some? && url != "" ==> b == if Succeeded(reply) then reply.value.clientBalance else -1
    ensures client.Some? && url == "" ==> b == if client.value in ledger then ledger[client.value] else -1
  {
    if client.None? then -1
    else if url != "" then (if Succeeded(reply) then reply.value.clientBalance else -1)
    else if client.value in ledger then ledger[client.value]
    else -1
  }

  /**
   * What a region module cannot compute: the agents present in its scenes,
   * and the money server's answers to a balance query and to a transfer
   * request (the same answers within one event).
   */
  datatype Env = Env(located: set<Agent>, balanceReply: Option<RpcTable>, transferReply: Option<RpcTable>)

  /** LocateClientObject: the client of an agent present in one of the region's scenes. */
  function Locate(located: set<Agent>, agent: Agent): (c: Option<Agent>)
    ensures c.Some? <==> agent in located
    ensures c.Some? ==> c.value == agent
  {
    if agent in located then Some(agent) else None
  }

  /** The arguments of the OnMoneyTransfer event. */
  datatype MoneyEvent = MoneyEvent(sender: Agent, receiver: Agent, amount: int, txType: int)

  /** The object-payment transaction type. */
  const PayObjectType: int := 5008

  /**
   * Who a money-transfer event pays: nobody when sender and receiver are the
   * same; for an object payment, the owner of the paid prim (`prims` maps a
   * prim to its owner), or nobody when no scene has the prim; otherwise the
   * event's receiver.
   */
  function Payee(ev: MoneyEvent, prims: map<Agent, Agent>): (r: Option<Agent>)
    ensures ev.sender == ev.receiver ==> r.None?
    ensures ev.sender != ev.receiver && ev.txType == PayObjectType ==>
      r == (if ev.receiver in prims then Some(prims[ev.receiver]) else None)
    ensures ev.sender != ev.receiver && ev.txType != PayObjectType ==> r == Some(ev.receiver)
  {
    if ev.sender == ev.receiver then None
    else if ev.txType == PayObjectType then
      if ev.receiver in prims then Some(prims[ev.receiver]) else None
    else Some(ev.receiver)
  }

  /** What became of a money-transfer event: nothing attempted, or a transfer to this payee with this result. */
  datatype Action = NoTransfer | Attempted(payee: Agent, ok: bool)

  /**
   * How OnObjectBuy ended: ignored (no client, negative price), refused for
   * funds, object not found, no sale (no scene, or the scene did not sell),
   * or bought, with whether the payment went through.
   */
  datatype BuyOutcome = Ignored | InsufficientFunds | NotFound | NotBought | Bought(paid: bool)

  /** The fields of LandBuyArgs the money module reads and writes. */
  datatype LandBuy = LandBuy(
    agentId: Agent,
    parcelOwnerID: Agent,
    parcelPrice: int,
    economyValidated: bool,
    transactionID: int,
    amountDebited: int)

  /**
   * ValidateLandBuy: marks the purchase validated when the buyer is present
   * and the queried balance covers the price; never clears the mark.
   */
  function ValidateLandBuy(ev: LandBuy, buyerPresent: bool, balance: int): (r: LandBuy)
    ensures r.economyValidated <==> ev.economyValidated || (buyerPresent && balance >= ev.parcelPrice)
    ensures r == ev.(economyValidated := r.economyValidated)
  {
    if buyerPresent && balance >= ev.parcelPrice then ev.(economyValidated := true) else ev
  }

  /**
   * The guard of processLandBuy: a validated purchase that has no
   * transaction id yet. Taking the step stamps it with the time, so it does
   * not pass twice (unless the clock reads 0).
   */
  predicate LandBuyReady(ev: LandBuy) {
    ev.economyValidated && ev.transactionID == 0
  }

  /** The event after processLandBuy, given whether its transfer went through. */
  function LandBuyDone(ev: LandBuy, now: int, transferred: bool): (r: LandBuy)
    ensures r.transactionID == now && r.economyValidated == ev.economyValidated
    ensures r.amountDebited == if transferred then ev.parcelPrice else ev.amountDebited
    ensures r.agentId == ev.agentId && r.parcelOwnerID == ev.parcelOwnerID && r.parcelPrice == ev.parcelPrice
  {
    ev.(transactionID := now, amountDebited := if transferred then ev.parcelPrice else ev.amountDebited)
  }

  /** Once stamped with a non-zero time, a purchase is never ready again. */
  lemma LandBuyLatches(ev: LandBuy, now: int, transferred: bool)
    requires now != 0
    ensures !LandBuyReady(LandBuyDone(ev, now, transferred))
  {
  }

  /**
   * Validation only ever adds the mark: a validated purchase stays
   * validated, and validating it again, whoever is present and whatever the
   * balance, changes nothing.
   */
  lemma ValidationSticks(ev: LandBuy, present: bool, balance: int, present2: bool, balance2: int)
    ensures var v := ValidateLandBuy(ev, present, balance);
      (ev.economyValidated ==> v == ev)
      && (v.economyValidated ==> ValidateLandBuy(v, present2, balance2) == v)
  {
  }

  /**
   * The payee is never the sender, except for an object payment to a prim
   * the sender owns: a non-object payment pays the event's receiver, and an
   * object payment pays the prim's owner.
   */
  lemma PayeeIsNotSender(ev: MoneyEvent, prims: map<Agent, Agent>)
    ensures Payee(ev, prims).Some? && ev.txType != PayObjectType ==>
      Payee(ev, prims).value == ev.receiver && Payee(ev, prims).value != ev.sender
    ensures Payee(ev, prims).Some? && ev.txType == PayObjectType ==>
      ev.receiver in prims && Payee(ev, prims).value == prims[ev.receiver]
      && (Payee(ev, prims).value == ev.sender <==> prims[ev.receiver] == ev.sender)
  {
  }
}

=== FILE: region07.dfy ===
/*
 * The 0.7-branch region money module. Without a money-server URL it keeps
 * its own ledger (m_moneyServer): an avatar enters it at 2000 on login, or
 * when first paid, and transfers move money within it. With a URL every
 * operation is a call to the money server, whose answer is a parameter.
 */
module Region07 {
  import opened Base
  import opened Region

  /** MONEYMODULE_INITIAL_BALANCE. */
  const InitialBalance: int := 2000

  /** The module's state: the configured money-server URL and the local ledger. */
  datatype Module = Module(url: string, ledger: map<Agent, int>)

  /**
   * The local branch of TransferMoney: with the sender in the ledger, enter
   * an absent receiver at 2000, then take `amount` from the sender and add
   * it to the receiver; an unknown sender changes nothing.
   */
  function LocalTransfer(ledger: map<Agent, int>, sender: Agent, receiver: Agent, amount: int): (r: (map<Agent, int>, bool))
    ensures r.1 <==> sender in ledger
    ensures !r.1 ==> r.0 == ledger
    ensures r.1 ==> r.0.Keys == ledger.Keys + {receiver}
    ensures r.1 && sender == receiver ==> r.0 == ledger
    ensures r.1 && sender != receiver ==>
      r.0[sender] == ledger[sender] - amount
      && r.0[receiver] == (if receiver in ledger then ledger[receiver] else InitialBalance) + amount
    ensures r.1 ==> forall a :: a in ledger && a != sender && a != receiver ==> r.0[a] == ledger[a]
  {
    if sender !in ledger then (ledger, false)
    else
      var m1 := if receiver in ledger then ledger else ledger[receiver := InitialBalance];
      (Move(m1, sender, receiver, amount), true)
  }

  /** The two sequential updates of the local branch: debit `from`, then credit `to` in the result. */
  function Move<K>(m: map<K, int>, from: K, to: K, amount: int): map<K, int>
    requires from in m && to in m
  {
    var m2 := m[from := m[from] - amount];
    m2[to := m2[to] + amount]
  }

  /**
   * TransferMoney: refused when the sender is not present or the queried
   * balance is below the amount; then either the money server's answer or
   * the local ledger decides.
   */
  function TransferMoney(md: Module, env: Env, sender: Agent, receiver: Agent, amount: int): (r: (Module, bool))
    ensures r.0.url == md.url
    ensures md.url != "" ==> r.0 == md
    ensures r.1 ==> sender in env.located && QueryBalance(md.url, md.ledger, Some(sender), env.balanceReply) >= amount
    ensures sender !in env.located || QueryBalance(md.url, md.ledger, Some(sender), env.balanceReply) < amount ==>
      r == (md, false)
    ensures sender in env.located && QueryBalance(md.url, md.ledger, Some(sender), env.balanceReply) >= amount ==>
      if md.url != "" then r.1 == Succeeded(env.transferReply)
      else r == (md.(ledger := LocalTransfer(md.ledger, sender, receiver, amount).0), sender in md.ledger)
  {
    var client := Locate(env.located, sender);
    if client.None? then (md, false)
    else if QueryBalance(md.url, md.ledger, client, env.balanceReply) < amount then (md, false)
    else if md.url != "" then (md, Succeeded(env.transferReply))
    else
      var (ledger, ok) := LocalTransfer(md.ledger, sender, receiver, amount);
      (md.(ledger := ledger), ok)
  }

  /**
   * LoginMoneyServer: against the money server, the balance it reports on
   * success; locally, the agent enters the ledger at 2000 if absent and its
   * balance is returned.
   */
  function Login(md: Module, agent: Agent, reply: Option<RpcTable>): (r: (Module, bool, int))
    ensures md.url != "" ==> r.0 == md && r.1 == Succeeded(reply) && r.2 == (if Succeeded(reply) then reply.value.clientBalance else 0)
    ensures md.url == "" ==>
      r.1 && r.0.ledger.Keys == md.ledger.Keys + {agent}
      && r.2 == (if agent in md.ledger then md.ledger[agent] else InitialBalance)
      && r.0.ledger[agent] == r.2
      && forall a :: a in md.ledger ==> r.0.ledger[a] == md.ledger[a]
  {
    if md.url != "" then
      if Succeeded(reply) then (md, true, reply.value.clientBalance) else (md, false, 0)
    else
      var ledger := if agent in md.ledger then md.ledger else md.ledger[agent := InitialBalance];
      (md.(ledger := ledger), true, ledger[agent])
  }

  /** A local login followed by a balance query reports the balance login returned. */
  lemma LoginThenQuery(md: Module, agent: Agent, reply: Option<RpcTable>)
    requires md.url == ""
    ensures var (after, _, b) := Login(md, agent, reply);
      QueryBalance(after.url, after.ledger, Some(agent), reply) == b
  {
  }

  /** MoneyTransferAction: pay the event's payee (see Payee), if any, through TransferMoney. */
  function MoneyTransferAction(md: Module, env: Env, prims: map<Agent, Agent>, ev: MoneyEvent): (r: (Module, Action))
    ensures Payee(ev, prims).None? ==> r == (md, NoTransfer)
    ensures ev.sender == ev.receiver ==> r == (md, NoTransfer)
    ensures r.1.Attempted? ==>
      Payee(ev, prims) == Some(r.1.payee)
      && (ev.txType == PayObjectType ==> ev.receiver in prims && r.1.payee == prims[ev.receiver])
      && r == (TransferMoney(md, env, ev.sender, r.1.payee, ev.amount).0, r.1)
      && r.1.ok == TransferMoney(md, env, ev.sender, r.1.payee, ev.amount).1
  {
    match Payee(ev, prims)
    case None => (md, NoTransfer)
    case Some(payee) =>
      var (after, ok) := TransferMoney(md, env, ev.sender, payee, ev.amount);
      (after, Attempted(payee, ok))
  }

  /** ValidateLandBuy in this module: the buyer's presence and queried balance decide. */
  function ValidateLand(md: Module, env: Env, ev: LandBuy): (r: LandBuy)
    ensures r.economyValidated <==>
      ev.economyValidated
      || (ev.agentId in env.located && QueryBalance(md.url, md.ledger, Some(ev.agentId), env.balanceReply) >= ev.parcelPrice)
    ensures r == ev.(economyValidated := r.economyValidated)
  {
    var client := Locate(env.located, ev.agentId);
    ValidateLandBuy(ev, client.Some?, QueryBalance(md.url, md.ledger, client, env.balanceReply))
  }

  /**
   * processLandBuy: a ready purchase is stamped with the time and the price
   * is transferred (type 0) from buyer to parcel owner; amountDebited is set
   * only when the transfer went through. Anything else is left alone.
   */
  function ProcessLandBuy(md: Module, env: Env, ev: LandBuy, now: int): (r: (Module, LandBuy))
    ensures !LandBuyReady(ev) ==> r == (md, ev)
    ensures LandBuyReady(ev) ==>
      var t := TransferMoney(md, env, ev.agentId, ev.parcelOwnerID, ev.parcelPrice);
      r == (t.0, LandBuyDone(ev, now, t.1))
    ensures r.1.amountDebited != ev.amountDebited ==> r.1.amountDebited == ev.parcelPrice && LandBuyReady(ev)
  {
    if !LandBuyReady(ev) then (md, ev)
    else
      var (after, ok) := TransferMoney(md, env, ev.agentId, ev.parcelOwnerID, ev.parcelPrice);
      (after, LandBuyDone(ev, now, ok))
  }

  /** A land purchase is paid at most once: a second processLandBuy on the same event does nothing. */
  lemma LandBuyPaysOnce(md: Module, env: Env, ev: LandBuy, now: int, env2: Env, later: int)
    requires now != 0
    ensures var (md1, ev1) := ProcessLandBuy(md, env, ev, now);
      ProcessLandBuy(md1, env2, ev1, later) == (md1, ev1)
  {
    var (md1, ev1) := ProcessLandBuy(md, env, ev, now);
    if LandBuyReady(ev) {
      LandBuyLatches(ev, now, TransferMoney(md, env, ev.agentId, ev.parcelOwnerID, ev.parcelPrice).1);
    }
  }

  /**
   * OnObjectBuy: a missing client or a negative price is ignored; a queried
   * balance below the price is refused; otherwise, if the buyer's scene has
   * the object (`owner` is its owner, None when it is missing) and the scene
   * sells it (`sold`), the price goes to the owner as an object sale (5000).
   * `inScene` is whether the buyer's scene was found at all.
   */
  function OnObjectBuy(md: Module, env: Env, client: Option<Agent>, salePrice: int, inScene: bool,
                       owner: Option<Agent>, sold: bool): (r: (Module, BuyOutcome))
    ensures client.None? || salePrice < 0 ==> r == (md, Ignored)
    ensures r.1.Bought? ==>
      client.Some? && salePrice >= 0 && QueryBalance(md.url, md.ledger, client, env.balanceReply) >= salePrice
      && inScene && owner.Some? && sold
      && r == (TransferMoney(md, env, client.value, owner.value, salePrice).0,
               Bought(TransferMoney(md, env, client.value, owner.value, salePrice).1))
    ensures !r.1.Bought? ==> r.0 == md
    ensures client.Some? && salePrice >= 0 && QueryBalance(md.url, md.ledger, client, env.balanceReply) < salePrice ==>
      r == (md, InsufficientFunds)
  {
    if client.None? || salePrice < 0 then (md, Ignored)
    else if QueryBalance(md.url, md.ledger, client, env.balanceReply) < salePrice then (md, InsufficientFunds)
    else if !inScene then (md, NotBought)
    else if owner.None? then (md, NotFound)
    else if !sold then (md, NotBought)
    else
      var (after, ok) := TransferMoney(md, env, client.value, owner.value, salePrice);
      (after, Bought(ok))
  }

  // ------------------------------------------------ the local ledger

  /**
   * A local transfer keeps the money in the ledger, except the 2000 a
   * receiver gets on entering it: the total rises by exactly that grant.
   */
  lemma LocalTransferTotal(ledger: map<Agent, int>, sender: Agent, receiver: Agent, amount: int)
    requires sender in ledger
    ensures Total(LocalTransfer(ledger, sender, receiver, amount).0)
      == Total(ledger) + (if receiver in ledger then 0 else InitialBalance)
  {
    var m1 := if receiver in ledger then ledger else ledger[receiver := InitialBalance];
    MoveTotal(m1, sender, receiver, amount);
    if receiver !in ledger {
      TotalUpdate(ledger, receiver, InitialBalance);
    }
  }

  /** Debiting one row and crediting another (both present) by the same amount keeps the total. */
  lemma MoveTotal<K>(m: map<K, int>, from: K, to: K, amount: int)
    requires from in m && to in m
    ensures Total(Move(m, from, to, amount)) == Total(m)
  {
    var m2 := m[from := m[from] - amount];
    var m3 := m2[to := m2[to] + amount];
    assert Move(m, from, to, amount) == m3;
    TotalShift(m, from, -amount);
    TotalShift(m2, to, amount);
    assert Total(m3) == Total(m2) + amount;
  }

  /** Between two distinct accounts already in the ledger, the sum of their balances is unchanged. */
  lemma LocalTransferConservesPair(ledger: map<Agent, int>, sender: Agent, receiver: Agent, amount: int)
    requires sender in ledger && receiver in ledger && sender != receiver
    ensures var m := LocalTransfer(ledger, sender, receiver, amount).0;
      m[sender] + m[receiver] == ledger[sender] + ledger[receiver]
      && Total(m) == Total(ledger)
  {
    LocalTransferTotal(ledger, sender, receiver, amount);
  }

  predicate NoNegative(ledger: map<Agent, int>) {
    forall a :: a in ledger ==> ledger[a] >= 0
  }

  /**
   * The funds check keeps the local ledger out of the red: a transfer of a
   * non-negative amount, admitted or refused, leaves every balance
   * non-negative.
   */
  lemma TransferKeepsLedgerNonNegative(md: Module, env: Env, sender: Agent, receiver: Agent, amount: int)
    requires md.url == "" && amount >= 0 && NoNegative(md.ledger)
    ensures NoNegative(TransferMoney(md, env, sender, receiver, amount).0.ledger)
  {
    var after := TransferMoney(md, env, sender, receiver, amount).0.ledger;
    if after != md.ledger {
      assert sender in md.ledger && md.ledger[sender] >= amount;
      forall a | a in after ensures after[a] >= 0 {
        if a != sender && a != receiver {
          assert a in md.ledger;
        }
      }
    }
  }

  /**
   * The funds check does not bound a negative amount: a transfer of -k
   * passes it and takes k from the receiver, who may not have it.
   */
  lemma NegativeAmountDrainsReceiver(md: Module, env: Env, sender: Agent, receiver: Agent, k: int)
    requires md.url == "" && sender in env.located && sender in md.ledger && md.ledger[sender] >= 0
    requires sender != receiver && receiver !in md.ledger && k > InitialBalance
    ensures var (after, ok) := TransferMoney(md, env, sender, receiver, -k);
      ok && after.ledger[receiver] < 0
  {
  }

  /**
   * Validate-then-process charges a land purchase once: for a fresh event
   * the price is recorded as debited exactly when the buyer was present,
   * covered the price and the transfer went through; and once validated, a
   * later validation and processLandBuy change nothing.
   */
  lemma LandPurchaseChargedOnce(md: Module, env: Env, ev: LandBuy, now: int, env2: Env, later: int)
    requires ev.transactionID == 0 && !ev.economyValidated && now != 0
    ensures var v := ValidateLand(md, env, ev);
      var (md1, p) := ProcessLandBuy(md, env, v, now);
      (p.amountDebited == if v.economyValidated && TransferMoney(md, env, ev.agentId, ev.parcelOwnerID, ev.parcelPrice).1
                          then ev.parcelPrice else ev.amountDebited)
      && (v.economyValidated ==> ProcessLandBuy(md1, env2, ValidateLand(md1, env2, p), later) == (md1, p))
  {
    var v := ValidateLand(md, env, ev);
    var (md1, p) := ProcessLandBuy(md, env, v, now);
    if v.economyValidated {
      assert ValidateLand(md1, env2, p) == p;
      LandBuyPaysOnce(md, env, v, now, env2, later);
    }
  }

  /** Without a money server, a sale at a non-negative price keeps every local balance non-negative. */
  lemma ObjectBuyKeepsLedgerNonNegative(md: Module, env: Env, client: Option<Agent>, salePrice: int, inScene: bool,
                                        owner: Option<Agent>, sold: bool)
    requires md.url == "" && NoNegative(md.ledger)
    ensures NoNegative(OnObjectBuy(md, env, client, salePrice, inScene, owner, sold).0.ledger)
  {
    if client.Some? && salePrice >= 0 && owner.Some? {
      TransferKeepsLedgerNonNegative(md, env, client.value, owner.value, salePrice);
    }
  }
}

=== FILE: regiontrunk.dfy ===
/*
 * The trunk region money module. Every operation goes to the money server;
 * the local-ledger fallback of the 0.7 branch is commented out, so without a
 * money-server URL nothing is ever paid, and since nothing writes the local
 * ledger any more it stays empty and the balance query answers -1.
 */
module RegionTrunk {
  import opened Base
  import opened Region
  import Store
  import Region07

  /** The local ledger: declared, read by the balance query, never written. */
  const Ledger: map<Agent, int> := map[]

  /** The balance query of this module (QueryBalanceFromMoneyServer over the empty ledger). */
  function Query(url: string, client: Option<Agent>, reply: Option<RpcTable>): (b: int)
    ensures b == QueryBalance(url, Ledger, client, reply)
    ensures url == "" ==> b == -1
  {
    QueryBalance(url, Ledger, client, reply)
  }

  /**
   * TransferMoney: refused when the sender is not present, when the queried
   * balance is below the amount, or when no money server is configured;
   * otherwise the money server's answer decides.
   */
  function TransferMoney(url: string, env: Env, sender: Agent, amount: int): (r: bool)
    ensures r <==> sender in env.located && Query(url, Some(sender), env.balanceReply) >= amount
                   && url != "" && Succeeded(env.transferReply)
  {
    var client := Locate(env.located, sender);
    if client.None? then false
    else if Query(url, client, env.balanceReply) < amount then false
    else url != "" && Succeeded(env.transferReply)
  }

  /** ForceTransferMoney: no presence or funds check; the money server's answer decides, if there is one. */
  function ForceTransferMoney(url: string, env: Env): (r: bool)
    ensures r <==> url != "" && Succeeded(env.transferReply)
  {
    url != "" && Succeeded(env.transferReply)
  }

  /**
   * With a money server configured, trunk's TransferMoney answers exactly as
   * the 0.7 branch's does and, like it, changes no local state.
   */
  lemma RemoteTransferAgrees(md: Region07.Module, env: Env, sender: Agent, receiver: Agent, amount: int)
    requires md.url != ""
    ensures Region07.TransferMoney(md, env, sender, receiver, amount) == (md, TransferMoney(md.url, env, sender, amount))
  {
  }

  /**
   * ObjectGiveMoney (llGiveMoney): None when the paying prim is not found
   * (the owner lookup dereferences a null part); false unless the prim's
   * owner is the payer; otherwise an object-pays transfer (5009), checked
   * when the owner is present and forced when not.
   */
  function ObjectGiveMoney(url: string, env: Env, prims: map<Agent, Agent>, objectID: Agent, fromID: Agent, amount: int): (r: Option<bool>)
    ensures r.None? <==> objectID !in prims
    ensures r.Some? && r.value ==> prims[objectID] == fromID && url != "" && Succeeded(env.transferReply)
    ensures objectID in prims && prims[objectID] == fromID ==>
      r == Some(if fromID in env.located then TransferMoney(url, env, fromID, amount) else ForceTransferMoney(url, env))
    ensures objectID in prims && prims[objectID] != fromID ==> r == Some(false)
  {
    if objectID !in prims then None
    else if prims[objectID] != fromID then Some(false)
    else if Locate(env.located, fromID).Some? then Some(TransferMoney(url, env, fromID, amount))
    else Some(ForceTransferMoney(url, env))
  }

  /** MoneyTransferAction: pay the event's payee (see Payee), if any, through TransferMoney. */
  function MoneyTransferAction(url: string, env: Env, prims: map<Agent, Agent>, ev: MoneyEvent): (r: Action)
    ensures Payee(ev, prims).None? <==> r == NoTransfer
    ensures r.Attempted? ==>
      Payee(ev, prims) == Some(r.payee) && r.ok == TransferMoney(url, env, ev.sender, ev.amount)
  {
    match Payee(ev, prims)
    case None => NoTransfer
    case Some(payee) => Attempted(payee, TransferMoney(url, env, ev.sender, ev.amount))
  }

  /** ValidateLandBuy in this module: the buyer's presence and queried balance decide. */
  function ValidateLand(url: string, env: Env, ev: LandBuy): (r: LandBuy)
    ensures r.economyValidated <==>
      ev.economyValidated || (ev.agentId in env.located && Query(url, Some(ev.agentId), env.balanceReply) >= ev.parcelPrice)
    ensures r == ev.(economyValidated := r.economyValidated)
  {
    var client := Locate(env.located, ev.agentId);
    ValidateLandBuy(ev, client.Some?, Query(url, client, env.balanceReply))
  }

  /**
   * processLandBuy: a ready purchase is stamped with the time and the price
   * is transferred as a land sale (5002); amountDebited is set only when the
   * transfer went through.
   */
  function ProcessLandBuy(url: string, env: Env, ev: LandBuy, now: int): (r: LandBuy)
    ensures !LandBuyReady(ev) ==> r == ev
    ensures LandBuyReady(ev) ==> r == LandBuyDone(ev, now, TransferMoney(url, env, ev.agentId, ev.parcelPrice))
  {
    if !LandBuyReady(ev) then ev
    else LandBuyDone(ev, now, TransferMoney(url, env, ev.agentId, ev.parcelPrice))
  }

  /** A land purchase is paid at most once: a second processLandBuy on the same event does nothing. */
  lemma LandBuyPaysOnce(url: string, env: Env, ev: LandBuy, now: int, env2: Env, later: int)
    requires now != 0
    ensures ProcessLandBuy(url, env2, ProcessLandBuy(url, env, ev, now), later) == ProcessLandBuy(url, env, ev, now)
  {
    if LandBuyReady(ev) {
      LandBuyLatches(ev, now, TransferMoney(url, env, ev.agentId, ev.parcelPrice));
    }
  }

  /**
   * OnObjectBuy: as in the 0.7 branch, except that the sale needs the
   * scene's buy-sell module (`hasBuyModule`) and is paid as an object
   * payment (5008).
   */
  function OnObjectBuy(url: string, env: Env, client: Option<Agent>, salePrice: int, inScene: bool,
                       owner: Option<Agent>, hasBuyModule: bool, sold: bool): (r: BuyOutcome)
    ensures client.None? || salePrice < 0 ==> r == Ignored
    ensures client.Some? && salePrice >= 0 && Query(url, client, env.balanceReply) < salePrice ==> r == InsufficientFunds
    ensures r.Bought? <==>
      client.Some? && salePrice >= 0 && Query(url, client, env.balanceReply) >= salePrice
      && inScene && owner.Some? && hasBuyModule && sold
    ensures r.Bought? ==> r.paid == TransferMoney(url, env, client.value, salePrice)
  {
    if client.None? || salePrice < 0 then Ignored
    else if Query(url, client, env.balanceReply) < salePrice then InsufficientFunds
    else if !inScene then NotBought
    else if owner.None? then NotFound
    else if !hasBuyModule || !sold then NotBought
    else Bought(TransferMoney(url, env, client.value, salePrice))
  }

  /** Without a money server trunk pays nothing: every transfer path answers false and no land purchase is debited. */
  lemma NoServerNoPayment(env: Env, prims: map<Agent, Agent>, ev: MoneyEvent, land: LandBuy, now: int,
                          objectID: Agent, fromID: Agent, amount: int)
    ensures !TransferMoney("", env, ev.sender, ev.amount) && !ForceTransferMoney("", env)
    ensures ObjectGiveMoney("", env, prims, objectID, fromID, amount) != Some(true)
    ensures MoneyTransferAction("", env, prims, ev) != Attempted(ev.receiver, true)
    ensures ProcessLandBuy("", env, land, now).amountDebited == land.amountDebited
  {
  }

  // ------------------------------------------------ the GetBalance XML-RPC handler

  /** The three request keys; absent when any of them is missing. */
  datatype BalanceRequest = BalanceRequest(clientID: Agent, sessionId: string, secureId: string)

  /** A present client's session pair. */
  datatype Session = Session(sessionId: string, secureId: string)

  /** The response table: `success` and `balance`. */
  datatype BalanceAnswer = BalanceAnswer(success: bool, balance: int)

  /**
   * The balance the handler obtains: the queried balance when the request
   * names a present client (a non-zero id; an id that does not parse is the
   * zero id) with its session pair, -1 otherwise.
   */
  function RequestedBalance(url: string, env: Env, clients: map<Agent, Session>, req: Option<BalanceRequest>): (b: int)
    ensures b != -1 ==>
      req.Some? && req.value.clientID != Store.ZeroUuid && req.value.clientID in clients
      && clients[req.value.clientID] == Session(req.value.sessionId, req.value.secureId)
      && b == Query(url, Some(req.value.clientID), env.balanceReply)
  {
    if req.None? || req.value.clientID == Store.ZeroUuid then -1
    else if req.value.clientID !in clients then -1
    else if clients[req.value.clientID] != Session(req.value.sessionId, req.value.secureId) then -1
    else Query(url, Some(req.value.clientID), env.balanceReply)
  }

  /**
   * GetBalanceHandler as written: `ret` starts false and is only ever set
   * to false again, so the answer never reports success, whatever balance
   * it carries.
   */
  function GetBalanceAsWritten(url: string, env: Env, clients: map<Agent, Session>, req: Option<BalanceRequest>): (r: BalanceAnswer)
    ensures !r.success
    ensures r.balance == RequestedBalance(url, env, clients, req)
  {
    var balance := RequestedBalance(url, env, clients, req);
    // the only assignment after the initial `ret = false` is the `ret = false` under `balance < 0`
    var ret := false;
    BalanceAnswer(ret, balance)
  }

  /** GetBalanceHandler as intended: success exactly when a balance was obtained. */
  function GetBalance(url: string, env: Env, clients: map<Agent, Session>, req: Option<BalanceRequest>): (r: BalanceAnswer)
    ensures r.success <==> r.balance >= 0
    ensures r.balance == RequestedBalance(url, env, clients, req)
  {
    var balance := RequestedBalance(url, env, clients, req);
    BalanceAnswer(balance >= 0, balance)
  }

  /**
   * The discrepancy: a present client asking with its own session, whose
   * money server reports 1000, is answered balance 1000 with success=false;
   * the intended handler answers success=true.
   */
  lemma GetBalanceNeverSucceeds(url: string, env: Env, agent: Agent, s: Session)
    requires url != "" && agent != Store.ZeroUuid && agent in env.located
    requires env.balanceReply == Some(RpcTable(Some(true), 1000))
    ensures var req := Some(BalanceRequest(agent, s.sessionId, s.secureId));
      GetBalanceAsWritten(url, env, map[agent := s], req) == BalanceAnswer(false, 1000)
      && GetBalance(url, env, map[agent := s], req) == BalanceAnswer(true, 1000)
  {
  }

  /** The intended handler reports success exactly when the client is authenticated and its balance query went through. */
  lemma GetBalanceSucceedsWhenQueried(url: string, env: Env, clients: map<Agent, Session>, req: Option<BalanceRequest>)
    ensures GetBalance(url, env, clients, req).success <==>
      req.Some? && req.value.clientID != Store.ZeroUuid && req.value.clientID in clients
      && clients[req.value.clientID] == Session(req.value.sessionId, req.value.secureId)
      && url != "" && Succeeded(env.balanceReply) && env.balanceReply.value.clientBalance >= 0
  {
  }

  /**
   * Validate-then-process charges a land purchase once: for a fresh event
   * the price is recorded as debited exactly when the buyer was present,
   * covered the price and the money server accepted the transfer; once
   * validated, a later validation and processLandBuy change nothing.
   */
  lemma LandPurchaseChargedOnce(url: string, env: Env, ev: LandBuy, now: int, env2: Env, later: int)
    requires ev.transactionID == 0 && !ev.economyValidated && now != 0
    ensures var v := ValidateLand(url, env, ev);
      var p := ProcessLandBuy(url, env, v, now);
      (p.amountDebited == if v.economyValidated && TransferMoney(url, env, ev.agentId, ev.parcelPrice)
                          then ev.parcelPrice else ev.amountDebited)
      && (v.economyValidated ==> ProcessLandBuy(url, env2, ValidateLand(url, env2, p), later) == p)
  {
    var v := ValidateLand(url, env, ev);
    var p := ProcessLandBuy(url, env, v, now);
    if v.economyValidated {
      assert ValidateLand(url, env2, p) == p;
      LandBuyPaysOnce(url, env, v, now, env2, later);
    }
  }

  /** With a money server configured, the 0.7 branch's payment action is this one, and it changes no local state. */
  lemma MoneyTransferActionAgrees(md: Region07.Module, env: Env, prims: map<Agent, Agent>, ev: MoneyEvent)
    requires md.url != ""
    ensures Region07.MoneyTransferAction(md, env, prims, ev) == (md, MoneyTransferAction(md.url, env, prims, ev))
  {
    match Payee(ev, prims)
    case None =>
    case Some(payee) => RemoteTransferAgrees(md, env, ev.sender, payee, ev.amount);
  }
}

=== FILE: schema.dfy ===
/*
 * Table revisions. Each table carries a comment such as 'Rev.7'; at start-up
 * the store reads the number out of it (`\w+\.(?<ver>\d+)`) and runs the
 * updates that bring an old table to the current revision. Revision 7 of the
 * transactions table and revision 6 in between also rewrite "uuid@host"
 * account keys to bare UUIDs, which is the `@.+$` replacement defined here.
 */
module Schema {
  import opened Store

  /** `\w` on ASCII text: letters, digits and the underscore. */
  predicate IsWordChar(c: char) {
    'a' <= c <= 'z' || 'A' <= c <= 'Z' || '0' <= c <= '9' || c == '_'
  }

  /** `\d` on ASCII text. */
  predicate IsDigit(c: char) {
    '0' <= c <= '9'
  }

  predicate AllDigits(s: string) {
    forall i :: 0 <= i < |s| ==> IsDigit(s[i])
  }

  /** Decimal reading of a digit string, most significant digit first. */
  function DigitsValue(ds: string): nat
    requires AllDigits(ds)
  {
    if |ds| == 0 then 0 else DigitsValue(ds[..|ds| - 1]) * 10 + (ds[|ds| - 1] as int - '0' as int)
  }

  /** The decimal spelling of n, without leading zeros. */
  function ShowNat(n: nat): (s: string)
    ensures |s| >= 1 && AllDigits(s)
  {
    if n < 10 then ['0' + n as char]
    else ShowNat(n / 10) + ['0' + (n % 10) as char]
  }

  /** Reading back a spelled number gives the number. */
  lemma {:induction false} DigitsRoundTrip(n: nat)
    ensures DigitsValue(ShowNat(n)) == n
  {
    if n >= 10 {
      DigitsRoundTrip(n / 10);
      var s := ShowNat(n);
      assert s[..|s| - 1] == ShowNat(n / 10);
    }
  }

  /** Length of the run of digits starting at i (greedy `\d+`). */
  function DigitRun(s: string, i: nat): (n: nat)
    requires i <= |s|
    ensures i + n <= |s|
    ensures AllDigits(s[i..i + n])
    ensures i + n < |s| ==> !IsDigit(s[i + n])
    decreases |s| - i
  {
    if i < |s| && IsDigit(s[i]) then
      var n := 1 + DigitRun(s, i + 1);
      assert s[i..i + n] == [s[i]] + s[i + 1..i + n];
      n
    else 0
  }

  /** Where a match of `\w+\.\d+` has its dot: a word character before, a digit after. */
  predicate DotAt(s: string, q: int) {
    1 <= q && q + 1 < |s| && s[q] == '.' && IsWordChar(s[q - 1]) && IsDigit(s[q + 1])
  }

  /**
   * The regex engine tries start positions left to right; a start inside a
   * run of word characters succeeds exactly when the run ends in such a dot,
   * so the leftmost match is the one whose dot comes first.
   */
  function VersionFrom(s: string, q: nat): (n: nat)
    decreases |s| - q
  {
    if q + 1 >= |s| then 0
    else if DotAt(s, q) then
      var len := DigitRun(s, q + 1);
      DigitsValue(s[q + 1..q + 1 + len])
    else VersionFrom(s, q + 1)
  }

  /** getTableVersionNum: the number of the leftmost `\w+\.N` in the comment, or 0. */
  function TableVersionNum(comment: string): nat {
    VersionFrom(comment, 1)
  }

  lemma {:induction false} SkipWordChars(s: string, q: nat, stop: nat)
    requires 1 <= q <= stop < |s|
    requires forall j :: q <= j < stop ==> s[j] != '.'
    ensures VersionFrom(s, q) == VersionFrom(s, stop)
    decreases stop - q
  {
    if q < stop {
      SkipWordChars(s, q + 1, stop);
    }
  }

  lemma {:induction false} DigitRunToEnd(s: string, i: nat)
    requires i <= |s| && AllDigits(s[i..])
    ensures DigitRun(s, i) == |s| - i
    decreases |s| - i
  {
    if i < |s| {
      assert IsDigit(s[i..][0]);
      assert s[i + 1..] == s[i..][1..];
      DigitRunToEnd(s, i + 1);
    }
  }

  /**
   * The comment the store writes reads back as its revision: for a name of
   * word characters, `name.N` parses as N (so 'Rev.7' gives 7).
   */
  lemma VersionOfRevision(name: string, n: nat)
    requires |name| >= 1 && forall i :: 0 <= i < |name| ==> IsWordChar(name[i])
    ensures TableVersionNum(name + "." + ShowNat(n)) == n
  {
    var d := ShowNat(n);
    var s := name + "." + d;
    var q := |name|;
    assert s[q] == '.' && s[q + 1] == d[0] && s[q - 1] == name[q - 1];
    if q > 1 {
      forall j | 1 <= j < q
        ensures s[j] != '.'
      {
        assert s[j] == name[j];
      }
      SkipWordChars(s, 1, q);
    }
    assert s[q + 1..] == d;
    VersionAtFinalDot(s, q);
    DigitsRoundTrip(n);
  }

  /** A dot followed by nothing but digits is read as the number they spell. */
  lemma VersionAtFinalDot(s: string, q: nat)
    requires DotAt(s, q) && AllDigits(s[q + 1..])
    ensures VersionFrom(s, q) == DigitsValue(s[q + 1..])
  {
    DigitRunToEnd(s, q + 1);
    assert s[q + 1..q + 1 + (|s| - q - 1)] == s[q + 1..];
  }

  lemma {:induction false} NoDotFrom(s: string, q: nat)
    requires forall j :: 0 <= j < |s| ==> s[j] != '.'
    ensures VersionFrom(s, q) == 0
    decreases |s| - q
  {
    if q + 1 < |s| {
      NoDotFrom(s, q + 1);
    }
  }

  /** A comment without a dot carries no revision: the parse gives 0 and no update runs. */
  lemma NoDotNoVersion(comment: string)
    requires forall j :: 0 <= j < |comment| ==> comment[j] != '.'
    ensures TableVersionNum(comment) == 0
    ensures TransactionUpdates(TableVersionNum(comment)) == []
  {
    NoDotFrom(comment, 1);
  }

  /**
   * The transactions-table switch in Initialise: for a table at revision v
   * it runs UpdateTransactionTable v, v+1, ..., 6 in that order; for any other
   * number it runs nothing.
   */
  function TransactionUpdates(v: int): (steps: seq<int>)
    ensures 2 <= v <= 6 ==> |steps| == 7 - v && forall i :: 0 <= i < |steps| ==> steps[i] == v + i
    ensures !(2 <= v <= 6) ==> steps == []
  {
    match v
    case 2 => [2, 3, 4, 5, 6]
    case 3 => [3, 4, 5, 6]
    case 4 => [4, 5, 6]
    case 5 => [5, 6]
    case 6 => [6]
    case _ => []
  }

  /** The balance- and userinfo-table switches: only revision 1 has an update. */
  function SingleTableUpdates(v: int): (steps: seq<int>)
    ensures v == 1 <==> steps == [1]
    ensures v != 1 <==> steps == []
  {
    if v == 1 then [1] else []
  }

  /** The revision the current code creates each table at. */
  const TransactionsRevision: nat := 7
  const BalancesRevision: nat := 2

  function RevisionComment(n: nat): string {
    "Rev." + ShowNat(n)
  }

  /** The columns UpdateTransactionTable2..5 add; update 6 adds none. */
  function AddedColumn(k: int): string {
    match k
    case 2 => "objectUUID"
    case 3 => "secure"
    case 4 => "regionHandle"
    case 5 => "commonName"
    case _ => ""
  }

  /** The parts of the transactions table the updates touch. */
  datatype TxTable = TxTable(comment: string, columns: set<string>, rows: map<TxId, Tx>)

  /**
   * The `@.+$` replacement: cut the key at its first '@' when at least one
   * character follows it; a key without '@', or with '@' only as its last
   * character, stays as it is.
   */
  function FirstAt(u: string): (i: nat)
    ensures i <= |u|
    ensures i < |u| ==> u[i] == '@'
    ensures forall j :: 0 <= j < i ==> u[j] != '@'
  {
    if |u| == 0 then 0
    else if u[0] == '@' then 0
    else 1 + FirstAt(u[1..])
  }

  function StripHost(u: string): (r: string)
    ensures |r| <= |u| && r == u[..|r|]
  {
    var i := FirstAt(u);
    if i + 1 < |u| then u[..i] else u
  }

  /** A key with an '@' before its last character is cut just before its first '@'; any other key is kept. */
  lemma StripHostCuts(u: string)
    ensures (exists j :: 0 <= j < |u| - 1 && u[j] == '@') ==>
      var r := StripHost(u); |r| < |u| && u[|r|] == '@' && '@' !in r
    ensures (forall j :: 0 <= j < |u| - 1 ==> u[j] != '@') ==> StripHost(u) == u
  {
  }

  /** Stripping twice is stripping once: a stripped key has nothing left to cut. */
  lemma StripHostIdempotent(u: string)
    ensures StripHost(StripHost(u)) == StripHost(u)
  {
    StripHostCuts(u);
    var r := StripHost(u);
    if exists j :: 0 <= j < |u| - 1 && u[j] == '@' {
      assert forall j :: 0 <= j < |r| ==> r[j] != '@';
      StripHostCuts(r);
    }
  }

  /** One step of the switch: UpdateTransactionTable k. */
  function ApplyUpdate(t: TxTable, k: int): TxTable {
    if k == 6 then
      TxTable(RevisionComment(7), t.columns,
              map id | id in t.rows :: t.rows[id].(sender := StripHost(t.rows[id].sender),
                                                  receiver := StripHost(t.rows[id].receiver)))
    else TxTable(RevisionComment(if k >= 0 then k as nat + 1 else 0), t.columns + {AddedColumn(k)}, t.rows)
  }

  function ApplyUpdates(t: TxTable, steps: seq<int>): TxTable
    decreases |steps|
  {
    if |steps| == 0 then t else ApplyUpdates(ApplyUpdate(t, steps[0]), steps[1..])
  }

  /** The transactions-table part of Initialise on an existing table. */
  function MigrateTransactions(t: TxTable): TxTable {
    ApplyUpdates(t, TransactionUpdates(TableVersionNum(t.comment)))
  }

  lemma {:induction false} UpdatesFrom(t: TxTable, v: int)
    requires 2 <= v <= 6
    ensures var r := ApplyUpdates(t, TransactionUpdates(v));
      r.comment == RevisionComment(TransactionsRevision)
      && r.columns == t.columns + (set k | v <= k <= 5 :: AddedColumn(k))
      && r.rows.Keys == t.rows.Keys
      && forall id :: id in t.rows ==>
           r.rows[id] == t.rows[id].(sender := StripHost(t.rows[id].sender),
                                     receiver := StripHost(t.rows[id].receiver))
    decreases 6 - v
  {
    var steps := TransactionUpdates(v);
    var next := ApplyUpdate(t, v);
    if v == 6 {
      assert steps == [6];
      assert steps[1..] == [];
      assert (set k | v <= k <= 5 :: AddedColumn(k)) == {};
    } else {
      assert steps[1..] == TransactionUpdates(v + 1);
      UpdatesFrom(next, v + 1);
      assert (set k | v <= k <= 5 :: AddedColumn(k)) == {AddedColumn(v)} + (set k | v + 1 <= k <= 5 :: AddedColumn(k));
    }
  }

  /**
   * A table found at revision v in 2..6 ends at the revision the current code
   * creates ('Rev.7'), with the missing columns added and every account key
   * stripped of its host; a second start-up then finds nothing to do.
   */
  lemma MigrationConverges(t: TxTable)
    requires 2 <= TableVersionNum(t.comment) <= 6
    ensures var r := MigrateTransactions(t);
      r.comment == RevisionComment(TransactionsRevision)
      && r.columns == t.columns + (set k | TableVersionNum(t.comment) <= k <= 5 :: AddedColumn(k))
      && r.rows.Keys == t.rows.Keys
      && (forall id :: id in r.rows ==>
            StripHost(r.rows[id].sender) == r.rows[id].sender && StripHost(r.rows[id].receiver) == r.rows[id].receiver)
      && MigrateTransactions(r) == r
  {
    var v := TableVersionNum(t.comment);
    UpdatesFrom(t, v);
    var r := MigrateTransactions(t);
    forall id | id in r.rows
      ensures StripHost(r.rows[id].sender) == r.rows[id].sender && StripHost(r.rows[id].receiver) == r.rows[id].receiver
    {
      StripHostIdempotent(t.rows[id].sender);
      StripHostIdempotent(t.rows[id].receiver);
    }
    VersionOfRevision("Rev", TransactionsRevision);
    assert RevisionComment(TransactionsRevision) == "Rev" + "." + ShowNat(TransactionsRevision);
  }
}

=== FILE: scriptevents.dfy ===
/*
 * The script-event side of object payment in the Aurora script engine: the
 * per-script flags that keep at most one event of a kind queued
 * (CheckIfEventShouldFire / EventComplete), the `money` event whose
 * admission is the answer a region gives the money server's delivery
 * confirmation, and the engine header `rez_script` reads off a script's
 * first line.
 */
module ScriptEvents {
  import opened Base

  // ------------------------------------------------ events and flags

  /** The three families that come as a start, a repeating event and an end. */
  datatype Family = Touch | Collision | LandCollision

  /**
   * The script events the admission logic tells apart; `Repeat(Touch)` is
   * `touch`, `Start(Touch)` is `touch_start`, and so on. `Money` and
   * `OtherEvent` pass with no flag of their own.
   */
  datatype EventKind =
    | Timer | Control | MovingStart | MovingEnd | Changed | StateEntry | Money | OtherEvent
    | Repeat(family: Family) | Start(family: Family) | End(family: Family)

  /**
   * An event as queued: its kind and the integer parameter the admission
   * logic reads (the held level of `control`, the change of `changed`, the
   * amount of `money`; unused otherwise).
   */
  datatype Event = Event(kind: EventKind, param: int)

  /** A family's pair of flags: one event queued, and ends suppressed until the next start. */
  datatype FamilyFlags = FamilyFlags(inQueue: bool, remove: bool)

  /** The admission flags of one script (ScriptData). */
  datatype Flags = Flags(
    timerQueued: bool,
    movingInQueue: bool,
    touch: FamilyFlags,
    collision: FamilyFlags,
    landCollision: FamilyFlags,
    changedInQueue: set<int>,
    controlEventsInQueue: nat,
    lastControlLevel: int)

  /**
   * The flags after ResetEvents (run when `state_entry` is admitted):
   * nothing queued, nothing suppressed, no control level.
   */
  const Cleared: Flags := Flags(false, false, FamilyFlags(false, false), FamilyFlags(false, false),
                                FamilyFlags(false, false), {}, 0, 0)

  function FamilyOf(f: Flags, fam: Family): FamilyFlags {
    match fam
    case Touch => f.touch
    case Collision => f.collision
    case LandCollision => f.landCollision
  }

  function WithFamily(f: Flags, fam: Family, x: FamilyFlags): (r: Flags)
    ensures FamilyOf(r, fam) == x
    ensures forall g :: g != fam ==> FamilyOf(r, g) == FamilyOf(f, g)
    ensures r.timerQueued == f.timerQueued && r.movingInQueue == f.movingInQueue
    ensures r.changedInQueue == f.changedInQueue
    ensures r.controlEventsInQueue == f.controlEventsInQueue && r.lastControlLevel == f.lastControlLevel
  {
    match fam
    case Touch => f.(touch := x)
    case Collision => f.(collision := x)
    case LandCollision => f.(landCollision := x)
  }

  /**
   * A loaded script: whether it compiled, the events its current state
   * handles (the state's event-flag mask), and its admission flags.
   */
  datatype ScriptData = ScriptData(id: string, compiled: bool, stateEvents: set<EventKind>, flags: Flags)

  // ------------------------------------------------ admission

  /**
   * CheckIfEventShouldFire, with idle control events dropped: whether the
   * event is queued, and the script with its flags as admission leaves them.
   */
  function Admit(d: ScriptData, ev: Event): (r: (bool, ScriptData))
    ensures !d.compiled || ev.kind !in d.stateEvents ==> r == (false, d)
    ensures r.1.id == d.id && r.1.compiled == d.compiled && r.1.stateEvents == d.stateEvents
    ensures !r.0 ==> r.1 == d
    ensures ev.kind == Timer && r.0 ==> !d.flags.timerQueued && r.1.flags == d.flags.(timerQueued := true)
    ensures ev.kind == MovingStart && r.0 ==> !d.flags.movingInQueue && r.1.flags == d.flags.(movingInQueue := true)
    ensures ev.kind == MovingEnd ==> r.1 == d && (r.0 <==> d.compiled && MovingEnd in d.stateEvents && d.flags.movingInQueue)
    ensures ev.kind.Repeat? && r.0 ==>
      !FamilyOf(d.flags, ev.kind.family).inQueue && !FamilyOf(d.flags, ev.kind.family).remove
      && r.1.flags == WithFamily(d.flags, ev.kind.family, FamilyOf(d.flags, ev.kind.family).(inQueue := true))
    ensures ev.kind.Start? && r.0 ==>
      r.1.flags == WithFamily(d.flags, ev.kind.family, FamilyOf(d.flags, ev.kind.family).(remove := false))
    ensures ev.kind.End? ==> r.1 == d
    ensures ev.kind.End? && r.0 ==> !FamilyOf(d.flags, ev.kind.family).remove
    ensures ev.kind == Changed && r.0 ==>
      ev.param !in d.flags.changedInQueue && r.1.flags == d.flags.(changedInQueue := d.flags.changedInQueue + {ev.param})
    ensures ev.kind == Control ==> r.1 == d
    ensures ev.kind == Control && r.0 ==>
      !(d.flags.lastControlLevel == ev.param == 0)
      && (d.flags.controlEventsInQueue > 0 ==> d.flags.lastControlLevel != ev.param)
    ensures ev.kind == StateEntry && r.0 ==> r.1.flags == Cleared
    ensures d.compiled && ev.kind in d.stateEvents && ev.kind in {StateEntry, Money, OtherEvent} ==> r.0
    ensures d.compiled && ev.kind in d.stateEvents ==>
      (ev.kind == Timer ==> (r.0 <==> !d.flags.timerQueued))
      && (ev.kind == MovingStart ==> (r.0 <==> !d.flags.movingInQueue))
      && (ev.kind.Repeat? ==>
            (r.0 <==> !FamilyOf(d.flags, ev.kind.family).inQueue && !FamilyOf(d.flags, ev.kind.family).remove))
      && (ev.kind.Start? ==> r.0)
      && (ev.kind.End? ==> (r.0 <==> !FamilyOf(d.flags, ev.kind.family).remove))
      && (ev.kind == Changed ==> (r.0 <==> ev.param !in d.flags.changedInQueue))
      && (ev.kind == Control ==>
            (r.0 <==> !(d.flags.lastControlLevel == ev.param == 0)
                      && !(d.flags.controlEventsInQueue > 0 && d.flags.lastControlLevel == ev.param)))
  {
    var f := d.flags;
    if !d.compiled || ev.kind !in d.stateEvents then (false, d)
    else
      match ev.kind
      case Timer =>
        if f.timerQueued then (false, d) else (true, d.(flags := f.(timerQueued := true)))
      case Control =>
        if f.lastControlLevel == ev.param && ev.param == 0 then (false, d)
        else if f.controlEventsInQueue > 0 && f.lastControlLevel == ev.param then (false, d)
        else (true, d)
      case MovingStart =>
        if f.movingInQueue then (false, d) else (true, d.(flags := f.(movingInQueue := true)))
      case MovingEnd =>
        (f.movingInQueue, d)
      case Repeat(fam) =>
        var x := FamilyOf(f, fam);
        if x.inQueue || x.remove then (false, d)
        else (true, d.(flags := WithFamily(f, fam, x.(inQueue := true))))
      case Start(fam) =>
        (true, d.(flags := WithFamily(f, fam, FamilyOf(f, fam).(remove := false))))
      case End(fam) =>
        (!FamilyOf(f, fam).remove, d)
      case Changed =>
        if ev.param in f.changedInQueue then (false, d)
        else (true, d.(flags := f.(changedInQueue := f.changedInQueue + {ev.param})))
      case StateEntry =>
        (true, d.(flags := Cleared))
      case Money => (true, d)
      case OtherEvent => (true, d)
  }

  /**
   * CheckIfEventShouldFire as written: a control event with held level 0
   * after a last level of 0 is admitted outright (the code returns true
   * where its comment says the event is dropped); everything else as Admit.
   */
  function AdmitAsWritten(d: ScriptData, ev: Event): (r: (bool, ScriptData))
    ensures ev.kind != Control ==> r == Admit(d, ev)
    ensures ev.kind == Control ==> r.1 == d
    ensures ev.kind == Control ==>
      (r.0 <==> d.compiled && Control in d.stateEvents
                && (d.flags.lastControlLevel == ev.param == 0
                    || !(d.flags.controlEventsInQueue > 0 && d.flags.lastControlLevel == ev.param)))
  {
    if d.compiled && ev.kind in d.stateEvents && ev.kind == Control
       && d.flags.lastControlLevel == ev.param && ev.param == 0
    then (true, d)
    else Admit(d, ev)
  }

  /**
   * The discrepancy: with a control event still queued and the last level
   * 0, an idle control event (held 0) passes as written, though even the
   * rule for queued control events, which admits only changed levels,
   * would reject it; the intended logic drops it.
   */
  lemma IdleControlAdmitted(d: ScriptData)
    requires d.compiled && Control in d.stateEvents
    requires d.flags.controlEventsInQueue == 1 && d.flags.lastControlLevel == 0
    ensures AdmitAsWritten(d, Event(Control, 0)).0
    ensures !Admit(d, Event(Control, 0)).0
  {
  }

  /** The intended rule: an idle control event after an idle one is never queued. */
  lemma IdleControlDropped(d: ScriptData, ev: Event)
    requires ev.kind == Control && ev.param == 0 && d.flags.lastControlLevel == 0
    ensures !Admit(d, ev).0
  {
  }

  /**
   * EventComplete: the completed event's kind releases its flag (timer,
   * the family's repeating event, moving_end, its change value); a control
   * completion counts the control queue down, never below 0.
   */
  function EventComplete(f: Flags, ev: Event): (r: Flags)
    ensures ev.kind == Timer ==> r == f.(timerQueued := false)
    ensures ev.kind == MovingEnd ==> r == f.(movingInQueue := false)
    ensures ev.kind.Repeat? ==> r == WithFamily(f, ev.kind.family, FamilyOf(f, ev.kind.family).(inQueue := false))
    ensures ev.kind == Changed ==> r == f.(changedInQueue := f.changedInQueue - {ev.param})
    ensures ev.kind == Control ==>
      r == f.(controlEventsInQueue := if f.controlEventsInQueue > 0 then f.controlEventsInQueue - 1 else 0)
    ensures !(ev.kind in {Timer, MovingEnd, Changed, Control} || ev.kind.Repeat?) ==> r == f
  {
    match ev.kind
    case Timer => f.(timerQueued := false)
    case Control => f.(controlEventsInQueue := if f.controlEventsInQueue > 0 then f.controlEventsInQueue - 1 else 0)
    case MovingEnd => f.(movingInQueue := false)
    case Repeat(fam) => WithFamily(f, fam, FamilyOf(f, fam).(inQueue := false))
    case Changed => f.(changedInQueue := f.changedInQueue - {ev.param})
    case _ => f
  }

  // ------------------------------------------------ the queue invariant

  /** What a count of queued events looks at: one kind, or `changed` events with one value. */
  datatype Marker = OfKind(kind: EventKind) | ChangedValue(value: int)

  predicate Matches(ev: Event, m: Marker) {
    match m
    case OfKind(k) => ev.kind == k
    case ChangedValue(c) => ev.kind == Changed && ev.param == c
  }

  /** How many queued events the marker picks out. */
  function Count(q: seq<Event>, m: Marker): nat {
    if |q| == 0 then 0 else (if Matches(q[0], m) then 1 else 0) + Count(q[1..], m)
  }

  lemma {:induction false} CountConcat(a: seq<Event>, b: seq<Event>, m: Marker)
    ensures Count(a + b, m) == Count(a, m) + Count(b, m)
  {
    if |a| > 0 {
      assert (a + b)[1..] == a[1..] + b;
      CountConcat(a[1..], b, m);
    } else {
      assert a + b == b;
    }
  }

  /** Taking the i-th event out of the queue. */
  function RemoveAt(q: seq<Event>, i: nat): (r: seq<Event>)
    requires i < |q|
    ensures |r| == |q| - 1
  {
    q[..i] + q[i + 1..]
  }

  lemma CountRemoveAt(q: seq<Event>, i: nat, m: Marker)
    requires i < |q|
    ensures Count(RemoveAt(q, i), m) == Count(q, m) - (if Matches(q[i], m) then 1 else 0)
  {
    assert q == q[..i] + ([q[i]] + q[i + 1..]);
    CountConcat(q[..i], [q[i]] + q[i + 1..], m);
    CountConcat([q[i]], q[i + 1..], m);
    CountConcat(q[..i], q[i + 1..], m);
  }

  lemma CountSnoc(q: seq<Event>, ev: Event, m: Marker)
    ensures Count(q + [ev], m) == Count(q, m) + (if Matches(ev, m) then 1 else 0)
  {
    CountConcat(q, [ev], m);
  }

  /** A flag that is set exactly when one event it guards is queued, and never more than one is. */
  predicate Latch(flag: bool, n: nat) {
    (flag <==> n > 0) && n <= 1
  }

  /**
   * The flags describe the queue: a timer, a touch, a collision and a land
   * collision are each queued at most once and exactly while their flag is
   * set; likewise each change value of `changed`.
   */
  ghost predicate Tracked(f: Flags, q: seq<Event>) {
    Latch(f.timerQueued, Count(q, OfKind(Timer)))
    && Latch(f.touch.inQueue, Count(q, OfKind(Repeat(Touch))))
    && Latch(f.collision.inQueue, Count(q, OfKind(Repeat(Collision))))
    && Latch(f.landCollision.inQueue, Count(q, OfKind(Repeat(LandCollision))))
    && forall c :: Latch(c in f.changedInQueue, Count(q, ChangedValue(c)))
  }

  /** Offer an event to the script: queue it if admitted. */
  function Post(d: ScriptData, q: seq<Event>, ev: Event): (r: (ScriptData, seq<Event>))
    ensures r.1 == if Admit(d, ev).0 then q + [ev] else q
    ensures r.0 == Admit(d, ev).1
  {
    var (ok, d1) := Admit(d, ev);
    (d1, if ok then q + [ev] else q)
  }

  /** Run the i-th queued event: take it out and release its flags. */
  function Complete(d: ScriptData, q: seq<Event>, i: nat): (r: (ScriptData, seq<Event>))
    requires i < |q|
    ensures r.1 == RemoveAt(q, i) && r.0 == d.(flags := EventComplete(d.flags, q[i]))
  {
    (d.(flags := EventComplete(d.flags, q[i])), RemoveAt(q, i))
  }

  /** A fresh script with an empty queue is tracked. */
  lemma ClearedTracked()
    ensures Tracked(Cleared, [])
  {
  }

  /**
   * Admission (other than a state change) raises at most one tracked flag,
   * the one of the event's own kind, and only when it was down.
   */
  lemma AdmitRaisesOwnFlag(d: ScriptData, ev: Event)
    requires Admit(d, ev).0 && ev.kind != StateEntry
    ensures var f1 := Admit(d, ev).1.flags;
      (f1.timerQueued <==> d.flags.timerQueued || ev.kind == Timer)
      && (ev.kind == Timer ==> !d.flags.timerQueued)
      && (f1.touch.inQueue <==> d.flags.touch.inQueue || ev.kind == Repeat(Touch))
      && (ev.kind == Repeat(Touch) ==> !d.flags.touch.inQueue)
      && (f1.collision.inQueue <==> d.flags.collision.inQueue || ev.kind == Repeat(Collision))
      && (ev.kind == Repeat(Collision) ==> !d.flags.collision.inQueue)
      && (f1.landCollision.inQueue <==> d.flags.landCollision.inQueue || ev.kind == Repeat(LandCollision))
      && (ev.kind == Repeat(LandCollision) ==> !d.flags.landCollision.inQueue)
      && f1.changedInQueue == d.flags.changedInQueue + (if ev.kind == Changed then {ev.param} else {})
      && (ev.kind == Changed ==> ev.param !in d.flags.changedInQueue)
  {
  }

  /**
   * Admission of any event but `state_entry` keeps the flags describing the
   * queue. `state_entry` resets the flags but leaves the queue as it is, so
   * it can end the tracking (see StateEntryForgetsQueue).
   */
  lemma PostKeepsTracked(d: ScriptData, q: seq<Event>, ev: Event)
    requires Tracked(d.flags, q) && ev.kind != StateEntry
    ensures Tracked(Post(d, q, ev).0.flags, Post(d, q, ev).1)
  {
    var (ok, d1) := Admit(d, ev);
    if ok {
      AdmitRaisesOwnFlag(d, ev);
      var q1 := q + [ev];
      CountSnoc(q, ev, OfKind(Timer));
      CountSnoc(q, ev, OfKind(Repeat(Touch)));
      CountSnoc(q, ev, OfKind(Repeat(Collision)));
      CountSnoc(q, ev, OfKind(Repeat(LandCollision)));
      forall c ensures Latch(c in d1.flags.changedInQueue, Count(q1, ChangedValue(c))) {
        CountSnoc(q, ev, ChangedValue(c));
        assert Latch(c in d.flags.changedInQueue, Count(q, ChangedValue(c)));
      }
    }
  }

  /** Completing any queued event keeps the flags describing the queue. */
  lemma CompleteKeepsTracked(d: ScriptData, q: seq<Event>, i: nat)
    requires i < |q| && Tracked(d.flags, q)
    ensures Tracked(Complete(d, q, i).0.flags, Complete(d, q, i).1)
  {
    var f1 := EventComplete(d.flags, q[i]);
    var q1 := RemoveAt(q, i);
    CountRemoveAt(q, i, OfKind(Timer));
    CountRemoveAt(q, i, OfKind(Repeat(Touch)));
    CountRemoveAt(q, i, OfKind(Repeat(Collision)));
    CountRemoveAt(q, i, OfKind(Repeat(LandCollision)));
    forall c ensures Latch(c in f1.changedInQueue, Count(q1, ChangedValue(c))) {
      CountRemoveAt(q, i, ChangedValue(c));
      assert Latch(c in d.flags.changedInQueue, Count(q, ChangedValue(c)));
    }
  }

  /**
   * Hence, while the flags track the queue, a second timer offered while
   * one waits is refused.
   */
  lemma SecondTimerRefused(d: ScriptData, q: seq<Event>, ev: Event)
    requires Tracked(d.flags, q) && Count(q, OfKind(Timer)) > 0 && ev.kind == Timer
    ensures Post(d, q, ev) == (d, q)
  {
  }

  /**
   * A `state_entry` between two timers lets the second one in: the reset
   * flags no longer record the timer still waiting in the queue, so two
   * timers end up queued. This is why the lemmas above exclude it.
   */
  lemma StateEntryForgetsQueue(d: ScriptData, t1: Event, se: Event, t2: Event)
    requires d.compiled && Timer in d.stateEvents && StateEntry in d.stateEvents && d.flags == Cleared
    requires t1.kind == Timer && se.kind == StateEntry && t2.kind == Timer
    ensures var (d1, q1) := Post(d, [], t1);
      var (d2, q2) := Post(d1, q1, se);
      var (d3, q3) := Post(d2, q2, t2);
      Tracked(d1.flags, q1) && q3 == [t1, se, t2] && Count(q3, OfKind(Timer)) == 2 && !Tracked(d3.flags, q3)
  {
    var (d1, q1) := Post(d, [], t1);
    var (d2, q2) := Post(d1, q1, se);
    var (d3, q3) := Post(d2, q2, t2);
    assert q3 == [t1, se, t2];
    assert q3[1..] == [se, t2] && [se, t2][1..] == [t2] && [t2][1..] == [];
    assert Count([t2], OfKind(Timer)) == 1;
    assert Count([se, t2], OfKind(Timer)) == 1;
    assert Count(q3, OfKind(Timer)) == 2;
  }

  // ------------------------------------------------ the money event

  /** Offer one event to each script in turn: the scripts as admission leaves them, and the ids of those that queued it. */
  function FireAll(ds: seq<ScriptData>, ev: Event): (r: (seq<ScriptData>, seq<string>))
    ensures |r.0| == |ds|
    ensures forall i :: 0 <= i < |ds| ==> r.0[i] == Admit(ds[i], ev).1
    ensures |r.1| > 0 <==> exists i :: 0 <= i < |ds| && Admit(ds[i], ev).0
    ensures forall id :: id in r.1 ==> exists i :: 0 <= i < |ds| && Admit(ds[i], ev).0 && ds[i].id == id
  {
    if |ds| == 0 then ([], [])
    else
      var (rest, queued) := FireAll(ds[..|ds| - 1], ev);
      var last := ds[|ds| - 1];
      var (ok, d1) := Admit(last, ev);
      (rest + [d1], if ok then queued + [last.id] else queued)
  }

  /** A prim: its scripts, and the local id of its group's root part. */
  datatype Prim = Prim(scripts: seq<ScriptData>, root: int)

  /** The scripts `money` offers the event to: the prim's own, or else its root part's. */
  function Payees(prims: map<int, Prim>, localID: int): (ds: seq<ScriptData>)
    ensures localID !in prims ==> ds == []
    ensures localID in prims && |prims[localID].scripts| > 0 ==> ds == prims[localID].scripts
    ensures localID in prims && |prims[localID].scripts| == 0 ==>
      ds == (if prims[localID].root in prims then prims[prims[localID].root].scripts else [])
  {
    if localID !in prims then []
    else if |prims[localID].scripts| > 0 then prims[localID].scripts
    else if prims[localID].root in prims then prims[prims[localID].root].scripts
    else []
  }

  /**
   * money: offer a `money` event for `amount` to the paid prim's scripts;
   * true iff at least one script queued it. Admission of `money` moves no
   * flag, so the scripts are not returned.
   */
  function MoneyEvent(prims: map<int, Prim>, localID: int, amount: int): (r: (seq<string>, bool))
    ensures r.1 <==> |r.0| > 0
    ensures r.1 <==> exists i :: 0 <= i < |Payees(prims, localID)|
                      && Payees(prims, localID)[i].compiled && Money in Payees(prims, localID)[i].stateEvents
    ensures forall id :: id in r.0 ==> exists d :: d in Payees(prims, localID) && d.id == id
  {
    var ds := Payees(prims, localID);
    var (_, queued) := FireAll(ds, Event(Money, amount));
    assert forall i :: 0 <= i < |ds| ==> (Admit(ds[i], Event(Money, amount)).0 <==> ds[i].compiled && Money in ds[i].stateEvents);
    (queued, |queued| > 0)
  }

  /** Offering `money` changes no script. */
  lemma MoneyLeavesScripts(ds: seq<ScriptData>, amount: int)
    ensures FireAll(ds, Event(Money, amount)).0 == ds
  {
  }

  /**
   * HandlePostObjectPaid: true when none of the engine's scenes has the
   * region handle; otherwise the answer of `money` for the paid prim.
   */
  function HandlePostObjectPaid(regions: set<int>, regionHandle: int, prims: map<int, Prim>, localID: int, amount: int): (r: bool)
    ensures regionHandle !in regions ==> r
    ensures regionHandle in regions ==> (r <==> MoneyEvent(prims, localID, amount).1)
  {
    regionHandle !in regions || MoneyEvent(prims, localID, amount).1
  }

  /**
   * HandleObjectPaid: false when no prim has the object id (`parts` maps
   * UUIDs to local ids); otherwise `money` on the group's root part.
   */
  function HandleObjectPaid(parts: map<string, int>, prims: map<int, Prim>, objectID: string, amount: int): (r: bool)
    ensures objectID !in parts || parts[objectID] !in prims ==> !r
    ensures objectID in parts && parts[objectID] in prims ==>
      r == MoneyEvent(prims, prims[parts[objectID]].root, amount).1
  {
    if objectID !in parts || parts[objectID] !in prims then false
    else MoneyEvent(prims, prims[parts[objectID]].root, amount).1
  }

  // ------------------------------------------------ the engine header

  /** String.IndexOf(char): the first position of `c`, or -1. */
  function IndexOf(s: string, c: char): (r: int)
    ensures r == -1 <==> c !in s
    ensures r != -1 ==> 0 <= r < |s| && s[r] == c && c !in s[..r]
  {
    if |s| == 0 then -1
    else if s[0] == c then 0
    else
      var k := IndexOf(s[1..], c);
      assert s[1..][..if k == -1 then 0 else k] == s[1..1 + if k == -1 then 0 else k];
      if k == -1 then -1 else k + 1
  }

  /** A position holding `c` with no `c` before it is the one IndexOf finds. */
  lemma {:induction false} IndexOfIs(s: string, c: char, k: nat)
    requires k < |s| && s[k] == c && c !in s[..k]
    ensures IndexOf(s, c) == k
  {
    if k > 0 {
      assert s[0] in s[..k];
      assert s[1..][..k - 1] == s[..k][1..];
      IndexOfIs(s[1..], c, k - 1);
    }
  }

  /** A character found in a prefix is found in the whole string. */
  lemma InPrefix(s: string, k: nat, c: char)
    requires k <= |s| && c in s[..k]
    ensures c in s
  {
    var i :| 0 <= i < k && s[..k][i] == c;
    assert s[i] == c;
  }

  /** The white space String.Trim removes, restricted to ASCII. */
  predicate IsSpace(c: char) {
    c == ' ' || c == '\t' || c == '\n' || c == '\r' || c == '\U{B}' || c == '\U{C}'
  }

  function TrimStart(s: string): (r: string)
    ensures |r| <= |s| && r == s[|s| - |r|..]
    ensures forall i :: 0 <= i < |s| - |r| ==> IsSpace(s[i])
    ensures |r| > 0 ==> !IsSpace(r[0])
  {
    if |s| > 0 && IsSpace(s[0]) then TrimStart(s[1..]) else s
  }

  function TrimEnd(s: string): (r: string)
    ensures |r| <= |s| && r == s[..|r|]
    ensures forall i :: |r| <= i < |s| ==> IsSpace(s[i])
    ensures |r| > 0 ==> !IsSpace(r[|r| - 1])
  {
    if |s| > 0 && IsSpace(s[|s| - 1]) then TrimEnd(s[..|s| - 1]) else s
  }

  /** String.Trim: white space off both ends. */
  function Trim(s: string): (r: string)
    ensures forall c :: c in r ==> c in s
    ensures |s| > 0 && !IsSpace(s[0]) ==> r == TrimEnd(s)
  {
    TrimEnd(TrimStart(s))
  }

  /**
   * The engine named by a trimmed first line of the form `//Name:...`: the
   * text between the `//` and the first colon.
   */
  function HeaderName(first: string): (r: Option<string>)
    ensures r.Some? ==>
      2 + |r.value| < |first| && first[2 + |r.value|] == ':'
      && ':' !in r.value && first[..2 + |r.value|] == "//" + r.value
  {
    var colon := IndexOf(first, ':');
    if |first| > 2 && first[..2] == "//" && colon != -1 then
      assert first[0] == '/' && first[1] == '/';
      assert first[..colon] == "//" + first[2..colon];
      assert first[..colon] == first[..2] + first[2..colon];
      Some(first[2..colon])
    else None
  }

  /** A line `//Name:...` whose Name has no colon names Name. */
  lemma HeaderNameOf(name: string, tail: string)
    requires ':' !in name
    ensures HeaderName("//" + name + ":" + tail) == Some(name)
  {
    var first := "//" + name + ":" + tail;
    var n := |name|;
    assert first[..2 + n] == "//" + name;
    assert ':' !in first[..2 + n];
    IndexOfIs(first, ':', 2 + n);
    assert first[..2] == "//";
    assert first[2..2 + n] == name;
  }

  /**
   * The engine header: when the first line (trimmed) is `//Name:...` and
   * Name is a loaded engine, the script is bound to that engine and the
   * header's `//Name:` becomes `//`; otherwise engine and script are kept.
   */
  function ReadHeader(script: string, engine: string, names: set<string>): (r: (string, string))
    ensures r.0 == engine || r.0 in names
    ensures r.0 != engine ==> ':' in script && r.1 == "//" + script[IndexOf(script, ':') + 1..]
    ensures IndexOf(script, '\n') <= 1 ==> r == (engine, script)
  {
    var lineEnd := IndexOf(script, '\n');
    if lineEnd <= 1 then (engine, script)
    else
      var first := Trim(script[..lineEnd]);
      var name := HeaderName(first);
      if name.Some? && name.value in names then
        assert ':' in script by {
          InPrefix(script, lineEnd, ':');
        }
        (name.value, "//" + script[IndexOf(script, ':') + 1..])
      else (engine, script)
  }

  /** How rez_script ended: not this engine's script, or started with this (possibly rewritten) text. */
  datatype RezOutcome = Skipped | Started(script: string)

  const MrmPrefix: string := "//MRM:"

  /**
   * rez_script: a mini-region-module script is skipped; otherwise the
   * header decides the engine, and the script starts only if that is this
   * engine.
   */
  function RezScript(script: string, engine: string, names: set<string>, thisEngine: string): (r: RezOutcome)
    ensures |script| >= |MrmPrefix| && script[..|MrmPrefix|] == MrmPrefix ==> r == Skipped
    ensures r.Started? ==> ReadHeader(script, engine, names) == (thisEngine, r.script)
  {
    if |script| >= |MrmPrefix| && script[..|MrmPrefix|] == MrmPrefix then Skipped
    else
      var (eng, text) := ReadHeader(script, engine, names);
      if eng != thisEngine then Skipped else Started(text)
  }

  /** Cutting `//Name:rest` inside `rest` cuts only `rest`. */
  lemma HeaderPrefix(name: string, rest: string, m: nat)
    requires m <= |rest|
    ensures ("//" + name + ":" + rest)[..3 + |name| + m] == "//" + name + ":" + rest[..m]
  {
  }

  /** The first line break of `//Name:rest` is the first one of `rest`, when Name holds none. */
  lemma LineEndOf(name: string, rest: string)
    requires '\n' !in name && '\n' in rest
    ensures IndexOf("//" + name + ":" + rest, '\n') == 3 + |name| + IndexOf(rest, '\n')
  {
    var script := "//" + name + ":" + rest;
    var j := IndexOf(rest, '\n');
    HeaderPrefix(name, rest, j);
    assert '\n' !in "//" + name + ":" + rest[..j] by {
      assert '\n' !in rest[..j] && '\n' !in "//" + name + ":";
    }
    assert script[3 + |name| + j] == rest[j];
    IndexOfIs(script, '\n', 3 + |name| + j);
  }

  /** Trimming a line `//Name:text` keeps the header and cuts only `text`. */
  lemma TrimKeepsHeader(name: string, text: string) returns (tail: string)
    ensures Trim("//" + name + ":" + text) == "//" + name + ":" + tail
  {
    var line := "//" + name + ":" + text;
    var n := |name|;
    var first := TrimEnd(line);
    assert !IsSpace(line[0]) && !IsSpace(line[2 + n]);
    var m := |first| - 3 - n;
    HeaderPrefix(name, text, m);
    tail := text[..m];
  }

  /**
   * The trimmed first line of `//Name:rest`, when `rest` holds a line break
   * and Name holds none: the header followed by part of `rest`.
   */
  lemma FirstLineOf(name: string, rest: string) returns (tail: string)
    requires '\n' !in name && '\n' in rest
    ensures var script := "//" + name + ":" + rest;
      IndexOf(script, '\n') > 1
      && Trim(script[..IndexOf(script, '\n')]) == "//" + name + ":" + tail
  {
    var script := "//" + name + ":" + rest;
    var j := IndexOf(rest, '\n');
    LineEndOf(name, rest);
    HeaderPrefix(name, rest, j);
    var line := "//" + name + ":" + rest[..j];
    assert script[..IndexOf(script, '\n')] == line;
    tail := TrimKeepsHeader(name, rest[..j]);
  }

  /** Only the engine name MRM makes `//Name:` the mini-region-module prefix. */
  lemma MrmPrefixOnlyForMrm(name: string, rest: string)
    requires ':' !in name && name != "MRM"
    ensures var script := "//" + name + ":" + rest;
      !(|script| >= |MrmPrefix| && script[..|MrmPrefix|] == MrmPrefix)
  {
    var script := "//" + name + ":" + rest;
    var n := |name|;
    if |script| >= |MrmPrefix| {
      if n > 3 {
        assert script[..6][5] == name[3] != MrmPrefix[5];
      } else if n < 3 {
        assert script[..6][2 + n] == ':' != MrmPrefix[2 + n];
      } else {
        assert script[..6][2..5] == name != MrmPrefix[2..5];
      }
    }
  }

  /**
   * A script headed `//Name:` for a loaded engine Name runs on that engine
   * alone, with the header reduced to `//` and the rest of the text as it
   * was, whatever engine the caller named.
   */
  lemma HeaderSelectsEngine(name: string, rest: string, engine: string, names: set<string>, thisEngine: string)
    requires name in names && ':' !in name && '\n' !in name && name != "MRM"
    requires '\n' in rest
    ensures RezScript("//" + name + ":" + rest, engine, names, thisEngine)
         == if name == thisEngine then Started("//" + rest) else Skipped
  {
    var script := "//" + name + ":" + rest;
    var n := |name|;
    var tail := FirstLineOf(name, rest);
    HeaderNameOf(name, tail);
    assert script[..2 + n] == "//" + name;
    IndexOfIs(script, ':', 2 + n);
    assert script[3 + n..] == rest;
    MrmPrefixOnlyForMrm(name, rest);
  }

  /** A script with no line break, or with a first line too short to hold a header, keeps the caller's engine. */
  lemma NoHeaderKeepsEngine(script: string, engine: string, names: set<string>, thisEngine: string)
    requires IndexOf(script, '\n') <= 1
    requires !(|script| >= |MrmPrefix| && script[..|MrmPrefix|] == MrmPrefix)
    ensures RezScript(script, engine, names, thisEngine) == if engine == thisEngine then Started(script) else Skipped
  {
  }

  /**
   * The two paid-event paths agree on a prim whose root part is its own
   * root, when the paid part is that root or carries no script of its own:
   * then offering `money` to the part and offering it to its root reach the
   * same scripts.
   */
  lemma PaidHandlersAgree(regions: set<int>, regionHandle: int, parts: map<string, int>, prims: map<int, Prim>,
                          objectID: string, amount: int)
    requires regionHandle in regions && objectID in parts && parts[objectID] in prims
    requires prims[parts[objectID]].root == parts[objectID] || |prims[parts[objectID]].scripts| == 0
    requires prims[parts[objectID]].root in prims ==> prims[prims[parts[objectID]].root].root == prims[parts[objectID]].root
    ensures HandlePostObjectPaid(regions, regionHandle, prims, parts[objectID], amount)
         == HandleObjectPaid(parts, prims, objectID, amount)
  {
    var l := parts[objectID];
    var root := prims[l].root;
    assert Payees(prims, l) == Payees(prims, root);
  }
}

=== FILE: server.dfy ===
/*
 * The money server's XML-RPC handlers (MoneyXmlRpcModule) as pure steps from
 * a request and the server state to the new state and the response table.
 *
 * Two database-service calls, DoTransfer and DoAddMoney, are not part of
 * this model's source; they are modelled under a stated assumption:
 * DoTransfer(id), when it succeeds, runs withdrawMoney(sender) and then
 * giveMoney(receiver) for the recorded transaction, and when it fails
 * changes nothing; DoAddMoney(id) is giveMoney(receiver) alone. Whether each
 * one succeeds is a parameter. So are the outbound XML-RPC calls (the
 * confirmation a region returns for an object payment), the values the
 * handlers draw from the clock and the random generator, and the MD5 digest.
 */
module MoneyServer {
  import opened Base
  import opened Store

  /** The [MoneyServer] settings the handlers read. `bankerAvatar` is the configured text, before lower-casing. */
  datatype Config = Config(
    defaultBalance: int,
    forceTransfer: bool,
    bankerAvatar: string,
    scriptSendMoney: bool,
    scriptAccessKey: string,
    scriptIPaddress: string)

  /** The database plus the three session dictionaries the handlers share. */
  datatype Server = Server(
    db: Db,
    sessions: map<AccountId, string>,
    secureSessions: map<AccountId, string>,
    webSessions: map<string, string>)

  /** The account key every handler composes from an avatar UUID and its user-server address. */
  function UserKey(uuid: string, ip: string): (r: AccountId)
    ensures |r| == |uuid| + 1 + |ip| && r[|uuid|] == '@'
    ensures r[..|uuid|] == uuid && r[|uuid| + 1..] == ip
  {
    uuid + "@" + ip
  }

  /** The session gate: both dictionaries hold the key and both stored ids equal the presented ones. */
  predicate SessionValid(s: Server, user: AccountId, sessionId: string, secureId: string) {
    user in s.sessions && user in s.secureSessions
    && s.sessions[user] == sessionId && s.secureSessions[user] == secureId
  }

  const SessionFailureMessage: string := "Session check failure, please re-login later!"
  const ReloginDescription: string := "Session check failure, please re-login"
  const ForceRefusedMessage: string := "not allowed force transfer of Money!"
  const EmptyIdDescription: string := "TransactionID is empty"
  const CancelText: string := "User canceled the transaction on "
  const RollBackText: string := "The buyer failed to get the object, roll back the transaction"

  /**
   * The keys of a response table the callers read: `success`,
   * `clientBalance`, and the `message`/`description` text. None is a key the
   * handler never set.
   */
  datatype Reply = Reply(success: Option<bool>, balance: Option<int>, note: Option<string>)

  /**
   * A handler's effect: the new state, the response, and the accounts the
   * handler calls UpdateBalance for, in call order (`Delivered` says which
   * of them a push actually reaches).
   */
  datatype Handled = Handled(s: Server, reply: Reply, pushes: seq<AccountId>)

  /**
   * UpdateBalance: of the accounts it is called for, the ones a push goes
   * out to. An account must hold both session ids and have a userinfo row
   * (the address the push is sent to); any other call sends nothing.
   */
  function Delivered(s: Server, calls: seq<AccountId>): (r: seq<AccountId>)
    ensures forall u :: u in r <==>
      u in calls && u in s.sessions && u in s.secureSessions && FetchUserInfo(s.db, u).Some?
    ensures |r| <= |calls|
  {
    if |calls| == 0 then []
    else
      var u := calls[0];
      var rest := Delivered(s, calls[1..]);
      if u in s.sessions && u in s.secureSessions && FetchUserInfo(s.db, u).Some? then [u] + rest else rest
  }

  // ---------------------------------------------------------------- login

  datatype LoginRequest = LoginRequest(
    clientUUID: string,
    sessionId: string,
    secureId: string,
    userServIP: string,
    simIP: string,
    avatarName: string)

  /**
   * The balance lookup of login: the stored balance, or a new account at the
   * default balance when getBalance says there is none. `Some(db)` carries the
   * database after the lookup; None is the exception an INSERT on an existing
   * key raises, which the handler catches.
   */
  function LoginBalance(db: Db, user: AccountId, defaultBalance: int, fault: bool): (r: (Option<Db>, Reply))
    ensures r.0.Some? ==> r.0.value.txs == db.txs && r.0.value.userinfo == db.userinfo
    ensures fault ==> r == (Some(db), Reply(None, None, None))
    ensures !fault && user in db.balances && db.balances[user] >= 0 ==>
      r == (Some(db), Reply(Some(true), Some(db.balances[user]), None))
    ensures !fault && user !in db.balances ==>
      r.0 == Some(db.(balances := db.balances[user := defaultBalance]))
      && r.1 == Reply(Some(true), Some(defaultBalance), None)
    ensures !fault && user in db.balances && db.balances[user] == NoAccount ==>
      r == (None, Reply(Some(false), Some(0), None))
    ensures !fault && user in db.balances && db.balances[user] < NoAccount ==>
      r == (Some(db), Reply(None, None, None))
  {
    var b := GetBalance(db, user, fault);
    if b == NoAccount then
      match AddUser(db, user, defaultBalance)
      case Inserted(db2) => (Some(db2), Reply(Some(true), Some(defaultBalance), None))
      case DuplicateKey => (None, Reply(Some(false), Some(0), None))
    else if b >= 0 then (Some(db), Reply(Some(true), Some(b), None))
    else (Some(db), Reply(None, None, None))
  }

  /**
   * TryAddUserInfo, a database-service call this model's source does not
   * contain, modelled as "insert, else update" over the two userinfo
   * statements; whether it succeeds is `ok`. When it does the row holds
   * `info`, and when it does not nothing changes.
   */
  function TryAddUserInfo(db: Db, user: AccountId, info: UserInfo, ok: bool): (r: Step)
    ensures r.ok == ok
    ensures ok ==> r.db == db.(userinfo := db.userinfo[user := info]) && FetchUserInfo(r.db, user) == Some(info)
    ensures !ok ==> r.db == db
  {
    if !ok then Step(db, false)
    else if FetchUserInfo(db, user).None? then Step(AddUserInfo(db, user, info).db, true)
    else Step(UpdateUserInfo(db, user, info).db, true)
  }

  /**
   * handleClientLogin. An empty avatar name is refused before anything
   * changes. Otherwise the session pair is overwritten, the balance is read
   * (creating the account if it has none), and the userinfo row is refreshed
   * by TryAddUserInfo, a database-service call modelled as an upsert whose
   * success is `infoOk`; when it fails the reply turns to failure and carries
   * the balance variable as getBalance left it.
   */
  function Login(s: Server, cfg: Config, req: LoginRequest, fault: bool, infoOk: bool): (r: Handled)
    ensures r.pushes == [] && r.s.webSessions == s.webSessions && r.s.db.txs == s.db.txs
    ensures req.avatarName == "" ==> r == Handled(s, Reply(Some(false), Some(0), None), [])
    ensures req.avatarName != "" ==>
      var u := UserKey(req.clientUUID, req.userServIP);
      r.s.sessions == s.sessions[u := req.sessionId]
      && r.s.secureSessions == s.secureSessions[u := req.secureId]
      && SessionValid(r.s, u, req.sessionId, req.secureId)
    ensures req.avatarName != "" && !fault && infoOk ==>
      var u := UserKey(req.clientUUID, req.userServIP);
      (u !in s.db.balances ==>
         r.s.db.balances == s.db.balances[u := cfg.defaultBalance]
         && r.reply == Reply(Some(true), Some(cfg.defaultBalance), None))
      && (u in s.db.balances && s.db.balances[u] >= 0 ==>
         r.s.db.balances == s.db.balances
         && r.reply == Reply(Some(true), Some(s.db.balances[u]), None))
    ensures req.avatarName != "" && fault && infoOk ==> r.reply.success.None? && r.s.db.balances == s.db.balances
    ensures req.avatarName != "" && !infoOk ==> r.reply.success == Some(false) && r.s.db.userinfo == s.db.userinfo
    ensures req.avatarName != "" && infoOk && !(!fault && UserKey(req.clientUUID, req.userServIP) in s.db.balances
                                                && s.db.balances[UserKey(req.clientUUID, req.userServIP)] == NoAccount) ==>
      r.s.db.userinfo == s.db.userinfo[UserKey(req.clientUUID, req.userServIP) := UserInfo(req.simIP, req.avatarName, ZeroUuid)]
  {
    if req.avatarName == "" then Handled(s, Reply(Some(false), Some(0), None), [])
    else
      var u := UserKey(req.clientUUID, req.userServIP);
      var s1 := s.(sessions := s.sessions[u := req.sessionId], secureSessions := s.secureSessions[u := req.secureId]);
      var (after, reply) := LoginBalance(s.db, u, cfg.defaultBalance, fault);
      match after
      case None => Handled(s1, reply, [])
      case Some(db) =>
        var info := TryAddUserInfo(db, u, UserInfo(req.simIP, req.avatarName, ZeroUuid), infoOk);
        if info.ok then Handled(s1.(db := info.db), reply, [])
        else Handled(s1.(db := info.db), Reply(Some(false), Some(GetBalance(s.db, u, fault)), None), [])
  }

  /** handleClientLogout: both session entries of the key are removed; the reply is always success. */
  function Logout(s: Server, clientUUID: string, userServIP: string): (r: Handled)
    ensures r.reply.success == Some(true) && r.pushes == []
    ensures r.s.db == s.db && r.s.webSessions == s.webSessions
    ensures r.s.sessions == s.sessions - {UserKey(clientUUID, userServIP)}
    ensures r.s.secureSessions == s.secureSessions - {UserKey(clientUUID, userServIP)}
    ensures forall sid, ssid :: !SessionValid(r.s, UserKey(clientUUID, userServIP), sid, ssid)
  {
    var u := UserKey(clientUUID, userServIP);
    Handled(s.(sessions := s.sessions - {u}, secureSessions := s.secureSessions - {u}), Reply(Some(true), None, None), [])
  }

  /**
   * handleGetBalance: behind the session gate, the stored balance, or a new
   * account at the default balance. The exception of an INSERT on an
   * existing key (a stored -1) is caught and answered like a failed session
   * check; a failed query (-2) sets no key at all.
   */
  function GetBalanceHandler(s: Server, cfg: Config, clientUUID: string, sessionId: string, secureId: string,
                             userServIP: string, fault: bool): (r: Handled)
    ensures r.pushes == [] && r.s.sessions == s.sessions && r.s.secureSessions == s.secureSessions
    ensures r.s.webSessions == s.webSessions && r.s.db.txs == s.db.txs && r.s.db.userinfo == s.db.userinfo
    ensures !SessionValid(s, UserKey(clientUUID, userServIP), sessionId, secureId) ==>
      r == Handled(s, Reply(Some(false), None, Some(ReloginDescription)), [])
    ensures r.reply.success == Some(true) ==>
      var u := UserKey(clientUUID, userServIP);
      SessionValid(s, u, sessionId, secureId) && !fault && u in r.s.db.balances
      && r.reply.balance == Some(r.s.db.balances[u])
      && (u in s.db.balances ==> r.s.db == s.db)
    ensures SessionValid(s, UserKey(clientUUID, userServIP), sessionId, secureId) && !fault ==>
      var u := UserKey(clientUUID, userServIP);
      (r.reply.success == Some(true) <==> u !in s.db.balances || s.db.balances[u] >= 0)
  {
    var u := UserKey(clientUUID, userServIP);
    if !SessionValid(s, u, sessionId, secureId) then Handled(s, Reply(Some(false), None, Some(ReloginDescription)), [])
    else
      var b := GetBalance(s.db, u, fault);
      if b == NoAccount then
        match AddUser(s.db, u, cfg.defaultBalance)
        case Inserted(db2) => Handled(s.(db := db2), Reply(Some(true), Some(cfg.defaultBalance), None), [])
        case DuplicateKey => Handled(s, Reply(Some(false), None, Some(ReloginDescription)), [])
      else if b >= 0 then Handled(s, Reply(Some(true), Some(b), None), [])
      else Handled(s, Reply(None, None, None), [])
  }

  // ------------------------------------------------------- transfers

  /** The values a handler draws from UUID.Random and the clock: the transaction key, its secure code, the time in seconds and the text of DateTime.Now. */
  datatype Fresh = Fresh(txId: TxId, secureCode: string, now: int, stamp: string)

  /**
   * What genericCurrencyXMLRPCRequest hands back for OnMoneyTransfered: a
   * table whose `success` key, if present, is `success`. The table is null
   * (None) only when the region's address is refused before any call is
   * made; see CurrencyRequest.
   */
  datatype ConfirmReply = ConfirmReply(success: Option<bool>)

  /** How the call to the region went: no connection (or a timeout), an XML-RPC fault, or an answer table with its `success` key, if any. */
  datatype RegionCall = Unreachable | Fault | Answered(success: Option<bool>)

  /**
   * genericCurrencyXMLRPCRequest with a non-empty request table. Without
   * certificate checking, an address that is neither http:// nor https:// is
   * refused with null; with checking, a non-https address is only logged. A
   * call that throws or comes back as a fault is answered with an error
   * table holding `success=false`; otherwise the region's table is returned.
   */
  function CurrencyRequest(uri: string, checkServerCert: bool, call: RegionCall): (r: Option<ConfirmReply>)
    ensures r.None? <==> !checkServerCert && !("https://" <= uri) && !("http://" <= uri)
    ensures r.Some? && !call.Answered? ==> r.value.success == Some(false)
    ensures r.Some? && call.Answered? ==> r.value.success == call.success
  {
    if !checkServerCert && !("https://" <= uri) && !("http://" <= uri) then None
    else match call
      case Unreachable => Some(ConfirmReply(Some(false)))
      case Fault => Some(ConfirmReply(Some(false)))
      case Answered(success) => Some(ConfirmReply(success))
  }

  /** The outcomes this model does not compute: DoTransfer's success and the region's confirmation. */
  datatype Oracle = Oracle(transferOk: bool, confirm: Option<ConfirmReply>)

  /**
   * DoTransfer, under the assumption stated at the top: the recorded amount
   * leaves the sender's row and reaches the receiver's row, and the record
   * ends Success; it needs the record to exist.
   */
  function DoTransfer(db: Db, id: TxId, transferOk: bool): (r: Step)
    ensures r.ok <==> transferOk && id in db.txs
    ensures !r.ok ==> r.db == db
    ensures r.ok ==> r.db.userinfo == db.userinfo && r.db.balances.Keys == db.balances.Keys
    ensures r.ok ==> r.db.txs == db.txs[id := db.txs[id].(status := SuccessStatus)]
    ensures r.ok ==> forall a :: a in db.balances ==>
      r.db.balances[a] == db.balances[a] - (if a == db.txs[id].sender then db.txs[id].amount else 0)
                                         + (if a == db.txs[id].receiver then db.txs[id].amount else 0)
  {
    if transferOk && id in db.txs then
      var tx := db.txs[id];
      var w := WithdrawMoney(db, id, tx.sender, tx.amount);
      Step(GiveMoney(w.db, id, tx.receiver, tx.amount).db, true)
    else Step(db, false)
  }

  /** DoAddMoney, under the assumption stated at the top: the receiver's row is credited and the record ends Success. */
  function DoAddMoney(db: Db, id: TxId, addOk: bool): (r: Step)
    ensures r.ok <==> addOk && id in db.txs
    ensures !r.ok ==> r.db == db
    ensures r.ok ==> r.db.userinfo == db.userinfo && r.db.balances.Keys == db.balances.Keys
    ensures r.ok ==> r.db.txs == db.txs[id := db.txs[id].(status := SuccessStatus)]
    ensures r.ok ==> forall a :: a in db.balances ==>
      r.db.balances[a] == db.balances[a] + (if a == db.txs[id].receiver then db.txs[id].amount else 0)
  {
    if addOk && id in db.txs then Step(GiveMoney(db, id, db.txs[id].receiver, db.txs[id].amount).db, true)
    else Step(db, false)
  }

  /**
   * RollBackTransaction: debit the receiver, and only if that batch
   * reported success credit the sender, and only if that did too mark the
   * record Failed. True iff both batches succeeded.
   */
  function RollBack(db: Db, id: TxId, tx: TxView): (r: Step)
    ensures r.ok <==> id in db.txs || (tx.receiver in db.balances && tx.sender in db.balances)
    ensures r.db.userinfo == db.userinfo && r.db.balances.Keys == db.balances.Keys
    ensures !(id in db.txs || tx.receiver in db.balances) ==> r.db == db
    ensures r.ok ==> forall a :: a in db.balances ==>
      r.db.balances[a] == db.balances[a] - (if a == tx.receiver then tx.amount else 0)
                                         + (if a == tx.sender then tx.amount else 0)
    ensures r.ok && id in db.txs ==> r.db.txs == db.txs[id := db.txs[id].(status := FailedStatus, description := RollBackText)]
  {
    var w := WithdrawMoney(db, id, tx.receiver, tx.amount);
    if !w.ok then w
    else
      var g := GiveMoney(w.db, id, tx.sender, tx.amount);
      if !g.ok then g
      else Step(UpdateTransactionStatus(g.db, id, FailedStatus, RollBackText).db, true)
  }

  /** The accounts UpdateBalance is called for after a settlement: the sender unless it is also the receiver, and the receiver unless skipped. */
  function Parties(tx: TxView, notifyReceiver: bool): (r: seq<AccountId>)
    ensures tx.sender in r <==> tx.sender != tx.receiver || notifyReceiver
    ensures tx.receiver in r <==> notifyReceiver
    ensures |r| <= 2 && forall a :: a in r ==> a == tx.sender || a == tx.receiver
  {
    (if tx.sender != tx.receiver then [tx.sender] else []) + (if notifyReceiver then [tx.receiver] else [])
  }

  /**
   * NotifyTransfer's result: the database, the reported success, the
   * accounts UpdateBalance is called for, and the rollback: None when none was attempted,
   * otherwise whether it succeeded.
   */
  datatype Settled = Settled(db: Db, ok: bool, pushes: seq<AccountId>, rollback: Option<bool>)

  /**
   * NotifyTransfer: settle with DoTransfer and re-read the record. A
   * settled record calls UpdateBalance for the sender (unless it is the
   * receiver) and for the receiver (unless the type is UploadCharge). An
   * object payment then asks the buyer's region to deliver the object: only
   * a `success=true` answer reports success; `success=false` (which is also
   * what a region that cannot be reached or faults yields) rolls the
   * transfer back and reports failure either way; a refused address (no
   * table), a table without `success`, or a buyer without userinfo report
   * failure and leave the money moved.
   */
  function NotifyTransfer(db: Db, id: TxId, oracle: Oracle): (r: Settled)
    ensures !(oracle.transferOk && id in db.txs) ==> r == Settled(db, false, [], None)
    ensures oracle.transferOk && id in db.txs ==>
      var tx := View(db.txs[id]);
      var settled := DoTransfer(db, id, true).db;
      r.pushes == Parties(tx, tx.txType != UploadCharge) + (if r.rollback == Some(true) then Parties(tx, true) else [])
      && (tx.txType != PayObject ==> r.ok && r.db == settled && r.rollback.None?)
      && (tx.txType == PayObject ==>
            (r.ok <==> tx.sender in db.userinfo && oracle.confirm == Some(ConfirmReply(Some(true))))
            && (r.rollback.Some? <==> tx.sender in db.userinfo && oracle.confirm == Some(ConfirmReply(Some(false))))
            && (r.rollback.None? ==> r.db == settled)
            && (r.rollback.Some? ==> r.db == RollBack(settled, id, View(settled.txs[id])).db))
  {
    var d := DoTransfer(db, id, oracle.transferOk);
    if !d.ok then Settled(db, false, [], None)
    else
      match FetchTransaction(d.db, id)
      case None => Settled(d.db, false, [], None)
      case Some(tx) =>
        if tx.status != SuccessStatus then Settled(d.db, false, [], None)
        else
          var pushed := Parties(tx, tx.txType != UploadCharge);
          if tx.txType != PayObject then Settled(d.db, true, pushed, None)
          else if FetchUserInfo(d.db, tx.sender).None? then Settled(d.db, false, pushed, None)
          else match oracle.confirm
            case None => Settled(d.db, false, pushed, None)
            case Some(ConfirmReply(None)) => Settled(d.db, false, pushed, None)
            case Some(ConfirmReply(Some(true))) => Settled(d.db, true, pushed, None)
            case Some(ConfirmReply(Some(false))) =>
              var rb := RollBack(d.db, id, tx);
              Settled(rb.db, false, pushed + (if rb.ok then Parties(tx, true) else []), Some(rb.ok))
  }

  /** The fields of a transfer request that reach the transaction record. */
  datatype Payment = Payment(
    sender: AccountId,
    receiver: AccountId,
    amount: int,
    objectId: string,
    regionHandle: string,
    txType: int,
    description: string)

  /** The record a handler inserts: Pending, stamped with the draw key, code and time. */
  function NewRecord(p: Payment, draw: Fresh): (tx: Tx)
    ensures tx.status == PendingStatus && tx.sender == p.sender && tx.receiver == p.receiver && tx.amount == p.amount
    ensures tx.secureCode == draw.secureCode && tx.time == draw.now && tx.txType == p.txType
  {
    Tx(p.sender, p.receiver, p.amount, p.objectId, p.regionHandle, p.txType, draw.now, draw.secureCode,
       PendingStatus, p.description + " " + draw.stamp)
  }

  /**
   * The part handleTransaction, handleForceTransaction and
   * handlePayMoneyCharge share once the caller is admitted: check the
   * receiver's userinfo (pay-charge skips it), record the transaction as
   * Pending, check the sender's userinfo, and settle unless the amount is
   * zero, in which case the record stays Pending and the reply is success.
   */
  function Pay(db: Db, p: Payment, checkReceiver: bool, draw: Fresh, oracle: Oracle): (r: Settled)
    ensures r.db.userinfo == db.userinfo
    ensures checkReceiver && p.receiver !in db.userinfo ==> r == Settled(db, false, [], None)
    ensures draw.txId in db.txs ==> r == Settled(db, false, [], None)
    ensures r.ok ==> draw.txId !in db.txs && p.sender in db.userinfo && draw.txId in r.db.txs
    ensures (!checkReceiver || p.receiver in db.userinfo) && draw.txId !in db.txs ==>
      var added := db.(txs := db.txs[draw.txId := NewRecord(p, draw)]);
      (p.sender !in db.userinfo ==> r == Settled(added, false, [], None))
      && (p.sender in db.userinfo && p.amount == 0 ==> r == Settled(added, true, [], None))
      && (p.sender in db.userinfo && p.amount != 0 ==> r == NotifyTransfer(added, draw.txId, oracle))
  {
    if checkReceiver && FetchUserInfo(db, p.receiver).None? then Settled(db, false, [], None)
    else
      var a := AddTransaction(db, draw.txId, NewRecord(p, draw));
      if !a.ok then Settled(db, false, [], None)
      else if FetchUserInfo(a.db, p.sender).None? then Settled(a.db, false, [], None)
      else if p.amount == 0 then Settled(a.db, true, [], None)
      else NotifyTransfer(a.db, draw.txId, oracle)
  }

  datatype TransferRequest = TransferRequest(
    senderID: string,
    receiverID: string,
    sessionId: string,
    secureId: string,
    amount: int,
    objectID: string,
    regionHandle: string,
    txType: int,
    description: string,
    senderServIP: string,
    receiverServIP: string)

  function TransferPayment(req: TransferRequest): Payment {
    Payment(UserKey(req.senderID, req.senderServIP), UserKey(req.receiverID, req.receiverServIP),
            req.amount, req.objectID, req.regionHandle, req.txType, req.description)
  }

  function Answer(s: Server, st: Settled): Handled {
    Handled(s.(db := st.db), Reply(Some(st.ok), None, None), st.pushes)
  }

  /** handleTransaction: the session gate on the sender, then the shared payment path. */
  function Transfer(s: Server, req: TransferRequest, draw: Fresh, oracle: Oracle): (r: Handled)
    ensures r.s.sessions == s.sessions && r.s.secureSessions == s.secureSessions && r.s.webSessions == s.webSessions
    ensures r.reply.success.Some?
    ensures !SessionValid(s, UserKey(req.senderID, req.senderServIP), req.sessionId, req.secureId) ==>
      r == Handled(s, Reply(Some(false), None, Some(SessionFailureMessage)), [])
    ensures SessionValid(s, UserKey(req.senderID, req.senderServIP), req.sessionId, req.secureId) ==>
      r == Answer(s, Pay(s.db, TransferPayment(req), true, draw, oracle))
  {
    if !SessionValid(s, UserKey(req.senderID, req.senderServIP), req.sessionId, req.secureId) then
      Handled(s, Reply(Some(false), None, Some(SessionFailureMessage)), [])
    else Answer(s, Pay(s.db, TransferPayment(req), true, draw, oracle))
  }

  /** handleForceTransaction: no session check, but refused unless force transfer is enabled. */
  function ForceTransfer(s: Server, cfg: Config, req: TransferRequest, draw: Fresh, oracle: Oracle): (r: Handled)
    ensures r.s.sessions == s.sessions && r.s.secureSessions == s.secureSessions && r.s.webSessions == s.webSessions
    ensures !cfg.forceTransfer ==> r == Handled(s, Reply(Some(false), None, Some(ForceRefusedMessage)), [])
    ensures cfg.forceTransfer ==> r == Answer(s, Pay(s.db, TransferPayment(req), true, draw, oracle))
  {
    if !cfg.forceTransfer then Handled(s, Reply(Some(false), None, Some(ForceRefusedMessage)), [])
    else Answer(s, Pay(s.db, TransferPayment(req), true, draw, oracle))
  }

  /** The account every charge is paid to. */
  const ChargeReceiver: AccountId := UserKey(ZeroUuid, "0.0.0.0")

  /**
   * handlePayMoneyCharge: the session gate on the sender, then a payment to
   * the zero UUID at 0.0.0.0, whose userinfo is not checked.
   */
  function PayCharge(s: Server, req: TransferRequest, draw: Fresh, oracle: Oracle): (r: Handled)
    ensures r.s.sessions == s.sessions && r.s.secureSessions == s.secureSessions && r.s.webSessions == s.webSessions
    ensures !SessionValid(s, UserKey(req.senderID, req.senderServIP), req.sessionId, req.secureId) ==>
      r == Handled(s, Reply(Some(false), None, Some(SessionFailureMessage)), [])
    ensures SessionValid(s, UserKey(req.senderID, req.senderServIP), req.sessionId, req.secureId) ==>
      r == Answer(s, Pay(s.db, Payment(UserKey(req.senderID, req.senderServIP), ChargeReceiver, req.amount,
                                       ZeroUuid, req.regionHandle, req.txType, req.description), false, draw, oracle))
  {
    if !SessionValid(s, UserKey(req.senderID, req.senderServIP), req.sessionId, req.secureId) then
      Handled(s, Reply(Some(false), None, Some(SessionFailureMessage)), [])
    else
      var p := Payment(UserKey(req.senderID, req.senderServIP), ChargeReceiver, req.amount,
                       ZeroUuid, req.regionHandle, req.txType, req.description);
      Answer(s, Pay(s.db, p, false, draw, oracle))
  }

  // --------------------------------------------------- system credits

  /** The reply of the two credit handlers: `success`, and whether the banker gate let the call through. */
  datatype CreditReply = CreditReply(success: bool, banker: Option<bool>)

  /**
   * What handleAddBankerMoney and handleSendMoneyBalance share: check the
   * receiver's userinfo, record the transaction as Pending, and, for a
   * non-zero amount, credit the receiver through DoAddMoney and report
   * success iff the re-read record is Success.
   */
  function Credit(db: Db, p: Payment, draw: Fresh, addOk: bool): (r: Settled)
    ensures r.db.userinfo == db.userinfo && r.rollback.None?
    ensures p.receiver !in db.userinfo || draw.txId in db.txs ==> r == Settled(db, false, [], None)
    ensures r.ok <==> p.receiver in db.userinfo && draw.txId !in db.txs && (p.amount == 0 || addOk)
    ensures !r.ok ==> r.db.balances == db.balances
    ensures r.ok && p.amount != 0 ==>
      r.pushes == [p.receiver] && draw.txId in r.db.txs && r.db.txs[draw.txId].status == SuccessStatus
      && r.db.balances.Keys == db.balances.Keys
      && forall a :: a in db.balances ==> r.db.balances[a] == db.balances[a] + (if a == p.receiver then p.amount else 0)
  {
    if FetchUserInfo(db, p.receiver).None? then Settled(db, false, [], None)
    else
      var a := AddTransaction(db, draw.txId, NewRecord(p, draw));
      if !a.ok then Settled(db, false, [], None)
      else if p.amount == 0 then Settled(a.db, true, [], None)
      else
        var d := DoAddMoney(a.db, draw.txId, addOk);
        if !d.ok then Settled(a.db, false, [], None)
        else match FetchTransaction(d.db, draw.txId)
          case Some(tx) => if tx.status == SuccessStatus then Settled(d.db, true, [tx.receiver], None) else Settled(d.db, false, [], None)
          case None => Settled(d.db, false, [], None)
  }

  datatype BankerRequest = BankerRequest(
    bankerID: string,
    amount: int,
    regionHandle: string,
    txType: int,
    description: string,
    bankerServIP: string)

  /** The banker gate: the configured banker, lower-cased, is the zero UUID or the presented id. */
  predicate BankerAllowed(cfg: Config, bankerID: string) {
    Lower(cfg.bankerAvatar) == ZeroUuid || Lower(cfg.bankerAvatar) == bankerID
  }

  /** handleAddBankerMoney: behind the banker gate, a credit from the zero UUID to the banker's account. */
  function AddBankerMoney(s: Server, cfg: Config, req: BankerRequest, draw: Fresh, addOk: bool): (r: (Server, CreditReply))
    ensures r.0.sessions == s.sessions && r.0.secureSessions == s.secureSessions && r.0.webSessions == s.webSessions
    ensures r.1.banker == Some(BankerAllowed(cfg, req.bankerID))
    ensures !BankerAllowed(cfg, req.bankerID) ==> r.0 == s && !r.1.success
    ensures r.1.success ==> BankerAllowed(cfg, req.bankerID) && UserKey(req.bankerID, req.bankerServIP) in s.db.userinfo
  {
    if !BankerAllowed(cfg, req.bankerID) then (s, CreditReply(false, Some(false)))
    else
      var p := Payment(UserKey(ZeroUuid, req.bankerServIP), UserKey(req.bankerID, req.bankerServIP), req.amount,
                       ZeroUuid, req.regionHandle, req.txType, req.description);
      var c := Credit(s.db, p, draw, addOk);
      (s.(db := c.db), CreditReply(c.ok, Some(true)))
  }

  datatype SendMoneyRequest = SendMoneyRequest(
    avatarID: string,
    amount: int,
    txType: int,
    description: string,
    avatarServIP: string,
    secretCode: string)

  /**
   * The access code a script must present: the lower-case hex MD5 of the
   * lower-case hex MD5 of "key_clientIP", joined by "_" to the configured
   * script address. `md5hex` stands for that digest.
   */
  function ScriptCode(cfg: Config, clientIP: string, md5hex: string -> string): string {
    md5hex(md5hex(cfg.scriptAccessKey + "_" + clientIP) + "_" + cfg.scriptIPaddress)
  }

  /** The script gate: enabled, a key configured, and the presented code, lower-cased, equal to the expected one. */
  predicate ScriptAllowed(cfg: Config, clientIP: string, secretCode: string, md5hex: string -> string) {
    cfg.scriptSendMoney && cfg.scriptAccessKey != "" && Lower(secretCode) == ScriptCode(cfg, clientIP, md5hex)
  }

  /** handleSendMoneyBalance: behind the script gate, a credit from the zero UUID to the avatar's account. */
  function SendMoneyBalance(s: Server, cfg: Config, req: SendMoneyRequest, clientIP: string,
                            md5hex: string -> string, draw: Fresh, addOk: bool): (r: (Server, CreditReply))
    ensures r.0.sessions == s.sessions && r.0.secureSessions == s.secureSessions && r.0.webSessions == s.webSessions
    ensures r.1.banker.None?
    ensures !ScriptAllowed(cfg, clientIP, req.secretCode, md5hex) ==> r.0 == s && !r.1.success
    ensures r.1.success ==> cfg.scriptSendMoney && cfg.scriptAccessKey != "" && UserKey(req.avatarID, req.avatarServIP) in s.db.userinfo
  {
    if !ScriptAllowed(cfg, clientIP, req.secretCode, md5hex) then (s, CreditReply(false, None))
    else
      var p := Payment(UserKey(ZeroUuid, req.avatarServIP), UserKey(req.avatarID, req.avatarServIP), req.amount,
                       ZeroUuid, "0", req.txType, req.description);
      var c := Credit(s.db, p, draw, addOk);
      (s.(db := c.db), CreditReply(c.ok, None))
  }

  // ------------------------------------------------ cancel and lookup

  /**
   * handleCancelTransfer. Empty arguments are refused. The sender's
   * userinfo is read outside the try block and used inside it, so a
   * missing record or a sender without userinfo ends in the catch (failure).
   * A matching secure code marks the record Failed whatever its status; a
   * code that does not match sets no `success` key.
   */
  function Cancel(s: Server, secureCode: string, id: TxId, stamp: string): (r: Handled)
    ensures r.pushes == [] && r.s.sessions == s.sessions && r.s.secureSessions == s.secureSessions
    ensures r.s.webSessions == s.webSessions
    ensures r.s.db.balances == s.db.balances && r.s.db.userinfo == s.db.userinfo && r.s.db.txs.Keys == s.db.txs.Keys
    ensures secureCode == "" || id == "" ==> r == Handled(s, Reply(Some(false), None, None), [])
    ensures r.reply.success == Some(true) <==>
      secureCode != "" && id != "" && id in s.db.txs && s.db.txs[id].sender in s.db.userinfo
      && s.db.txs[id].secureCode == secureCode
    ensures r.reply.success == Some(true) ==>
      r.s.db.txs == s.db.txs[id := s.db.txs[id].(status := FailedStatus, description := CancelText + stamp)]
    ensures r.reply.success != Some(true) ==> r.s == s
    ensures secureCode != "" && id != "" && id !in s.db.txs ==> r.reply.success == Some(false)
  {
    if secureCode == "" || id == "" then Handled(s, Reply(Some(false), None, None), [])
    else match FetchTransaction(s.db, id)
      case None => Handled(s, Reply(Some(false), None, None), [])
      case Some(tx) =>
        if FetchUserInfo(s.db, tx.sender).None? then Handled(s, Reply(Some(false), None, None), [])
        else if ValidateTransfer(s.db, secureCode, id) then
          Handled(s.(db := UpdateTransactionStatus(s.db, id, FailedStatus, CancelText + stamp).db), Reply(Some(true), None, None), [])
        else Handled(s, Reply(None, None, None), [])
  }

  /** The record fields handleGetTransaction copies into its reply, besides the description. */
  datatype TxFields = TxFields(amount: int, time: int, txType: int, sender: AccountId, receiver: AccountId)

  /**
   * handleGetTransaction's reply: `success`, the record's fields (None: a
   * record left at its defaults) and the `description` key, which holds the
   * record's description on success and the error text otherwise.
   */
  datatype TxReply = TxReply(success: bool, fields: Option<TxFields>, description: Option<string>)

  /**
   * handleGetTransaction: behind the session gate, an empty id is refused;
   * otherwise the fetched record's amount, time, type, parties and
   * description are returned. The store hands back a default-filled record
   * for an unknown id, so that too is a success.
   */
  function GetTransaction(s: Server, clientUUID: string, sessionId: string, secureId: string, userServIP: string,
                          id: TxId): (r: TxReply)
    ensures !SessionValid(s, UserKey(clientUUID, userServIP), sessionId, secureId) ==>
      r == TxReply(false, None, Some(ReloginDescription))
    ensures r.success <==> SessionValid(s, UserKey(clientUUID, userServIP), sessionId, secureId) && id != ""
    ensures r.success ==> (r.fields.Some? <==> id in s.db.txs)
    ensures r.success && id in s.db.txs ==>
      var tx := s.db.txs[id];
      r.fields == Some(TxFields(tx.amount, tx.time, tx.txType, tx.sender, tx.receiver))
      && r.description == Some(tx.description)
  {
    if !SessionValid(s, UserKey(clientUUID, userServIP), sessionId, secureId) then TxReply(false, None, Some(ReloginDescription))
    else if id == "" then TxReply(false, None, Some(EmptyIdDescription))
    else match FetchTransaction(s.db, id)
      case Some(v) => TxReply(true, Some(TxFields(v.amount, v.time, v.txType, v.sender, v.receiver)), Some(v.description))
      case None => TxReply(true, None, None)
  }

  // ------------------------------------------------------ web sessions

  /** The web session gate of the web handlers: the user has a web session and it holds the presented id. */
  predicate WebSessionValid(s: Server, userID: string, webSessionId: string) {
    userID in s.webSessions && s.webSessions[userID] == webSessionId
  }

  /** handleWebLogin: with both ids non-empty, records the web session; otherwise refuses. */
  function WebLogin(s: Server, userID: string, webSessionId: string): (r: (Server, bool))
    ensures r.1 <==> userID != "" && webSessionId != ""
    ensures r.1 ==> r.0 == s.(webSessions := s.webSessions[userID := webSessionId])
    ensures !r.1 ==> r.0 == s
  {
    if userID == "" || webSessionId == "" then (s, false)
    else (s.(webSessions := s.webSessions[userID := webSessionId]), true)
  }

  /** handleWebLogout: with both ids non-empty, drops the user's web session whatever id it holds. */
  function WebLogout(s: Server, userID: string, webSessionId: string): (r: (Server, bool))
    ensures r.1 <==> userID != "" && webSessionId != ""
    ensures r.1 ==> r.0 == s.(webSessions := s.webSessions - {userID}) && userID !in r.0.webSessions
    ensures !r.1 ==> r.0 == s
  {
    if userID == "" || webSessionId == "" then (s, false)
    else (s.(webSessions := s.webSessions - {userID}), true)
  }
}

=== FILE: serverprops.dfy ===
/*
 * Properties of the money server that span several handlers or several
 * store statements: what settlement does to the money in the balance table,
 * that a rollback undoes it, and the behaviours the handlers show when their
 * steps are put together (no balance check, zero transfers left Pending,
 * cancel overriding a settled record, the -1 balance that login cannot read).
 */
module ServerProps {
  import opened Base
  import opened Store
  import opened MoneyServer

  /** Raising one row by `delta` raises the table total by `delta`; a missing row changes nothing. */
  lemma TotalAdjust(m: map<AccountId, int>, user: AccountId, delta: int)
    ensures Total(Adjust(m, user, delta)) == Total(m) + (if user in m then delta else 0)
  {
    if user in m {
      AdjustIsUpdate(m, user, delta);
      TotalShift(m, user, delta);
    }
  }

  lemma AdjustIsUpdate(m: map<AccountId, int>, user: AccountId, delta: int)
    requires user in m
    ensures Adjust(m, user, delta) == m[user := m[user] + delta]
  {
  }

  /**
   * Settlement moves money between rows without creating or destroying any,
   * provided both parties have a balance row: the total changes by the amount
   * credited to an existing receiver row minus the amount debited from an
   * existing sender row.
   */
  lemma TransferTotal(db: Db, id: TxId)
    requires id in db.txs
    ensures var tx := db.txs[id];
      Total(DoTransfer(db, id, true).db.balances)
        == Total(db.balances) - (if tx.sender in db.balances then tx.amount else 0)
                              + (if tx.receiver in db.balances then tx.amount else 0)
  {
    var tx := db.txs[id];
    var w := WithdrawMoney(db, id, tx.sender, tx.amount).db;
    TotalAdjust(db.balances, tx.sender, -tx.amount);
    TotalAdjust(w.balances, tx.receiver, tx.amount);
  }

  /** Conservation: between two accounts that both have rows, settlement keeps the table total. */
  lemma TransferConserves(db: Db, id: TxId)
    requires id in db.txs && db.txs[id].sender in db.balances && db.txs[id].receiver in db.balances
    ensures Total(DoTransfer(db, id, true).db.balances) == Total(db.balances)
  {
    TransferTotal(db, id);
  }

  /**
   * A rollback right after settlement puts every balance back, reports
   * success, and leaves the record Failed.
   */
  lemma RollBackUndoesTransfer(db: Db, id: TxId)
    requires id in db.txs
    ensures var settled := DoTransfer(db, id, true).db;
      var rb := RollBack(settled, id, View(settled.txs[id]));
      rb.ok && rb.db.balances == db.balances && rb.db.txs[id].status == FailedStatus
  {
    var tx := db.txs[id];
    var settled := DoTransfer(db, id, true).db;
    assert settled.txs[id].sender == tx.sender && settled.txs[id].receiver == tx.receiver;
    assert settled.txs[id].amount == tx.amount;
    var rb := RollBack(settled, id, View(settled.txs[id]));
    forall a | a in db.balances ensures rb.db.balances[a] == db.balances[a] {
      assert rb.db.balances[a] == settled.balances[a] - (if a == tx.receiver then tx.amount else 0)
                                                      + (if a == tx.sender then tx.amount else 0);
    }
  }

  /**
   * An object payment whose buyer's region answers `success=false` is rolled
   * back: the handler answers failure, the balances are as before the call,
   * and the recorded transaction ends Failed.
   */
  lemma RefusedDeliveryRestoresBalances(s: Server, req: TransferRequest, draw: Fresh)
    requires SessionValid(s, UserKey(req.senderID, req.senderServIP), req.sessionId, req.secureId)
    requires UserKey(req.receiverID, req.receiverServIP) in s.db.userinfo
    requires UserKey(req.senderID, req.senderServIP) in s.db.userinfo
    requires draw.txId !in s.db.txs && req.amount != 0 && req.txType == PayObject
    ensures var r := Transfer(s, req, draw, Oracle(true, Some(ConfirmReply(Some(false)))));
      r.reply.success == Some(false) && r.s.db.balances == s.db.balances
      && r.s.db.txs[draw.txId].status == FailedStatus
  {
    var added := s.db.(txs := s.db.txs[draw.txId := NewRecord(TransferPayment(req), draw)]);
    RollBackUndoesTransfer(added, draw.txId);
  }

  /**
   * An object payment with no usable confirmation (no table, which happens
   * only when the region's address is refused, or a table without
   * `success`) answers failure but is not rolled back: the money stays
   * moved and the record stays Success.
   */
  lemma UnconfirmedPaymentStaysSettled(s: Server, req: TransferRequest, draw: Fresh, confirm: Option<ConfirmReply>)
    requires SessionValid(s, UserKey(req.senderID, req.senderServIP), req.sessionId, req.secureId)
    requires UserKey(req.receiverID, req.receiverServIP) in s.db.userinfo
    requires UserKey(req.senderID, req.senderServIP) in s.db.userinfo
    requires draw.txId !in s.db.txs && req.amount != 0 && req.txType == PayObject
    requires confirm.None? || confirm.value.success.None?
    ensures var r := Transfer(s, req, draw, Oracle(true, confirm));
      var added := s.db.(txs := s.db.txs[draw.txId := NewRecord(TransferPayment(req), draw)]);
      r.reply.success == Some(false) && r.s.db == DoTransfer(added, draw.txId, true).db
      && r.s.db.txs[draw.txId].status == SuccessStatus
  {
  }

  /**
   * The server checks no balance: an admitted transfer of more than the
   * sender holds, to another account, settles and reports success, and
   * leaves the sender's balance negative.
   */
  lemma NoBalanceCheck(s: Server, req: TransferRequest, draw: Fresh)
    requires SessionValid(s, UserKey(req.senderID, req.senderServIP), req.sessionId, req.secureId)
    requires UserKey(req.receiverID, req.receiverServIP) in s.db.userinfo
    requires UserKey(req.senderID, req.senderServIP) in s.db.userinfo
    requires UserKey(req.senderID, req.senderServIP) in s.db.balances
    requires UserKey(req.senderID, req.senderServIP) != UserKey(req.receiverID, req.receiverServIP)
    requires draw.txId !in s.db.txs && req.txType != PayObject
    requires req.amount > s.db.balances[UserKey(req.senderID, req.senderServIP)] && req.amount != 0
    ensures var r := Transfer(s, req, draw, Oracle(true, None));
      r.reply.success == Some(true) && r.s.db.balances[UserKey(req.senderID, req.senderServIP)] < 0
  {
  }

  /**
   * A zero-amount transfer answers success without settling: the record
   * stays Pending and no balance moves, until an expiry sweep at or after
   * its time marks it Failed ("expired").
   */
  lemma ZeroTransferStaysPending(s: Server, req: TransferRequest, draw: Fresh, oracle: Oracle, deadTime: int)
    requires SessionValid(s, UserKey(req.senderID, req.senderServIP), req.sessionId, req.secureId)
    requires UserKey(req.receiverID, req.receiverServIP) in s.db.userinfo
    requires UserKey(req.senderID, req.senderServIP) in s.db.userinfo
    requires draw.txId !in s.db.txs && req.amount == 0 && draw.now <= deadTime
    ensures var r := Transfer(s, req, draw, oracle);
      r.reply.success == Some(true) && r.s.db.balances == s.db.balances
      && r.s.db.txs[draw.txId].status == PendingStatus
      && SetTransExpired(r.s.db, deadTime).db.txs[draw.txId].status == FailedStatus
  {
  }

  /**
   * Cancel ignores the status: a settled record whose secure code is
   * presented becomes Failed, and the money it moved stays where it is.
   */
  lemma CancelOverridesSuccess(s: Server, id: TxId, stamp: string)
    requires id != "" && id in s.db.txs && s.db.txs[id].status == SuccessStatus
    requires s.db.txs[id].secureCode != "" && s.db.txs[id].sender in s.db.userinfo
    ensures var r := Cancel(s, s.db.txs[id].secureCode, id, stamp);
      r.reply.success == Some(true) && r.s.db.txs[id].status == FailedStatus && r.s.db.balances == s.db.balances
  {
  }

  /**
   * A stored balance of -1 cannot be read back: login takes it for a
   * missing account, the INSERT collides, and the avatar gets failure with
   * balance 0 and no userinfo refresh, however often it logs in; a
   * balance query in that session is answered as a failed session check.
   */
  lemma SentinelBalanceLocksAccount(s: Server, cfg: Config, req: LoginRequest, infoOk: bool)
    requires req.avatarName != ""
    requires UserKey(req.clientUUID, req.userServIP) in s.db.balances
    requires s.db.balances[UserKey(req.clientUUID, req.userServIP)] == NoAccount
    ensures var r := Login(s, cfg, req, false, infoOk);
      r.reply == Reply(Some(false), Some(0), None) && r.s.db == s.db
      && GetBalanceHandler(r.s, cfg, req.clientUUID, req.sessionId, req.secureId, req.userServIP, false).reply
           == Reply(Some(false), None, Some(ReloginDescription))
  {
  }

  /** After a login that went through, a balance query in the new session reports the balance login reported. */
  lemma LoginThenGetBalance(s: Server, cfg: Config, req: LoginRequest)
    requires req.avatarName != "" && cfg.defaultBalance >= 0
    requires UserKey(req.clientUUID, req.userServIP) !in s.db.balances
          || s.db.balances[UserKey(req.clientUUID, req.userServIP)] >= 0
    ensures var r := Login(s, cfg, req, false, true);
      var q := GetBalanceHandler(r.s, cfg, req.clientUUID, req.sessionId, req.secureId, req.userServIP, false);
      r.reply.success == Some(true) && q.reply.success == Some(true) && q.reply.balance == r.reply.balance && q.s == r.s
  {
  }

  /** After logout every authenticated handler refuses the key, whatever ids are presented. */
  lemma LogoutClosesSession(s: Server, req: TransferRequest, draw: Fresh, oracle: Oracle)
    ensures var out := Logout(s, req.senderID, req.senderServIP).s;
      var r := Transfer(out, req, draw, oracle);
      r.reply.success == Some(false) && r.s == out
  {
  }

  /**
   * A region that cannot be reached, or answers with a fault, yields the
   * error table with `success=false`, so an object payment it was asked to
   * deliver is rolled back just as an explicit refusal is.
   */
  lemma UnreachableRegionRollsBack(s: Server, req: TransferRequest, draw: Fresh, uri: string, checkServerCert: bool,
                                   call: RegionCall)
    requires SessionValid(s, UserKey(req.senderID, req.senderServIP), req.sessionId, req.secureId)
    requires UserKey(req.receiverID, req.receiverServIP) in s.db.userinfo
    requires UserKey(req.senderID, req.senderServIP) in s.db.userinfo
    requires draw.txId !in s.db.txs && req.amount != 0 && req.txType == PayObject
    requires "http://" <= uri || "https://" <= uri
    requires call == Unreachable || call == Fault
    ensures var r := Transfer(s, req, draw, Oracle(true, CurrencyRequest(uri, checkServerCert, call)));
      r.reply.success == Some(false) && r.s.db.balances == s.db.balances
      && r.s.db.txs[draw.txId].status == FailedStatus
  {
    assert CurrencyRequest(uri, checkServerCert, call) == Some(ConfirmReply(Some(false)));
    RefusedDeliveryRestoresBalances(s, req, draw);
  }

  /** Two records agree on everything but the status and the description, the only columns settlement rewrites. */
  predicate SameFacts(a: Tx, b: Tx) {
    b == a.(status := b.status, description := b.description)
  }

  /** Settlement, confirmation and rollback keep the record and rewrite only its status and description. */
  lemma NotifyKeepsFacts(db: Db, id: TxId, oracle: Oracle)
    requires id in db.txs
    ensures var r := NotifyTransfer(db, id, oracle);
      id in r.db.txs && SameFacts(db.txs[id], r.db.txs[id])
  {
    if oracle.transferOk {
      var settled := DoTransfer(db, id, true).db;
      assert settled.txs[id] == db.txs[id].(status := SuccessStatus);
      var rb := RollBack(settled, id, View(settled.txs[id]));
      assert rb.ok;
    }
  }

  /**
   * The record a transfer stores is the one the other handlers see: a lookup
   * in a valid session returns the requested amount and parties, the drawn
   * time and the type, whatever settlement did; and the drawn secure code,
   * and no other, validates it.
   */
  lemma TransferRecordReadsBack(s: Server, req: TransferRequest, draw: Fresh, oracle: Oracle, code: string)
    requires SessionValid(s, UserKey(req.senderID, req.senderServIP), req.sessionId, req.secureId)
    requires UserKey(req.receiverID, req.receiverServIP) in s.db.userinfo
    requires draw.txId !in s.db.txs && draw.txId != ""
    ensures var r := Transfer(s, req, draw, oracle);
      var q := GetTransaction(r.s, req.senderID, req.sessionId, req.secureId, req.senderServIP, draw.txId);
      q.success
      && q.fields == Some(TxFields(req.amount, draw.now, req.txType, UserKey(req.senderID, req.senderServIP),
                                   UserKey(req.receiverID, req.receiverServIP)))
      && (ValidateTransfer(r.s.db, code, draw.txId) <==> code == draw.secureCode)
  {
    var p := TransferPayment(req);
    var added := s.db.(txs := s.db.txs[draw.txId := NewRecord(p, draw)]);
    if p.sender in s.db.userinfo && p.amount != 0 {
      NotifyKeepsFacts(added, draw.txId, oracle);
    }
  }

  /** A transfer to an account that is not logged in sends it no balance push, whatever the transfer did. */
  lemma LoggedOutReceiverGetsNoPush(s: Server, req: TransferRequest, draw: Fresh, oracle: Oracle)
    requires UserKey(req.receiverID, req.receiverServIP) !in s.sessions
    ensures var r := Transfer(s, req, draw, oracle);
      UserKey(req.receiverID, req.receiverServIP) !in Delivered(r.s, r.pushes)
  {
  }

  /**
   * A settled, non-object, non-upload transfer pushes the new balance to
   * both parties when both are logged in with userinfo.
   */
  lemma SettledTransferPushesParties(s: Server, req: TransferRequest, draw: Fresh, oracle: Oracle)
    requires SessionValid(s, UserKey(req.senderID, req.senderServIP), req.sessionId, req.secureId)
    requires var u := UserKey(req.receiverID, req.receiverServIP);
      u in s.sessions && u in s.secureSessions && u in s.db.userinfo
    requires UserKey(req.senderID, req.senderServIP) in s.db.userinfo
    requires draw.txId !in s.db.txs && req.amount != 0 && oracle.transferOk
    requires req.txType != PayObject && req.txType != UploadCharge
    ensures var r := Transfer(s, req, draw, oracle);
      r.reply.success == Some(true)
      && UserKey(req.senderID, req.senderServIP) in Delivered(r.s, r.pushes)
      && UserKey(req.receiverID, req.receiverServIP) in Delivered(r.s, r.pushes)
  {
    var p := TransferPayment(req);
    var added := s.db.(txs := s.db.txs[draw.txId := NewRecord(p, draw)]);
    var tx := View(added.txs[draw.txId]);
    assert tx.sender == p.sender && tx.receiver == p.receiver && tx.txType == req.txType;
    var n := NotifyTransfer(added, draw.txId, oracle);
    assert n.pushes == Parties(tx, true);
  }

  /** A credit that went through raises the table total by exactly its amount; one that did not moves nothing. */
  lemma CreditTotal(db: Db, p: Payment, draw: Fresh, addOk: bool)
    requires p.receiver in db.balances
    ensures var r := Credit(db, p, draw, addOk);
      Total(r.db.balances) == Total(db.balances) + (if r.ok then p.amount else 0)
  {
    var r := Credit(db, p, draw, addOk);
    if r.ok && p.amount != 0 {
      assert r.db.balances == db.balances[p.receiver := db.balances[p.receiver] + p.amount];
      TotalShift(db.balances, p.receiver, p.amount);
    }
  }

  /**
   * Banker money is created, not moved: a banker credit that succeeds raises
   * the money in the balance table by exactly the amount, and the banker's
   * row is the only one that changes.
   */
  lemma BankerMoneyRaisesTotal(s: Server, cfg: Config, req: BankerRequest, draw: Fresh, addOk: bool)
    requires UserKey(req.bankerID, req.bankerServIP) in s.db.balances
    ensures var r := AddBankerMoney(s, cfg, req, draw, addOk);
      Total(r.0.db.balances) == Total(s.db.balances) + (if r.1.success then req.amount else 0)
      && r.0.db.balances.Keys == s.db.balances.Keys
      && forall a :: a in s.db.balances && a != UserKey(req.bankerID, req.bankerServIP) ==>
           r.0.db.balances[a] == s.db.balances[a]
  {
    if BankerAllowed(cfg, req.bankerID) {
      var p := Payment(UserKey(ZeroUuid, req.bankerServIP), UserKey(req.bankerID, req.bankerServIP), req.amount,
                       ZeroUuid, req.regionHandle, req.txType, req.description);
      CreditTotal(s.db, p, draw, addOk);
    }
  }

  /** The same holds for a script credit: success raises the total by the amount, and only the avatar's row changes. */
  lemma ScriptMoneyRaisesTotal(s: Server, cfg: Config, req: SendMoneyRequest, clientIP: string,
                               md5hex: string -> string, draw: Fresh, addOk: bool)
    requires UserKey(req.avatarID, req.avatarServIP) in s.db.balances
    ensures var r := SendMoneyBalance(s, cfg, req, clientIP, md5hex, draw, addOk);
      Total(r.0.db.balances) == Total(s.db.balances) + (if r.1.success then req.amount else 0)
      && r.0.db.balances.Keys == s.db.balances.Keys
      && forall a :: a in s.db.balances && a != UserKey(req.avatarID, req.avatarServIP) ==>
           r.0.db.balances[a] == s.db.balances[a]
  {
    if ScriptAllowed(cfg, clientIP, req.secretCode, md5hex) {
      var p := Payment(UserKey(ZeroUuid, req.avatarServIP), UserKey(req.avatarID, req.avatarServIP), req.amount,
                       ZeroUuid, "0", req.txType, req.description);
      CreditTotal(s.db, p, draw, addOk);
    }
  }

  /**
   * The digest gate decides alone and ignores case: a presented code whose
   * lower-case form is not the expected digest leaves the server as it was
   * and answers failure, and a code is treated exactly like its lower-case
   * form.
   */
  lemma ScriptGateRefusesWrongCode(s: Server, cfg: Config, req: SendMoneyRequest, clientIP: string,
                                   md5hex: string -> string, draw: Fresh, addOk: bool)
    ensures Lower(req.secretCode) != ScriptCode(cfg, clientIP, md5hex) ==>
      SendMoneyBalance(s, cfg, req, clientIP, md5hex, draw, addOk) == (s, CreditReply(false, None))
    ensures SendMoneyBalance(s, cfg, req, clientIP, md5hex, draw, addOk)
         == SendMoneyBalance(s, cfg, req.(secretCode := Lower(req.secretCode)), clientIP, md5hex, draw, addOk)
  {
    LowerIsLower(req.secretCode);
  }

  /** A web login opens the web gate for that user and id, and leaves every other user's gate as it was. */
  lemma WebLoginOpensGate(s: Server, userID: string, webSessionId: string, other: string, otherId: string)
    requires userID != "" && webSessionId != ""
    ensures var r := WebLogin(s, userID, webSessionId).0;
      WebSessionValid(r, userID, webSessionId)
      && (forall w :: WebSessionValid(r, userID, w) <==> w == webSessionId)
      && (other != userID ==> (WebSessionValid(r, other, otherId) <==> WebSessionValid(s, other, otherId)))
  {
  }

  /**
   * A web logout closes the gate for that user whatever id either call
   * carried, so logging in and out again leaves no web session behind.
   */
  lemma WebLogoutClosesGate(s: Server, userID: string, loginId: string, logoutId: string)
    requires userID != "" && loginId != "" && logoutId != ""
    ensures var r := WebLogout(WebLogin(s, userID, loginId).0, userID, logoutId).0;
      (forall w :: !WebSessionValid(r, userID, w))
      && r == s.(webSessions := s.webSessions - {userID})
  {
  }
}

=== FILE: store.dfy ===
/*
 * The MySQL store behind the money server: three tables (balances,
 * transactions, userinfo) and the statements MySQLMoneyManager issues
 * against them. Each statement is a map update; the boolean each one
 * returns is the "rows affected > 0" test, where the connector counts rows
 * that were matched, changed or not.
 */
module Store {
  import opened Base

  /** An account key as the server composes it: "<uuid>@<user-server address>". */
  type AccountId = string
  /** A transaction key: the transaction UUID in its textual form. */
  type TxId = string

  const ZeroUuid: string := "00000000-0000-0000-0000-000000000000"

  /**
   * Transaction types. PayObject, ObjectPays, LandSale and ObjectSale appear
   * as literals in the region modules; UploadCharge and Gift are the viewer's
   * numbers for the names the server compares against.
   */
  const UploadCharge: int := 1101
  const ObjectSale: int := 5000
  const Gift: int := 5001
  const LandSale: int := 5002
  const PayObject: int := 5008
  const ObjectPays: int := 5009

  /** The three transaction states the server writes. */
  datatype TxStatus = SuccessStatus | PendingStatus | FailedStatus

  /** One row of the transactions table (the commonName column is not modelled). */
  datatype Tx = Tx(
    sender: AccountId,
    receiver: AccountId,
    amount: int,
    objectId: string,
    regionHandle: string,
    txType: int,
    time: int,
    secureCode: string,
    status: TxStatus,
    description: string)

  /** One row of the userinfo table. */
  datatype UserInfo = UserInfo(simIP: string, avatar: string, pswHash: string)

  /** The whole database. */
  datatype Db = Db(
    balances: map<AccountId, int>,
    txs: map<TxId, Tx>,
    userinfo: map<AccountId, UserInfo>)

  /** A statement's effect: the new database and whether it reported success. */
  datatype Step = Step(db: Db, ok: bool)

  /** The sentinels getBalance returns instead of a balance. */
  const NoAccount: int := -1
  const QueryFailed: int := -2

  /** The description SetTransExpired writes. */
  const ExpiredText: string := "expired"

  /**
   * getBalance: the stored balance, NoAccount when there is no row and
   * QueryFailed when the query throws (`fault` stands for the database error).
   */
  function GetBalance(db: Db, user: AccountId, fault: bool): (r: int)
    ensures fault ==> r == QueryFailed
    ensures !fault && user in db.balances ==> r == db.balances[user]
    ensures !fault && user !in db.balances ==> r == NoAccount
  {
    if fault then QueryFailed
    else if user in db.balances then db.balances[user]
    else NoAccount
  }

  /**
   * The sentinel collides with a stored value: a row holding -1 reads exactly
   * like a missing row, and nothing in the store keeps balances away from -1.
   */
  lemma StoredSentinelLooksMissing(db: Db, user: AccountId)
    requires user in db.balances && db.balances[user] == NoAccount
    ensures GetBalance(db, user, false) == GetBalance(db.(balances := db.balances - {user}), user, false)
  {
  }

  /** `balance = balance + delta` on the one row keyed by `user`, if there is one. */
  function Adjust(m: map<AccountId, int>, user: AccountId, delta: int): (r: map<AccountId, int>)
    ensures r.Keys == m.Keys
    ensures user in m ==> r[user] == m[user] + delta
    ensures forall a :: a in m && a != user ==> r[a] == m[a]
  {
    if user in m then m[user := m[user] + delta] else m
  }

  /** `SET status = ?status` on the one transaction row keyed by `id`, if there is one. */
  function SetStatus(txs: map<TxId, Tx>, id: TxId, status: TxStatus): (r: map<TxId, Tx>)
    ensures r.Keys == txs.Keys
    ensures id in txs ==> r[id] == txs[id].(status := status)
    ensures forall t :: t in txs && t != id ==> r[t] == txs[t]
  {
    if id in txs then txs[id := txs[id].(status := status)] else txs
  }

  /** Rows matched by the two-statement batches of withdrawMoney and giveMoney. */
  function BatchRows(db: Db, id: TxId, user: AccountId): (n: nat)
    ensures n > 0 <==> user in db.balances || id in db.txs
  {
    (if user in db.balances then 1 else 0) + (if id in db.txs then 1 else 0)
  }

  /** updateBalance: sets an absolute balance on an existing row. */
  function UpdateBalance(db: Db, user: AccountId, amount: int): (r: Step)
    ensures r.ok <==> user in db.balances
    ensures r.db.balances.Keys == db.balances.Keys
    ensures r.ok ==> r.db.balances[user] == amount
    ensures forall a :: a in db.balances && a != user ==> r.db.balances[a] == db.balances[a]
    ensures r.db.txs == db.txs && r.db.userinfo == db.userinfo
  {
    if user in db.balances then Step(db.(balances := db.balances[user := amount]), true)
    else Step(db, false)
  }

  /** What an INSERT into the balances table does: a new row, or a primary-key violation. */
  datatype Insert = Inserted(db: Db) | DuplicateKey

  /**
   * addUser: inserts a balance row. The INSERT is not wrapped in a
   * try block, so a duplicate key surfaces as an exception to the caller.
   */
  function AddUser(db: Db, user: AccountId, balance: int): (r: Insert)
    ensures r.DuplicateKey? <==> user in db.balances
    ensures r.Inserted? ==> r.db.balances == db.balances[user := balance]
    ensures r.Inserted? ==> r.db.txs == db.txs && r.db.userinfo == db.userinfo
  {
    if user in db.balances then DuplicateKey
    else Inserted(db.(balances := db.balances[user := balance]))
  }

  /**
   * withdrawMoney: debits `amount` from one account, with no floor at zero,
   * and puts the transaction back to Pending, in one batch.
   */
  function WithdrawMoney(db: Db, id: TxId, user: AccountId, amount: int): (r: Step)
    ensures r.ok <==> user in db.balances || id in db.txs
    ensures r.db.balances.Keys == db.balances.Keys
    ensures user in db.balances ==> r.db.balances[user] == db.balances[user] - amount
    ensures forall a :: a in db.balances && a != user ==> r.db.balances[a] == db.balances[a]
    ensures r.db.txs.Keys == db.txs.Keys
    ensures id in db.txs ==> r.db.txs[id] == db.txs[id].(status := PendingStatus)
    ensures forall t :: t in db.txs && t != id ==> r.db.txs[t] == db.txs[t]
    ensures r.db.userinfo == db.userinfo
  {
    Step(Db(Adjust(db.balances, user, -amount), SetStatus(db.txs, id, PendingStatus), db.userinfo),
         BatchRows(db, id, user) > 0)
  }

  /** giveMoney: credits `amount` to one account and marks the transaction Success, in one batch. */
  function GiveMoney(db: Db, id: TxId, user: AccountId, amount: int): (r: Step)
    ensures r.ok <==> user in db.balances || id in db.txs
    ensures r.db.balances.Keys == db.balances.Keys
    ensures user in db.balances ==> r.db.balances[user] == db.balances[user] + amount
    ensures forall a :: a in db.balances && a != user ==> r.db.balances[a] == db.balances[a]
    ensures r.db.txs.Keys == db.txs.Keys
    ensures id in db.txs ==> r.db.txs[id] == db.txs[id].(status := SuccessStatus)
    ensures forall t :: t in db.txs && t != id ==> r.db.txs[t] == db.txs[t]
    ensures r.db.userinfo == db.userinfo
  {
    Step(Db(Adjust(db.balances, user, amount), SetStatus(db.txs, id, SuccessStatus), db.userinfo),
         BatchRows(db, id, user) > 0)
  }

  /** A debit followed by a credit of the same amount to the same account leaves its balance as it was. */
  lemma WithdrawThenGiveRestores(db: Db, id: TxId, user: AccountId, amount: int)
    ensures GiveMoney(WithdrawMoney(db, id, user, amount).db, id, user, amount).db.balances == db.balances
  {
    var w := WithdrawMoney(db, id, user, amount).db;
    var g := GiveMoney(w, id, user, amount).db;
    assert forall a :: a in g.balances ==> g.balances[a] == db.balances[a];
  }

  /**
   * addTransaction: inserts a transaction row. UUID is the primary key, so an
   * existing id makes the INSERT throw; the error is caught and reported as
   * false, and the stored row stays as it was.
   */
  function AddTransaction(db: Db, id: TxId, tx: Tx): (r: Step)
    ensures r.ok <==> id !in db.txs
    ensures r.ok ==> r.db == db.(txs := db.txs[id := tx])
    ensures !r.ok ==> r.db == db
  {
    if id in db.txs then Step(db, false) else Step(db.(txs := db.txs[id := tx]), true)
  }

  /** updateTransactionStatus: overwrites status and description, whatever the current status is. */
  function UpdateTransactionStatus(db: Db, id: TxId, status: TxStatus, description: string): (r: Step)
    ensures r.ok <==> id in db.txs
    ensures r.db.balances == db.balances && r.db.userinfo == db.userinfo
    ensures r.db.txs.Keys == db.txs.Keys
    ensures r.ok ==> r.db.txs[id] == db.txs[id].(status := status, description := description)
    ensures forall t :: t in db.txs && t != id ==> r.db.txs[t] == db.txs[t]
  {
    if id in db.txs then
      Step(db.(txs := db.txs[id := db.txs[id].(status := status, description := description)]), true)
    else Step(db, false)
  }

  /** Nothing guards a settled record: a Success transaction can be rewritten to Failed. */
  lemma StatusWriteIsUnconditional(db: Db, id: TxId, description: string)
    requires id in db.txs && db.txs[id].status == SuccessStatus
    ensures UpdateTransactionStatus(db, id, FailedStatus, description).ok
    ensures UpdateTransactionStatus(db, id, FailedStatus, description).db.txs[id].status == FailedStatus
  {
  }

  /** The rows SetTransExpired rewrites: Pending and no later than the deadline. */
  predicate Stale(tx: Tx, deadTime: int) {
    tx.time <= deadTime && tx.status == PendingStatus
  }

  function Expire(tx: Tx, deadTime: int): Tx {
    if Stale(tx, deadTime) then tx.(status := FailedStatus, description := ExpiredText) else tx
  }

  /**
   * SetTransExpired: every stale row becomes Failed with description
   * "expired"; every other row is untouched; true iff a row was rewritten.
   */
  function SetTransExpired(db: Db, deadTime: int): (r: Step)
    ensures r.db.balances == db.balances && r.db.userinfo == db.userinfo
    ensures r.db.txs.Keys == db.txs.Keys
    ensures forall t :: t in db.txs && Stale(db.txs[t], deadTime) ==>
      r.db.txs[t] == db.txs[t].(status := FailedStatus, description := ExpiredText)
    ensures forall t :: t in db.txs && !Stale(db.txs[t], deadTime) ==> r.db.txs[t] == db.txs[t]
    ensures r.ok <==> exists t :: t in db.txs && Stale(db.txs[t], deadTime)
  {
    Step(db.(txs := map t | t in db.txs :: Expire(db.txs[t], deadTime)),
         exists t :: t in db.txs && Stale(db.txs[t], deadTime))
  }

  /** After a sweep no stale row is left, so a second sweep changes nothing and reports false. */
  lemma {:induction false} SetTransExpiredIdempotent(db: Db, deadTime: int)
    ensures var once := SetTransExpired(db, deadTime).db;
      (forall t :: t in once.txs ==> !Stale(once.txs[t], deadTime))
      && SetTransExpired(once, deadTime).db == once
      && !SetTransExpired(once, deadTime).ok
  {
    var once := SetTransExpired(db, deadTime).db;
    forall t | t in once.txs
      ensures !Stale(once.txs[t], deadTime)
    {
      assert t in db.txs;
    }
    var twice := SetTransExpired(once, deadTime).db;
    assert twice.txs == once.txs;
  }

  /** ValidateTransfer: the row exists and holds exactly the presented secure code. */
  function ValidateTransfer(db: Db, secureCode: string, id: TxId): (r: bool)
    ensures r <==> id in db.txs && db.txs[id].secureCode == secureCode
  {
    id in db.txs && db.txs[id].secureCode == secureCode
  }

  /**
   * The columns FetchTransaction(UUID) copies out of a row: every column but
   * `secure`, which the fetched record never receives.
   */
  datatype TxView = TxView(
    sender: AccountId,
    receiver: AccountId,
    amount: int,
    objectId: string,
    regionHandle: string,
    txType: int,
    time: int,
    status: TxStatus,
    description: string)

  /** A stored row as FetchTransaction(UUID) reads it back. */
  function View(tx: Tx): TxView {
    TxView(tx.sender, tx.receiver, tx.amount, tx.objectId, tx.regionHandle, tx.txType, tx.time, tx.status, tx.description)
  }

  /**
   * FetchTransaction by id. None stands for "no row"; the C# method then
   * returns a record whose fields keep their defaults, and each caller is
   * modelled with what it does with such a record.
   */
  function FetchTransaction(db: Db, id: TxId): (r: Option<TxView>)
    ensures r.Some? <==> id in db.txs
    ensures r.Some? ==> r.value == View(db.txs[id])
  {
    if id in db.txs then Some(View(db.txs[id])) else None
  }

  /** A fetch reads back every column an accepted insert stored, except the secure code. */
  lemma FetchAfterAdd(db: Db, id: TxId, tx: Tx)
    requires id !in db.txs
    ensures FetchTransaction(AddTransaction(db, id, tx).db, id) == Some(View(tx))
  {
  }

  /** Two rows that differ only in their secure code read back alike: the fetch cannot reveal the code. */
  lemma FetchHidesSecureCode(db: Db, id: TxId, code: string)
    requires id in db.txs
    ensures FetchTransaction(db.(txs := db.txs[id := db.txs[id].(secureCode := code)]), id) == FetchTransaction(db, id)
  {
  }

  /** fetchUserInfo: the row, or null when there is none. */
  function FetchUserInfo(db: Db, user: AccountId): (r: Option<UserInfo>)
    ensures r.Some? <==> user in db.userinfo
    ensures r.Some? ==> r.value == db.userinfo[user]
  {
    if user in db.userinfo then Some(db.userinfo[user]) else None
  }

  /** addUserInfo: inserts a userinfo row; a duplicate key is caught and reported as false. */
  function AddUserInfo(db: Db, user: AccountId, info: UserInfo): (r: Step)
    ensures r.ok <==> user !in db.userinfo
    ensures r.ok ==> r.db == db.(userinfo := db.userinfo[user := info])
    ensures !r.ok ==> r.db == db
  {
    if user in db.userinfo then Step(db, false)
    else Step(db.(userinfo := db.userinfo[user := info]), true)
  }

  /** updateUserInfo: rewrites an existing userinfo row. */
  function UpdateUserInfo(db: Db, user: AccountId, info: UserInfo): (r: Step)
    ensures r.ok <==> user in db.userinfo
    ensures r.ok ==> r.db == db.(userinfo := db.userinfo[user := info])
    ensures !r.ok ==> r.db == db
  {
    if user in db.userinfo then Step(db.(userinfo := db.userinfo[user := info]), true)
    else Step(db, false)
  }

  /** An absolute write reads back: the written account reports the new amount, every other account reads as before. */
  lemma UpdateBalanceReadsBack(db: Db, user: AccountId, amount: int, other: AccountId)
    ensures GetBalance(UpdateBalance(db, user, amount).db, other, false)
      == if other == user && user in db.balances then amount else GetBalance(db, other, false)
  {
  }

  /** After addUserInfo the fetch sees `info` for a new user; an existing row and every other user read as before. */
  lemma AddUserInfoReadsBack(db: Db, user: AccountId, info: UserInfo, other: AccountId)
    ensures FetchUserInfo(AddUserInfo(db, user, info).db, other)
      == if other == user && user !in db.userinfo then Some(info) else FetchUserInfo(db, other)
  {
  }

  /** After updateUserInfo the fetch sees `info` for an existing user; a missing row and every other user read as before. */
  lemma UpdateUserInfoReadsBack(db: Db, user: AccountId, info: UserInfo, other: AccountId)
    ensures FetchUserInfo(UpdateUserInfo(db, user, info).db, other)
      == if other == user && user in db.userinfo then Some(info) else FetchUserInfo(db, other)
  {
  }

  /**
   * The two statements cover each other: for any user exactly one of them
   * matches, and whichever does leaves `info` readable, so "insert, else
   * update" always stores the row.
   */
  lemma AddOrUpdateStoresInfo(db: Db, user: AccountId, info: UserInfo)
    ensures AddUserInfo(db, user, info).ok != UpdateUserInfo(db, user, info).ok
    ensures var after := if AddUserInfo(db, user, info).ok then AddUserInfo(db, user, info).db
                         else UpdateUserInfo(db, user, info).db;
      FetchUserInfo(after, user) == Some(info)
  {
  }

  /**
   * The secure code recorded with a transaction is the only one that
   * validates it, and no code validates an id with no row.
   */
  lemma ValidateAfterAdd(db: Db, id: TxId, tx: Tx, code: string)
    requires id !in db.txs
    ensures !ValidateTransfer(db, code, id)
    ensures ValidateTransfer(AddTransaction(db, id, tx).db, code, id) <==> code == tx.secureCode
  {
  }
}

=== FILE: txquery.dfy ===
/*
 * The history query of the store: the transactions a user took part in
 * within a time window, ordered by time and cut to one page
 * (`... order by time asc limit index, num`), and the matching count.
 */
module TxQuery {
  import opened Store

  /**
   * The columns the range query copies out of a row: neither `secure` nor
   * `regionHandle` is read.
   */
  datatype TxEntry = TxEntry(
    sender: AccountId,
    receiver: AccountId,
    amount: int,
    objectId: string,
    txType: int,
    time: int,
    status: TxStatus,
    description: string)

  function Entry(tx: Tx): TxEntry {
    TxEntry(tx.sender, tx.receiver, tx.amount, tx.objectId, tx.txType, tx.time, tx.status, tx.description)
  }

  /** A result row: the transaction key with the columns read from its record. */
  datatype Row = Row(id: TxId, entry: TxEntry)

  /** The WHERE clause both queries share: time within [start, end] and the user on either side. */
  predicate Involves(tx: Tx, user: AccountId, start: int, end: int) {
    start <= tx.time <= end && (tx.sender == user || tx.receiver == user)
  }

  /** The keys of every row the WHERE clause selects. */
  function MatchingIds(db: Db, user: AccountId, start: int, end: int): set<TxId> {
    set t | t in db.txs && Involves(db.txs[t], user, start, end)
  }

  /** getTransactionNum: `SELECT COUNT(*)` under the shared WHERE clause. */
  function GetTransactionNum(db: Db, user: AccountId, start: int, end: int): nat {
    |MatchingIds(db, user, start, end)|
  }

  /** Recording a transaction raises the count by one exactly when it matches the window. */
  lemma CountAfterAdd(db: Db, id: TxId, tx: Tx, user: AccountId, start: int, end: int)
    requires id !in db.txs
    ensures var n := GetTransactionNum(AddTransaction(db, id, tx).db, user, start, end);
      n == GetTransactionNum(db, user, start, end) + (if Involves(tx, user, start, end) then 1 else 0)
  {
    var after := AddTransaction(db, id, tx).db;
    MatchingAfterInsert(db, after, id, tx, user, start, end);
    var before := MatchingIds(db, user, start, end);
    assert id !in before;
    if Involves(tx, user, start, end) {
      assert |before + {id}| == |before| + 1;
    }
  }

  lemma MatchingAfterInsert(db: Db, after: Db, id: TxId, tx: Tx, user: AccountId, start: int, end: int)
    requires id !in db.txs && after.txs == db.txs[id := tx]
    ensures MatchingIds(after, user, start, end)
         == MatchingIds(db, user, start, end) + (if Involves(tx, user, start, end) then {id} else {})
  {
  }

  /** `order by time asc`. */
  predicate SortedByTime(rows: seq<Row>) {
    forall i, j :: 0 <= i < j < |rows| ==> rows[i].entry.time <= rows[j].entry.time
  }

  function Ids(rows: seq<Row>): set<TxId> {
    set r | r in rows :: r.id
  }

  /** Places one row into a time-ordered listing, after the rows with the same time. */
  function InsertByTime(rows: seq<Row>, r: Row): (out: seq<Row>)
    requires SortedByTime(rows)
    ensures SortedByTime(out)
    ensures |out| == |rows| + 1
    ensures forall x :: x in out <==> x in rows || x == r
  {
    if |rows| == 0 then [r]
    else if r.entry.time < rows[0].entry.time then [r] + rows
    else
      var rest := InsertByTime(rows[1..], r);
      assert rows == [rows[0]] + rows[1..];
      assert forall x :: x in rest ==> rows[0].entry.time <= x.entry.time;
      [rows[0]] + rest
  }

  /** Insertion adds the row and keeps every other one: the listing is a permutation of the rows plus the new one. */
  lemma {:induction false} InsertByTimePermutes(rows: seq<Row>, r: Row)
    requires SortedByTime(rows)
    ensures multiset(InsertByTime(rows, r)) == multiset(rows) + multiset{r}
  {
    if |rows| > 0 && r.entry.time >= rows[0].entry.time {
      InsertByTimePermutes(rows[1..], r);
      assert rows == [rows[0]] + rows[1..];
    }
  }

  /** `limit index, num`: at most num rows, starting at offset index. */
  function Window(rows: seq<Row>, index: nat, num: nat): (w: seq<Row>)
    ensures index >= |rows| ==> w == []
    ensures index < |rows| ==> |w| == if index + num <= |rows| then num else |rows| - index
    ensures forall k :: 0 <= k < |w| ==> index + k < |rows| && w[k] == rows[index + k]
  {
    if index >= |rows| then []
    else if index + num <= |rows| then rows[index..index + num]
    else rows[index..]
  }

  /**
   * FetchTransaction(user, start, end, index, retNum): `listing` is the
   * complete time-ordered answer to the WHERE clause (one row per matching
   * transaction, so exactly getTransactionNum rows), and `page` is the window
   * of it the LIMIT clause returns. Each row carries the columns the query
   * reads from its record. Rows with equal times may come in any order.
   */
  method FetchTransactions(db: Db, user: AccountId, start: int, end: int, index: nat, retNum: nat)
    returns (page: seq<Row>, listing: seq<Row>)
    ensures SortedByTime(listing)
    ensures forall r :: r in listing ==> r.id in db.txs && r.entry == Entry(db.txs[r.id]) && Involves(db.txs[r.id], user, start, end)
    ensures Ids(listing) == MatchingIds(db, user, start, end)
    ensures |listing| == GetTransactionNum(db, user, start, end)
    ensures page == Window(listing, index, retNum)
    ensures |page| <= retNum && SortedByTime(page)
    ensures forall r :: r in page ==> r.id in db.txs && Involves(db.txs[r.id], user, start, end)
  {
    var matching := MatchingIds(db, user, start, end);
    var pending := matching;
    listing := [];
    while pending != {}
      invariant pending <= matching
      invariant SortedByTime(listing)
      invariant forall r :: r in listing ==> r.id in db.txs && r.entry == Entry(db.txs[r.id]) && Involves(db.txs[r.id], user, start, end)
      invariant Ids(listing) !! pending
      invariant Ids(listing) + pending == matching
      invariant |listing| + |pending| == |matching|
      decreases |pending|
    {
      var t :| t in pending;
      var before := listing;
      listing := InsertByTime(listing, Row(t, Entry(db.txs[t])));
      assert Ids(listing) == Ids(before) + {t};
      pending := pending - {t};
    }
    page := Window(listing, index, retNum);
    assert forall r :: r in page ==> r in listing;
  }
}
